=== FILE: README.md ===
# SICC.Sharp assembler core in Dafny

SICC.Sharp is a two-pass assembler for the SIC machine. This project models
its core as pure Dafny functions over immutable values, and proves
properties of that model.

- **First pass.** It reads source lines until the first empty one. Each line
  splits into label, mnemonic and operand. A START line sets the base
  address. Every later line gets the previous line's address plus that
  line's size: 3, 3·n for `RESW n`, n for `RESB n`, and 0 for START and END
  with a decimal operand. Two exceptions are kept as the code has them. A
  line without a decimal operand counts 3 bytes, `START 1A00` included.
  A line after address FFFFFFFF does not advance.
- **Second pass.** It writes each line's object code: the opcode followed by
  the operand's address (direct mode), or by the operand's address with the
  index bit forced on (indexed mode, `X,…`). `WORD` writes its constant.
  START and END are skipped.
- **Output.** The passes produce a tab-separated listing and an object
  program. The object program is a header record (`H^name^start^size`),
  text records of at most eight object codes each (`T^address^length^codes…^`)
  and an end record (`E^entry`).

The modules follow the program's files:

| module | models |
|---|---|
| `Wrappers`, `Errors` | `Result`/`Option` and one error per exception kind the core can throw |
| `Numerals`, `NumberFormat` | digit strings, `int.Parse(_, HexNumber)`, `ToString("X")`, `int.TryParse`, `FormatHexToLength` |
| `Entities`, `MnemonicList` | `Mnemonic`, `Instruction`, the 59-row instruction table, START/END and the declarations |
| `MathHelper` | `AddHex`, `SubHex`, `CalculateOpCodeBitArray`, both `CalculateLocationOffset` versions |
| `Text`, `Chunking` | `Split`/`Join`/`Trim` and `Chunk` |
| `Parser` | `GetMnemonic` and `ParseInstructions` |
| `FirstPass`, `SecondPass` | the two passes of `CompileAsync` and the symbol table |
| `ObjectProgram` | `CompileObjectProgram` and the three record builders |
| `Listing`, `Assembler` | the listing and the whole run on the lines of one file |

C# integers are `Int32`. The model keeps their wrap-around exactly instead of
excluding it by preconditions:
- `int.Parse(s, HexNumber)` reads up to 32 bits as a two's-complement value;
- `ToString("X")` prints the value modulo 2^32;
- so `AddHex` and `SubHex` compute modulo 2^32.

Every exception the core can throw is a `Failure` with its own `Error`.
A C# `null` is `None`.

## Model

| member | source | states |
|---|---|---|
| NumberFormat.ParseHex | SICCSharp/Extensions/MathHelper.cs:10 | `int.Parse(_, HexNumber)` accepts exactly the non-empty hexadecimal strings below 2^32, and the Int32 it yields equals the string's value modulo 2^32 |
| NumberFormat.FormatHex | SICCSharp/Extensions/MathHelper.cs:10 | `ToString("X")` yields a canonical upper-case hexadecimal string (no leading zeros) whose value is the Int32 taken modulo 2^32 |
| NumberFormat.FormatParseHex | SICCSharp/Extensions/MathHelper.cs:10 | parsing what `ToString("X")` prints gives back the same Int32, negative values included |
| NumberFormat.ParseFormatHex | SICCSharp/Extensions/MathHelper.cs:10 | a canonical 32-bit hexadecimal string survives a parse and a print unchanged |
| NumberFormat.ParseDecimal | SICCSharp/Extensions/MathHelper.cs:18 | `int.TryParse` accepts exactly an optionally signed decimal numeral whose value fits Int32, and returns that value |
| NumberFormat.ParseDecimalRoundTrip | SICCSharp/Extensions/MathHelper.cs:18 | every decimal numeral below 2^31 and its negation parse back to their value |
| NumberFormat.HexLetterNotDecimal | SICCSharp/Extensions/MathHelper.cs:18 | an operand with a non-digit after its first character, such as a hexadecimal letter, is never a decimal number |
| NumberFormat.FormatHexToLength | SICCSharp/Extensions/CompileHelper.cs:330-336 | fails for null or non-hexadecimal input; otherwise the result is the input left-padded with '0' to the width (never truncated), so it keeps the input as its suffix and keeps its numeric value |
| NumberFormat.FormatHexToLengthIdempotent | SICCSharp/Extensions/CompileHelper.cs:330-336 | formatting an already formatted field to the same width changes nothing |
| MathHelper.AddHex | SICCSharp/Extensions/MathHelper.cs:10 | succeeds iff both operands parse as 32-bit hexadecimal; the result is canonical and its value is the sum modulo 2^32 |
| MathHelper.SubHex | SICCSharp/Extensions/MathHelper.cs:11 | succeeds iff both operands parse; the result is canonical and its value is the difference modulo 2^32 |
| MathHelper.SubHexUndoesAddHex | SICCSharp/Extensions/MathHelper.cs:10-11 | subtracting b from a+b gives a number equal in value to a, wrap-around included |
| MathHelper.SubHexUndoesAddHexExactly | SICCSharp/Extensions/MathHelper.cs:10-11 | for a canonical a, subtracting b from a+b gives back the string a itself |
| MathHelper.AddHexSample | SICCSharp.Test/CalculationTest.cs:11-12 | `AddHex("0008AB", "000B78")` is `"1423"` |
| MathHelper.SubHexSample | SICCSharp.Test/CalculationTest.cs:25-26 | `SubHex("000250", "000128")` is `"128"` |
| MathHelper.NibbleBitsValue | SICCSharp/Extensions/MathHelper.cs:13-14 | a hexadecimal digit becomes four binary digits with the same value |
| MathHelper.NibbleBitsIsPaddedBinary | SICCSharp/Extensions/MathHelper.cs:13-14 | a digit's four bits are its base-2 numeral without leading zeros, padded on the left with '0' to four characters |
| MathHelper.BitsOfValue | SICCSharp/Extensions/MathHelper.cs:13-14 | the concatenated bit string of a hexadecimal string has the same value as the string |
| MathHelper.CalculateOpCodeBitArray | SICCSharp/Extensions/MathHelper.cs:13-14 | fails iff some character is not a hexadecimal digit; otherwise yields exactly four binary digits per input digit |
| MathHelper.BitArraySample | SICCSharp.Test/CalculationTest.cs:18-19 | the bit array of `"123D"` is `"0001001000111101"` |
| MathHelper.CalculateLocationOffset | SICCSharp/Extensions/MathHelper.cs:16-31 | a line without a decimal operand is 3 bytes long; with one, START/END take 0, `RESW n` takes 3n, `RESB n` takes n and every other line takes 3 (Int32 wrap-around kept) |
| MathHelper.LegacyCalculateLocationOffset | SICCSharp/MathHelper.cs:17-31 | START/END take 0; RESW/RESB take 3n/n, or 0 when no operand is given; every other name takes 3 |
| MathHelper.OffsetsAgreeOnDecimalOperands | SICCSharp/MathHelper.cs:17-31 | on an instruction with a decimal operand the two versions of the size calculation agree |
| MathHelper.OffsetsDifferWithoutOperand | SICCSharp/Extensions/MathHelper.cs:18 | without a decimal operand the current version answers 3 for every line; the legacy one answers 0 for START, END, RESW and RESB |
| MathHelper.LegacyOffsetSamples | SICCSharp.Test/UnitTest1.cs:13-20 | WORD and LDX take 3 bytes, `RESW 100` takes 0x12C (300) and `RESB 100` takes 0x64 (100) |
| MathHelper.OffsetSamples | SICCSharp/Extensions/MathHelper.cs:24-27 | the current version gives the same 0x12C and 0x64 for `RESW 100` and `RESB 100` |
| MathHelper.HexStartOperandOffset | SICCSharp/Extensions/MathHelper.cs:18 | `START 1A00` takes 3 bytes, not 0, because its operand is not decimal |
| MnemonicList.StandardNamesDistinct | SICCSharp/MnemonicList.cs:7-68 | no two rows of the instruction table share a name |
| MnemonicList.StandardOpCodesDistinct | SICCSharp/MnemonicList.cs:7-68 | no two rows of the instruction table share an opcode |
| MnemonicList.StandardOpCodesAreBytes | SICCSharp/MnemonicList.cs:7-68 | every opcode of the table is two upper-case hexadecimal digits |
| MnemonicList.StandardIndexInverse | SICCSharp/MnemonicList.cs:7-68 | looking up any row's name finds that row |
| MnemonicList.OpCodeIndexInverse | SICCSharp/MnemonicList.cs:7-68 | looking up any row's opcode finds that row |
| MnemonicList.SymbolNames | SICCSharp/MnemonicList.cs:73-79 | the declaration instructions are exactly RESW, RESB and WORD |
| MnemonicList.ReservedNamesNotStandard | SICCSharp/MnemonicList.cs:70-79 | no table row is START, END or a declaration |
| MnemonicList.LdaHasDefaultOpCode | SICCSharp/Entities/Mnemonic.cs:22 | LDA's opcode is the default "00", so every name-only mnemonic carries a table opcode |
| Parser.SingleOrDefault | SICCSharp/Extensions/CompileHelper.cs:396-397 | finds no row iff no row has the name; a found row has the name |
| Parser.SymbolNamesDistinct | SICCSharp/MnemonicList.cs:73-79 | no two declaration instructions share a name |
| Parser.LookupNeverThrows | SICCSharp/Extensions/CompileHelper.cs:396-397 | neither `SingleOrDefault` lookup can meet two matching rows, so `GetMnemonic` never throws |
| Parser.GetMnemonic | SICCSharp/Extensions/CompileHelper.cs:395-398 | always succeeds, with a mnemonic of the requested name |
| Parser.GetMnemonicStandard | SICCSharp/Extensions/CompileHelper.cs:396 | a table name yields its table row |
| Parser.GetMnemonicOther | SICCSharp/Extensions/CompileHelper.cs:397-398 | a name outside the table yields that name with the default opcode "00" |
| Parser.GetMnemonicOpCodeIsStandard | SICCSharp/Extensions/CompileHelper.cs:395-398 | every mnemonic `GetMnemonic` returns carries an opcode that occurs in the table |
| Parser.GetMnemonicRsub | SICCSharp/MnemonicList.cs:7-68 | RSUB is opcode 4C |
| Parser.GetMnemonicLdx | SICCSharp/MnemonicList.cs:7-68 | LDX is opcode 04 |
| Parser.GetMnemonicStch | SICCSharp/MnemonicList.cs:51 | STCH is opcode 54 |
| Parser.GetMnemonicJ | SICCSharp/MnemonicList.cs:23 | J is opcode 3C |
| Parser.GetMnemonicResw | SICCSharp/MnemonicList.cs:73-79 | RESW comes from the declarations with opcode 00 |
| Parser.Tokens | SICCSharp/Extensions/CompileHelper.cs:347-350 | every token is non-empty, free of delimiters and trimmed |
| Parser.TokensOfJoin | SICCSharp/Extensions/CompileHelper.cs:347-350 | a line written as tokens joined by spaces splits back into exactly those tokens |
| Parser.TokensOfTabJoin | SICCSharp/Extensions/CompileHelper.cs:347-350 | a line written as tokens joined by single tabs splits back into exactly those tokens |
| Parser.TokensOfSpaced | SICCSharp/Extensions/CompileHelper.cs:347-350 | a line made of an optional run of tabs and spaces, then the tokens each followed by such a run (non-empty between two tokens, optional after the last) has exactly those tokens, in order; a line of tabs and spaces alone has none |
| Parser.NonBlankAppend | SICCSharp/Extensions/CompileHelper.cs:348 | dropping the blank pieces of two lists one after the other gives the blank-free pieces of the joined list, in order |
| Parser.TokensNoneOf | SICCSharp/Extensions/CompileHelper.cs:347-350 | a token holds only characters that occur in its line |
| Parser.ParseInstruction | SICCSharp/Extensions/CompileHelper.cs:343-393 | fails iff the line has other than 1, 2 or 3 tokens; 1 token is a mnemonic, 2 add an operand, 3 add a label in front; only START takes its operand as its address |
| Parser.ParsedCells | SICCSharp/Extensions/CompileHelper.cs:343-393 | a parsed line without line breaks has a label, mnemonic name and operand free of tabs and line breaks, a table opcode and no object code yet |
| Parser.ParseWrittenLine | SICCSharp/Extensions/CompileHelper.cs:371-378 | `label mnemonic operand` parses back into that label, mnemonic and operand |
| Parser.ParseWrittenUnlabelledLine | SICCSharp/Extensions/CompileHelper.cs:366-370 | `mnemonic operand` parses back with no label |
| Parser.BlankLineRejected | SICCSharp/Extensions/CompileHelper.cs:379-381 | a line of white space alone is a count mismatch |
| FirstPass.Step | SICCSharp/Extensions/CompileHelper.cs:54-85 | a line that did not parse stops the pass with the parser's error |
| FirstPass.RunTo | SICCSharp/Extensions/CompileHelper.cs:54-85 | after n lines the pass holds n instructions numbered 1..n in reading order, and the counter is n+1 |
| FirstPass.LinesRead | SICCSharp/Extensions/CompileHelper.cs:54 | the lines read are the longest prefix with no empty line, and reading stops at the first empty line |
| FirstPass.Pass | SICCSharp/Extensions/CompileHelper.cs:54-85 | the pass yields one instruction per line read, numbered from 1 |
| FirstPass.PassSucceeds | SICCSharp/Extensions/CompileHelper.cs:54-85 | the pass succeeds iff every line read parses and every START operand is 32-bit hexadecimal |
| FirstPass.PassLineParsed | SICCSharp/Extensions/CompileHelper.cs:62-83 | each placed instruction is its line's parse, changed only in its line number and address |
| FirstPass.StepKeepsConsistent | SICCSharp/Extensions/CompileHelper.cs:57-80 | each step keeps the invariant that the address buffer and offset buffer describe the last placed line |
| FirstPass.RunConsistent | SICCSharp/Extensions/CompileHelper.cs:54-85 | that invariant holds after every prefix of the pass |
| FirstPass.StartAddressIsOperand | SICCSharp/Extensions/CompileHelper.cs:65-66 | a START line sits at its own operand |
| FirstPass.PassAddressesHex | SICCSharp/Extensions/CompileHelper.cs:57-79 | every address the first pass writes is a 32-bit hexadecimal numeral, since it is stored only after `int.Parse` read it |
| FirstPass.AddressAdvances | SICCSharp/Extensions/CompileHelper.cs:57-80 | a non-START line after an addressed line sits at that line's address plus that line's size, except after address FFFFFFFF, which parses to the -1 sentinel and does not advance |
| FirstPass.DefaultBase | SICCSharp/Extensions/CompileHelper.cs:68-72 | without START the first line gets no address and the second gets address 0 |
| FirstPass.StepSucceeds | SICCSharp/Extensions/CompileHelper.cs:65-79 | a step fails iff the line did not parse or it is a START line whose operand is not 32-bit hexadecimal; a step leaves a valid base |
| FirstPass.RunSucceeds | SICCSharp/Extensions/CompileHelper.cs:54-85 | n lines place without error iff each of them is placeable |
| FirstPass.ParseEachParsed | SICCSharp/Extensions/CompileHelper.cs:384-385 | only START lines come out of the parser with an address |
| SecondPass.SymbolTable | SICCSharp/Extensions/CompileHelper.cs:317-319 | the symbol table holds exactly the declaration lines, and no more of them than the input has |
| SecondPass.SymbolTableAppend | SICCSharp/Extensions/CompileHelper.cs:317-319 | the table of two concatenated lists is the first list's table followed by the second's, so the declarations keep their reading order |
| SecondPass.SymbolTableSingle | SICCSharp/Extensions/CompileHelper.cs:318 | a single line is in the table iff it is a declaration |
| SecondPass.FindLabel | SICCSharp/Extensions/CompileHelper.cs:106-128 | `FirstOrDefault` by label finds the first line with that label, and nothing iff no line has it |
| SecondPass.FindSymbol | SICCSharp/Extensions/CompileHelper.cs:89-106 | a search of the symbol table finds the first declaration line with the label |
| SecondPass.IndexedAddress | SICCSharp/Extensions/CompileHelper.cs:115-118 | the index-bit address fails for a null, non-hexadecimal, empty or longer than 8 digit address; otherwise it has as many digits as the address and its value is the address with its top bit set |
| SecondPass.IndexedAddressSample | SICCSharp/Extensions/CompileHelper.cs:115-118 | `BUFFER,X` with BUFFER at 2050 addresses A050 |
| SecondPass.ObjectCode | SICCSharp/Extensions/CompileHelper.cs:99-146 | START and END get no object code; only a WORD constant or an indexed operand can fail |
| SecondPass.ObjectCodeIsCell | SICCSharp/Extensions/CompileHelper.cs:99-146 | an object code holds no tab or line break when the opcode and the list's addresses hold none |
| SecondPass.Resolve | SICCSharp/Extensions/CompileHelper.cs:96-147 | writing an object code changes nothing else in the instruction |
| SecondPass.SkipsBeginEnd | SICCSharp/Extensions/CompileHelper.cs:99 | START and END lines are left as they are |
| SecondPass.NoOperand | SICCSharp/Extensions/CompileHelper.cs:144-145 | a line without operand gets its opcode padded with '0' to six characters |
| SecondPass.WordConstant | SICCSharp/Extensions/CompileHelper.cs:129-133 | `WORD c` succeeds iff c is 32-bit hexadecimal, and its code is c padded to six digits |
| SecondPass.DirectOperand | SICCSharp/Extensions/CompileHelper.cs:125-145 | a direct operand gets opcode plus the first matching label's address, right-padded with '0' to six characters |
| SecondPass.DirectOperandMissing | SICCSharp/Extensions/CompileHelper.cs:135-141 | a direct operand naming no label leaves the line without code |
| SecondPass.IndexedOperand | SICCSharp/Extensions/CompileHelper.cs:103-120 | an indexed operand gets opcode plus the index-bit address of the first declaration with that label, and fails exactly when that address does |
| SecondPass.IndexedOperandMissing | SICCSharp/Extensions/CompileHelper.cs:107-112 | an indexed operand whose name is no declaration leaves the line without code |
| SecondPass.ObjectCodeReadsNoCodes | SICCSharp/Extensions/CompileHelper.cs:96-147 | a line's object code does not depend on the codes already written, so writing in place equals writing from the first-pass list |
| SecondPass.ResolveIdempotent | SICCSharp/Extensions/CompileHelper.cs:96-147 | resolving a resolved line again gives the same line |
| SecondPass.Collect | SICCSharp/Extensions/CompileHelper.cs:96-147 | the loop completes iff every line succeeds, and then each result is that line's resolution |
| SecondPass.FirstFailure | SICCSharp/Extensions/CompileHelper.cs:96-147 | a failing loop stops with the error of the first failing line |
| SecondPass.ResolveAll | SICCSharp/Extensions/CompileHelper.cs:96-147 | the second pass succeeds iff every line resolves; it changes only object codes, and each line gets its own resolution |
| SecondPass.ResolveInPlace | SICCSharp/Extensions/CompileHelper.cs:96-147 | the in-place loop over the list computes the same result as resolving every line against the first-pass list |
| SecondPass.SecondPassIdempotent | SICCSharp/Extensions/CompileHelper.cs:96-147 | running the second pass again on its own output changes nothing |
| Text.Trim | SICCSharp/Extensions/CompileHelper.cs:349 | a non-empty result starts and ends with non-white space |
| Text.TrimIsSlice | SICCSharp/Extensions/CompileHelper.cs:349 | the result is a contiguous slice of the input, and everything cut off before and after it is white space |
| Text.TrimIdempotent | SICCSharp/Extensions/CompileHelper.cs:349 | trimming twice is trimming once |
| Text.BlankIffTrimsEmpty | SICCSharp/Extensions/CompileHelper.cs:348 | a string is white space alone iff it trims to empty |
| Text.Split | SICCSharp/Extensions/CompileHelper.cs:347 | yields at least one piece and no piece holds a separator |
| Text.SplitJoin | SICCSharp/Extensions/CompileHelper.cs:347 | splitting a join of separator-free pieces gives back the pieces |
| Text.JoinSplit | SICCSharp/Extensions/CompileHelper.cs:347 | joining the pieces of a split gives back the string |
| Chunking.Chunk | SICCSharp/Extensions/EnumeratorExtensions.cs:14-34 | fails iff the size is below 1; otherwise the chunks, concatenated, give back the input, and each holds 1 to size items |
| Chunking.ChunkAt | SICCSharp/Extensions/EnumeratorExtensions.cs:20-28 | chunk i is the slice starting at i·size, of size items or up to the end |
| Chunking.ChunkSizes | SICCSharp/Extensions/EnumeratorExtensions.cs:20-28 | every chunk but the last is full |
| Chunking.ChunkCountIsCeiling | SICCSharp/Extensions/EnumeratorExtensions.cs:24-28 | there are ⌈length / size⌉ chunks |
| ObjectProgram.Keep | SICCSharp/Extensions/CompileHelper.cs:275 | keeps exactly the items satisfying the filter |
| ObjectProgram.OrderByLine | SICCSharp/Extensions/CompileHelper.cs:201 | the ordered instructions are sorted by line number and a permutation of the input |
| ObjectProgram.OrderByLineSorted | SICCSharp/Extensions/CompileHelper.cs:201 | ordering already ordered instructions leaves them unchanged |
| ObjectProgram.FirstWhere | SICCSharp/Extensions/CompileHelper.cs:213-215 | `FirstOrDefault` with a filter finds the first match, and nothing iff nothing matches |
| ObjectProgram.LastWhere | SICCSharp/Extensions/CompileHelper.cs:217 | `LastOrDefault` with a filter finds the last match, and nothing iff nothing matches |
| ObjectProgram.HeaderStart | SICCSharp/Extensions/CompileHelper.cs:213-215 | the header's first instruction is the first START line when there is one, and otherwise the first line |
| ObjectProgram.HeaderEnd | SICCSharp/Extensions/CompileHelper.cs:216-218 | the header's last instruction is the last END line when there is one, and otherwise the last line |
| ObjectProgram.BuildHeaderRecord | SICCSharp/Extensions/CompileHelper.cs:243-262 | rejects a non-START first or non-END last instruction; succeeds iff both carry 32-bit hexadecimal addresses; the record begins `H^` |
| ObjectProgram.HeaderRecordFields | SICCSharp/Extensions/CompileHelper.cs:252-259 | the header reads back as H, the program name (the START label or PROG), the start address padded to six digits, and the size end−start (mod 2^32) padded to six digits |
| ObjectProgram.CodeFields | SICCSharp/Extensions/CompileHelper.cs:290 | every kept code must be 32-bit hexadecimal, and each is padded to six digits |
| ObjectProgram.TextRecord | SICCSharp/Extensions/CompileHelper.cs:272-293 | a chunk without codes writes nothing; otherwise it writes one line starting `T^` |
| ObjectProgram.TextRecordFields | SICCSharp/Extensions/CompileHelper.cs:276-291 | a text record reads back as T, the first coded line's address, the byte count (code characters / 2) as at least two hex digits, each padded code, and an empty last field |
| ObjectProgram.BuildTextRecord | SICCSharp/Extensions/CompileHelper.cs:267-297 | no coded instruction means an empty text part |
| ObjectProgram.BuildTextRecordByGroups | SICCSharp/Extensions/CompileHelper.cs:270-293 | the text part is one text record per record group, in order, where a group is one chunk's coded lines |
| ObjectProgram.KeepIdempotent | SICCSharp/Extensions/CompileHelper.cs:275 | dropping the lines without code a second time drops nothing more |
| ObjectProgram.RecordGroupsPartition | SICCSharp/Extensions/CompileHelper.cs:270-275 | the coded instructions, in order, are split into records of at most eight |
| ObjectProgram.BuildEndRecord | SICCSharp/Extensions/CompileHelper.cs:302-312 | a program of nothing but START lines has no entry instruction |
| ObjectProgram.EndRecordFields | SICCSharp/Extensions/CompileHelper.cs:305-311 | the end record succeeds iff the first non-START line has a 32-bit hexadecimal address, and reads back as E and that address padded to six digits |
| ObjectProgram.CompileObjectProgram | SICCSharp/Extensions/CompileHelper.cs:195-238 | rejects, in order: no instructions, no addressed instruction, no START, no END; on success the lines are put in line order and the text is the header of the first START and last END, the command records, the declaration records, a line break, the end record and a line break, each of the four parts having succeeded |
| ObjectProgram.ProgramRecords | SICCSharp/Extensions/CompileHelper.cs:219-234 | for a non-empty list of lines: no START is rejected before no END; on success the header, the command records, the declaration records and the end record each succeeded, and the text is those four in that order with a line break before and after the end record |
| ObjectProgram.CombineRecords | SICCSharp/Extensions/CompileHelper.cs:219-234 | the program succeeds iff all four parts do; otherwise the first failing part, in the order header, commands, declarations, end, decides the error; on success the parts are concatenated in that order with the blank line before the end record |
| ObjectProgram.StandardLineGroups | SICCSharp/Extensions/CompileHelper.cs:223-228 | a line whose opcode is in the table joins the command group iff it is not START or END, and never the declaration group |
| ObjectProgram.TableOpCodesAreCommands | SICCSharp/Extensions/CompileHelper.cs:221-228 | when every opcode is a table opcode, the declaration group is empty and the command group is every line except START and END |
| ObjectProgram.ControlLinesNotEmitted | SICCSharp/Extensions/CompileHelper.cs:224-227 | START and END lines fall in neither group |
| ObjectProgram.CompileInOrder | SICCSharp/Extensions/CompileHelper.cs:195-238 | for sorted lines with table opcodes, the object program is the header, the text records of every line except START and END, a line break, the end record and a final line break |
| Listing.ListingText | SICCSharp/Extensions/CompileHelper.cs:150-172 | the listing is empty iff there are no instructions |
| Listing.RowColumns | SICCSharp/Extensions/CompileHelper.cs:155-169 | a row splits on tabs back into its five columns |
| Listing.RowHasFourTabs | SICCSharp/Extensions/CompileHelper.cs:158-168 | a row holds exactly four tabs |
| Listing.RowIsOneLine | SICCSharp/Extensions/CompileHelper.cs:171 | a row holds no line break |
| Listing.ListingLines | SICCSharp/Extensions/CompileHelper.cs:150-172 | the listing splits on line breaks into the rows, in order, plus a final empty piece |
| Listing.PrintableFields | SICCSharp/Extensions/CompileHelper.cs:155-169 | a line whose address, label, name, operand and object code hold no tab or line break has five printable columns |
| Assembler.Resolved | SICCSharp/Extensions/CompileHelper.cs:54-147 | the passes succeed iff both passes do, with one instruction per line read |
| Assembler.Assemble | SICCSharp/Extensions/CompileHelper.cs:40-190 | a run fails iff a pass fails; the listing is empty iff no line was read, and then the object program is rejected as empty |
| Assembler.ResolvedInLineOrder | SICCSharp/Extensions/CompileHelper.cs:201 | the resolved lines are numbered 1..n in order, so sorting them by line number changes nothing |
| Assembler.ResolvedOpCodesStandard | SICCSharp/Extensions/CompileHelper.cs:395-398 | every resolved line carries an opcode from the table |
| Assembler.AssembledObjectProgram | SICCSharp/Extensions/CompileHelper.cs:195-238 | for any assembled file the declaration group is empty, and a compiled object program is header, text records of every non-START/END line, and the end record |
| Assembler.AssembledListing | SICCSharp/Extensions/CompileHelper.cs:150-172 | for source lines without line breaks, the listing has one row per line read, each splitting into that line's five columns, followed by an empty piece |
| Assembler.ResolvedPrintable | SICCSharp/Extensions/CompileHelper.cs:54-146 | when no source line holds a line break, every column of every line after both passes is free of tabs and line breaks |

## Left out

- File I/O, `async`, path building and logging (`Log.*`) are left out. The assembler takes the lines of a file and returns the listing and the object program as strings.
- `Environment.NewLine` is modelled as `"\n"`.
- The internals of `EnumeratorWrapper` and `ChunkedEnumerable` are left out. `Chunk` is modelled by its result: consecutive slices.
- `int.Parse(_, HexNumber)` and `int.TryParse` accept surrounding white space and trailing NUL characters. The model leaves that leniency out. Tokens never begin or end with white space, because the parser trims them.
- `CultureInfo` is not modelled. Only the invariant culture's digits and sign are.
- `Formats` of a mnemonic, and the `MnemonicFormat` enumeration, are unused by the core. They are not modelled.
- Parser.Tokens: its own contract gives only the shape of each token. The exact tokens are proved for lines built from tokens and runs of tabs and spaces (Parser.TokensOfSpaced). A piece holding other white space, such as a carriage return after a token, is trimmed by the model as by the source, but no lemma states the tokens of such a line.
- ObjectProgram.OrderByLine: modelled as a stable insertion sort. Only sortedness, the permutation and the identity on sorted input are proved, not that it equals .NET's `OrderBy` on ties.
- Listing.ListingLines, Listing.RowColumns and Listing.RowHasFourTabs are stated for lines whose columns hold no tab or line break. For assembled programs that is proved (Assembler.ResolvedPrintable) from the one fact a line reader guarantees: no line holds a line break.
- The declarations RESW, RESB and WORD, and START and END, carry the default opcode "00", as `new Mnemonic { Name = … }` gives them. The model takes that as fixed.
- SICCSharp/MnemonicList.cs names its lists `Instructions`, `InstructionWhitelist` and `DeclarationInstructions`. The compile helper reads them as `StandardInstructions`, `BeginEndInstructions` and `SymbolInstructions`, and the model uses the compile helper's names.
- The legacy duplicates SICCSharp/CompileHelper.cs, SICCSharp/Instruction.cs and SICCSharp/Mnemonic.cs are not part of this model. Only `CalculateLocationOffset(string, int?)` of SICCSharp/MathHelper.cs is modelled.
- SICCSharp/Program.cs and SICCSharp/LaunchOptions.cs (command-line parsing) are not part of this model.
- The test SICCSharp.Test/UnitTest1.cs:13-20 compares the legacy offset, a string, with the integers 3, 300 and 100. MathHelper.LegacyOffsetSamples states the strings the method returns: "3", "12C" and "64".
- Two quirks are kept as behaviour, not corrected:
  - `START` with a hexadecimal operand such as `1A00` takes 3 bytes, because `int.TryParse` reads operands as decimal. So the line after `START 1A00` sits at 1A03.
  - A base address of FFFFFFFF parses to -1, which is the pass's "no buffer yet" sentinel, so the next line is not advanced.

=== FILE: Assembler.dfy ===
/** The whole assembly of one source file (SICCSharp/Extensions/CompileHelper.cs:40-190):
    the first pass places the lines, the second pass writes their object
    codes, the listing is produced, and only then is the object program
    compiled, so a listing exists even when the object program is rejected. */
module Assembler {
  import opened Wrappers
  import opened Errors
  import opened Entities
  import opened MnemonicList
  import opened Text
  import opened Parser
  import opened FirstPass
  import opened SecondPass
  import opened ObjectProgram
  import opened Listing

  /** What one run produces: the listing text and the object program (or the
      error that rejected it). */
  datatype Output = Output(listing: string, objectProgram: Result<string, Error>)

  /** The passes' result for the lines of a file, before the listing. */
  function Resolved(lines: seq<string>): (r: Result<seq<Instruction>, Error>)
    ensures r.Success? <==> Pass(lines).Success? && ResolveAll(Pass(lines).value).Success?
    ensures r.Success? ==> |r.value| == |LinesRead(lines)|
  {
    var placed :- Pass(lines);
    ResolveAll(placed)
  }

  /** Assembles the lines of a file. An error of either pass stops the run
      before anything is written; otherwise the listing is produced and the
      object program compiled from the same resolved lines. */
  function Assemble(lines: seq<string>): (r: Result<Output, Error>)
    ensures r.Success? <==> Resolved(lines).Success?
    ensures r.Success? ==> (r.value.listing == "" <==> |LinesRead(lines)| == 0)
    ensures r.Success? && |LinesRead(lines)| == 0 ==> r.value.objectProgram == Failure(EmptyProgram)
  {
    var resolved :- Resolved(lines);
    Success(Output(ListingText(resolved), CompileObjectProgram(resolved)))
  }

  /** The passes number the lines from one in reading order, so the resolved
      lines are already in line order and sorting them changes nothing. */
  lemma ResolvedInLineOrder(lines: seq<string>)
    requires Resolved(lines).Success?
    ensures SortedByLine(Resolved(lines).value)
    ensures OrderByLine(Resolved(lines).value) == Resolved(lines).value
    ensures forall i :: 0 <= i < |Resolved(lines).value| ==> Resolved(lines).value[i].lineCount == i + 1
  {
    var placed := Pass(lines).value;
    var resolved := Resolved(lines).value;
    forall i | 0 <= i < |resolved| ensures resolved[i].lineCount == i + 1 {
      assert SameLine(resolved[i], placed[i]);
      assert resolved[i].(opCode := None).lineCount == placed[i].(opCode := None).lineCount;
    }
    OrderByLineSorted(resolved);
  }

  /** Every mnemonic the parser hands out carries one of the table's opcodes
      (unknown names fall back to LDA's), and the second pass keeps the
      mnemonics. */
  lemma ResolvedOpCodesStandard(lines: seq<string>)
    requires Resolved(lines).Success?
    ensures forall x :: x in Resolved(lines).value ==> IsStandardOpCode(x.mnemonic.opCode)
  {
    var placed := Pass(lines).value;
    var resolved := Resolved(lines).value;
    forall x | x in resolved ensures IsStandardOpCode(x.mnemonic.opCode) {
      var i :| 0 <= i < |resolved| && resolved[i] == x;
      assert SameLine(resolved[i], placed[i]);
      assert x.mnemonic == placed[i].mnemonic by {
        assert resolved[i].(opCode := None).mnemonic == placed[i].(opCode := None).mnemonic;
      }
      PassLineParsed(lines, i);
      var ts := Tokens(LinesRead(lines)[i]);
      var name := ts[if |ts| == 3 then 1 else 0];
      assert x.mnemonic == GetMnemonic(name).value;
      GetMnemonicOpCodeIsStandard(name);
    }
  }

  /** In an assembled program the declaration group is always empty: every
      line other than START and END goes to the command group, in line
      order, and the object program is the header, those lines' text
      records, a blank line and the end record. */
  lemma AssembledObjectProgram(lines: seq<string>)
    requires Resolved(lines).Success?
    ensures Keep(Resolved(lines).value, InSymbolGroup) == []
    ensures Keep(Resolved(lines).value, InCommandGroup) == Keep(Resolved(lines).value, IsProgramLine)
    ensures var resolved := Resolved(lines).value;
            CompileObjectProgram(resolved).Success? ==>
              && |resolved| > 0
              && BuildHeaderRecord(HeaderStart(resolved), HeaderEnd(resolved)).Success?
              && BuildTextRecord(Keep(resolved, IsProgramLine)).Success?
              && BuildEndRecord(resolved).Success?
              && CompileObjectProgram(resolved).value
                 == BuildHeaderRecord(HeaderStart(resolved), HeaderEnd(resolved)).value
                    + BuildTextRecord(Keep(resolved, IsProgramLine)).value
                    + "\n" + BuildEndRecord(resolved).value + "\n"
  {
    var resolved := Resolved(lines).value;
    ResolvedInLineOrder(lines);
    ResolvedOpCodesStandard(lines);
    TableOpCodesAreCommands(resolved);
    if CompileObjectProgram(resolved).Success? {
      CompileInOrder(resolved);
    }
  }

  /** Read back, the listing of an assembled program has one row per line
      read, in line order, each row holding the line's five columns. */
  lemma AssembledListing(lines: seq<string>)
    requires Assemble(lines).Success?
    requires forall i :: 0 <= i < |lines| ==> NoneOf(lines[i], ['\n'])
    ensures var rows := Split(Assemble(lines).value.listing, ['\n']);
            && |rows| == |LinesRead(lines)| + 1
            && rows[|rows| - 1] == ""
            && forall i :: 0 <= i < |LinesRead(lines)| ==> Split(rows[i], [Tab]) == Columns(Resolved(lines).value[i])
  {
    var resolved := Resolved(lines).value;
    var listing := Assemble(lines).value.listing;
    assert listing == ListingText(resolved);
    ResolvedPrintable(lines);
    ListingLines(resolved);
    RowsColumns(resolved);
  }

  /** Each row splits on tabs into its line's columns. */
  lemma RowsColumns(insts: seq<Instruction>)
    requires AllPrintable(insts)
    ensures forall i :: 0 <= i < |insts| ==> Split(Rows(insts)[i], [Tab]) == Columns(insts[i])
  {
    forall i | 0 <= i < |insts| ensures Split(Rows(insts)[i], [Tab]) == Columns(insts[i]) {
      RowColumns(insts[i]);
    }
  }

  /** Lines as a reader returns them hold no line break, and then every
      column of every resolved line fits in a listing cell: labels, names and
      operands are tokens, opcodes come from the table, and addresses and
      object codes are hexadecimal. */
  lemma ResolvedPrintable(lines: seq<string>)
    requires Resolved(lines).Success?
    requires forall i :: 0 <= i < |lines| ==> NoneOf(lines[i], ['\n'])
    ensures AllPrintable(Resolved(lines).value)
  {
    var placed := Pass(lines).value;
    var resolved := Resolved(lines).value;
    forall k | 0 <= k < |placed| && placed[k].memoryLocation.Some?
      ensures IsCell(placed[k].memoryLocation.value)
    {
      PassAddressesHex(lines, k);
      HexIsCell(placed[k].memoryLocation.value);
    }
    forall i | 0 <= i < |resolved| ensures Printable(resolved[i]) {
      ResolvedLinePrintable(lines, i);
    }
  }

  lemma ResolvedLinePrintable(lines: seq<string>, i: nat)
    requires Resolved(lines).Success? && i < |Resolved(lines).value|
    requires NoneOf(LinesRead(lines)[i], ['\n'])
    requires var placed := Pass(lines).value;
             forall k :: 0 <= k < |placed| && placed[k].memoryLocation.Some? ==> IsCell(placed[k].memoryLocation.value)
    ensures Printable(Resolved(lines).value[i])
  {
    var placed := Pass(lines).value;
    var x := Resolved(lines).value[i];
    var line := LinesRead(lines)[i];
    PassLineParsed(lines, i);
    ParsedCells(line);
    var parsed := ParseInstruction(line).value;
    assert SameLine(x, placed[i]);
    assert x.(opCode := None) == parsed.(lineCount := i + 1, memoryLocation := placed[i].memoryLocation, opCode := None);
    StandardOpCodeIsCell(parsed.mnemonic.opCode);
    assert Resolve(placed[i], placed) == Success(x);
    if x.opCode.Some? {
      ObjectCodeIsCell(placed[i], placed);
    }
    PrintableFields(x);
  }

  /** The table's opcodes are two hexadecimal digits. */
  lemma StandardOpCodeIsCell(op: string)
    requires IsStandardOpCode(op)
    ensures IsCell(op)
  {
    var i :| 0 <= i < |StandardInstructions| && StandardInstructions[i].opCode == op;
    StandardOpCodeIsByte(i);
    ByteIsCell(op);
  }

  lemma ByteIsCell(op: string)
    requires IsOpCodeByte(op)
    ensures IsCell(op)
  {
    assert forall i :: 0 <= i < |op| ==> op[i] == op[0] || op[i] == op[1];
  }
}

=== FILE: Chunking.dfy ===
/** `Chunk(source, chunkSize)` (SICCSharp/Extensions/EnumeratorExtensions.cs:14-34)
    as the sequence of chunks a caller sees when it reads each chunk in turn,
    which is how the text-record builder uses it. The shared enumerator,
    reference counting and disposal are not modelled. */
module Chunking {
  import opened Wrappers
  import opened Errors

  /** The chunks laid end to end. */
  function Flatten<T>(chunks: seq<seq<T>>): (r: seq<T>)
    decreases |chunks|
  {
    if |chunks| == 0 then [] else chunks[0] + Flatten(chunks[1..])
  }

  lemma {:induction false} FlattenAppend<T>(a: seq<seq<T>>, b: seq<seq<T>>)
    ensures Flatten(a + b) == Flatten(a) + Flatten(b)
    decreases |a|
  {
    if |a| == 0 {
      assert a + b == b;
    } else {
      assert (a + b)[1..] == a[1..] + b;
      FlattenAppend(a[1..], b);
    }
  }

  /** Consecutive runs of `n` elements; only the last may be shorter. */
  function Chunks<T>(s: seq<T>, n: nat): (r: seq<seq<T>>)
    requires n >= 1
    ensures Flatten(r) == s
    decreases |s|
  {
    if |s| == 0 then []
    else if |s| <= n then
      assert Flatten([s]) == s + Flatten([s][1..]);
      [s]
    else
      var rest := Chunks(s[n..], n);
      var r := [s[..n]] + rest;
      assert r[1..] == rest;
      assert s[..n] + s[n..] == s;
      r
  }

  /** `Chunk(source, chunkSize)`: a size below 1 is rejected; otherwise the
      source is cut into chunks of `chunkSize`. */
  function Chunk<T>(s: seq<T>, size: int): (r: Result<seq<seq<T>>, Error>)
    ensures r.Failure? <==> size < 1
    ensures r.Failure? ==> r.error == ChunkSizeTooSmall(size)
    ensures r.Success? ==> Flatten(r.value) == s
    ensures r.Success? ==> forall i :: 0 <= i < |r.value| ==> 1 <= |r.value[i]| <= size
  {
    if size < 1 then Failure(ChunkSizeTooSmall(size))
    else
      ChunkSizes(s, size);
      Success(Chunks(s, size))
  }

  lemma MulStep(i: nat, n: nat)
    ensures n + i * n == (i + 1) * n
  {
  }

  /** Where chunk `i` starts: `i` full chunks in. */
  function Offset(i: nat, n: nat): (r: nat)
    ensures r == i * n
  {
    if i == 0 then 0 else MulStep(i - 1, n); n + Offset(i - 1, n)
  }

  /** Where chunk `i` ends: `n` elements on, or the end of the source. */
  function ChunkEnd(len: nat, n: nat, i: nat): nat {
    if Offset(i + 1, n) <= len then Offset(i + 1, n) else len
  }

  /** Chunk `i` is the slice of the source starting at `i * n`. */
  lemma {:induction false} ChunkAt<T>(s: seq<T>, n: nat, i: nat)
    requires n >= 1 && i < |Chunks(s, n)|
    ensures Offset(i, n) < ChunkEnd(|s|, n, i) <= |s|
    ensures Chunks(s, n)[i] == s[Offset(i, n) .. ChunkEnd(|s|, n, i)]
    decreases |s|
  {
    if |s| <= n {
      assert Chunks(s, n) == [s];
      FirstChunkBounds(|s|, n);
      assert s[0..|s|] == s;
    } else if i == 0 {
      ChunksUnfold(s, n);
      FirstChunkBounds(|s|, n);
    } else {
      var rest, j := s[n..], i - 1;
      ChunksUnfold(s, n);
      ChunkAt(rest, n, j);
      var lo, hi := Offset(j, n), ChunkEnd(|rest|, n, j);
      ChunkBoundsStep(|s|, n, i);
      LaterChunk(s, n, i, lo, hi);
    }
  }

  /** A chunk after the first is a chunk of the rest, shifted by `n`. */
  lemma LaterChunk<T>(s: seq<T>, n: nat, i: nat, lo: nat, hi: nat)
    requires 1 <= n < |s| && 1 <= i < |Chunks(s, n)|
    requires lo <= hi <= |s| - n && i - 1 < |Chunks(s[n..], n)|
    requires Chunks(s[n..], n)[i - 1] == s[n..][lo..hi]
    ensures Chunks(s, n)[i] == s[n + lo .. n + hi]
  {
    ChunksUnfold(s, n);
    SliceOfSuffix(s, n, lo, hi);
  }

  /** Every chunk holds between 1 and `n` elements, and all but the last
      exactly `n`. */
  lemma ChunkSizes<T>(s: seq<T>, n: nat)
    requires n >= 1
    ensures forall i :: 0 <= i < |Chunks(s, n)| ==> 1 <= |Chunks(s, n)[i]| <= n
    ensures forall i :: 0 <= i < |Chunks(s, n)| - 1 ==> |Chunks(s, n)[i]| == n
  {
    var r := Chunks(s, n);
    forall i | 0 <= i < |r|
      ensures 1 <= |r[i]| <= n
      ensures i < |r| - 1 ==> |r[i]| == n
    {
      ChunkAt(s, n, i);
      if i < |r| - 1 {
        ChunkAt(s, n, i + 1);
      }
    }
  }

  /** The first chunk starts at the beginning and ends after `n` elements or at the end. */
  lemma FirstChunkBounds(len: nat, n: nat)
    ensures Offset(0, n) == 0
    ensures ChunkEnd(len, n, 0) == if n <= len then n else len
  {
    assert Offset(1, n) == n + Offset(0, n);
  }

  /** Chunk `i` lies `n` elements further on than chunk `i - 1` of the rest. */
  lemma ChunkBoundsStep(len: nat, n: nat, i: nat)
    requires 1 <= i && n <= len
    ensures Offset(i, n) == n + Offset(i - 1, n)
    ensures ChunkEnd(len, n, i) == n + ChunkEnd(len - n, n, i - 1)
  {
  }

  lemma ChunksUnfold<T>(s: seq<T>, n: nat)
    requires 1 <= n < |s|
    ensures Chunks(s, n) == [s[..n]] + Chunks(s[n..], n)
  {
  }

  lemma SliceOfSuffix<T>(s: seq<T>, n: nat, lo: nat, hi: nat)
    requires n <= |s| && lo <= hi <= |s| - n
    ensures s[n..][lo..hi] == s[n + lo .. n + hi]
  {
  }

  /** There are `ceil(|s| / n)` chunks: enough to hold the source, and one
      fewer would not be. */
  lemma {:induction false} ChunkCount<T>(s: seq<T>, n: nat)
    requires n >= 1
    ensures |s| == 0 <==> |Chunks(s, n)| == 0
    ensures |s| <= |Chunks(s, n)| * n
    ensures |Chunks(s, n)| > 0 ==> (|Chunks(s, n)| - 1) * n < |s|
    decreases |s|
  {
    if |s| > n {
      ChunkCount(s[n..], n);
      var k := |Chunks(s[n..], n)|;
      assert |Chunks(s, n)| == k + 1;
      MulStep(k, n);
      MulStep(k - 1, n);
    }
  }

  /** The count bounds pin the count to `(|s| + n - 1) / n`. */
  lemma ChunkCountIsCeiling<T>(s: seq<T>, n: nat)
    requires n >= 1
    ensures |Chunks(s, n)| == (|s| + n - 1) / n
  {
    ChunkCount(s, n);
    var k := |Chunks(s, n)|;
    CeilingUnique(|s|, n, k);
  }

  lemma CeilingUnique(m: nat, n: nat, k: nat)
    requires n >= 1
    requires m == 0 <==> k == 0
    requires m <= k * n && (k > 0 ==> (k - 1) * n < m)
    ensures k == (m + n - 1) / n
  {
    if k > 0 {
      var x := m + n - 1;
      assert k * n <= x < (k + 1) * n by {
        MulStep(k - 1, n);
        MulStep(k, n);
      }
      DivisionBetween(x, n, k);
    }
  }

  lemma DivisionBetween(x: nat, n: nat, k: nat)
    requires n >= 1 && k * n <= x < (k + 1) * n
    ensures x / n == k
  {
    var q, r := x / n, x % n;
    assert x == q * n + r && 0 <= r < n;
    if q < k {
      assert (q + 1) * n <= k * n by {
        MulMono(q + 1, k, n);
      }
      MulStep(q, n);
    }
  }

  lemma MulMono(a: nat, b: nat, n: nat)
    requires a <= b
    ensures a * n <= b * n
  {
  }
}

=== FILE: Entities.dfy ===
/** The two record shapes of the assembler (SICCSharp/Entities), as immutable values. */
module Entities {
  import opened Wrappers

  /** The opcode a mnemonic gets when none is given (SICCSharp/Entities/Mnemonic.cs:22). */
  const DefaultOpCode: string := "00"

  /** An instruction name and its two-digit operation code. The unused
      `Formats` property is not modelled. */
  datatype Mnemonic = Mnemonic(name: string, opCode: string)

  /** `new Mnemonic { Name = name }`: a name with the default opcode. */
  function NameOnly(name: string): (m: Mnemonic)
    ensures m.name == name && m.opCode == DefaultOpCode
  {
    Mnemonic(name, DefaultOpCode)
  }

  /** One source line as it moves through the passes. `None` stands for a
      C# `null`: `memoryLocation` is filled by the first pass, `opCode` by
      the second; `lineCount` is 0 until the first pass stamps it.
      `labelText` is the source's `Label` (`label` is a Dafny keyword). */
  datatype Instruction = Instruction(
    lineCount: int,
    memoryLocation: Option<string>,
    labelText: Option<string>,
    mnemonic: Mnemonic,
    parameter: Option<string>,
    opCode: Option<string>)
}

=== FILE: Errors.dfy ===
/** The exceptions the assembler core can throw, one constructor per throw site kind. */
module Errors {

  datatype Error =
    /** `ParseInstructions`: the line does not split into 1, 2 or 3 tokens. */
    | InstructionCountMismatch(line: string)
    /** `ArgumentNullException`: a string the operation needs is null. */
    | NullValue
    /** `int.Parse(_, HexNumber)` / `Convert.ToInt32(_, 16)`: not hexadecimal. */
    | HexFormat(text: string)
    /** `int.Parse(_, HexNumber)`: more than 32 significant bits. */
    | HexOverflow(text: string)
    /** `FormatHexToLength`: the input does not parse as a 32-bit hexadecimal number. */
    | NotHexString(text: string)
    /** Forcing the index bit of an empty bit array. */
    | BitIndexOutOfRange
    /** `Convert.ToInt32(_, 2)`: more than 32 significant bits. */
    | BinaryOverflow(bits: string)
    /** `Chunk`: a chunk size below one. */
    | ChunkSizeTooSmall(size: int)
    /** `SingleOrDefault`: more than one table row has the name. */
    | MoreThanOneMatch(name: string)
    /** `CompileObjectProgram`: no instructions at all. */
    | EmptyProgram
    /** `CompileObjectProgram`: no instruction carries a memory address. */
    | NoMemoryAddress
    /** `BuildHeaderRecord`: the first instruction is not START. */
    | InvalidStartInstruction
    /** `BuildHeaderRecord`: the last instruction is not END. */
    | InvalidEndInstruction
    /** `BuildEndRecord`: every instruction is START. */
    | NoEntryInstruction
}

=== FILE: FirstPass.dfy ===
/** The first pass of `CompileAsync` (SICCSharp/Extensions/CompileHelper.cs:47-85):
    every line up to the first empty one is parsed, numbered from 1 and given
    the address the running location counter holds. */
module FirstPass {
  import opened Wrappers
  import opened Errors
  import opened Numerals
  import opened NumberFormat
  import opened Entities
  import opened MnemonicList
  import opened MathHelper
  import opened Parser

  /** The loop's local variables: the base address as text (`null` until one
      is known), the base and offset of the previous line as `int`s (-1 until
      set), the next line number and the instructions so far. */
  datatype PassState = PassState(
    baseMemory: Option<string>,
    memoryBuffer: Int32,
    locationBuffer: Int32,
    lineCounter: int,
    instructions: seq<Instruction>)

  const Initial: PassState := PassState(None, -1, -1, 1, [])

  /** The base address at the top of an iteration: once a base and a previous
      line's buffers are known, the previous base plus its offset. */
  function NextBase(st: PassState): Option<string> {
    if st.baseMemory.Some? && st.memoryBuffer != -1
    then Some(FormatHex(Wrap32(st.memoryBuffer + st.locationBuffer)))
    else st.baseMemory
  }

  /** One iteration of the loop, given what its line parsed to. A START
      line takes its operand as the base; with no base at all the line gets no
      address and the base becomes "0"; otherwise the line gets the base as its
      address and the buffers remember the base and the line's size for the
      next line. Parsing is pure, so parsing every line up front and stopping
      at the first failed parse or placement reports the same first error as
      the loop does. */
  function Step(st: PassState, parsed: Result<Instruction, Error>): (r: Result<PassState, Error>)
    ensures parsed.Failure? ==> r == Failure(parsed.error)
  {
    var inst :- parsed;
    Place(st, inst)
  }

  /** The part of an iteration after the line is parsed. */
  function Place(st: PassState, inst: Instruction): (r: Result<PassState, Error>)
  {
    var base := if inst.mnemonic.name == StartInstruction.name then inst.memoryLocation else NextBase(st);
    var numbered := inst.(lineCount := st.lineCounter);
    if base.None? then
      Success(st.(baseMemory := Some("0"),
                  lineCounter := st.lineCounter + 1,
                  instructions := st.instructions + [numbered]))
    else
      var offset := CalculateLocationOffset(inst);
      var memory :- ParseHex(base.value);
      var location := ParseHex(offset).value;
      Success(PassState(base, memory, location, st.lineCounter + 1,
                        st.instructions + [numbered.(memoryLocation := base)]))
  }

  /** The loop over the first `n` parse results, stopping at the first
      failure. */
  function RunTo(ps: seq<Result<Instruction, Error>>, n: nat): (r: Result<PassState, Error>)
    requires n <= |ps|
    ensures r.Success? ==> && |r.value.instructions| == n
                           && r.value.lineCounter == n + 1
                           && (forall i :: 0 <= i < n ==> r.value.instructions[i].lineCount == i + 1)
  {
    if n == 0 then Success(Initial)
    else
      var st :- RunTo(ps, n - 1);
      Step(st, ps[n - 1])
  }

  /** The whole loop. */
  function Run(ps: seq<Result<Instruction, Error>>): (r: Result<PassState, Error>)
    ensures r.Success? ==> |r.value.instructions| == |ps|
  {
    RunTo(ps, |ps|)
  }

  /** What `ParseInstruction` guarantees of a line it accepts: only a START
      line arrives with an address (its operand). */
  predicate AsParsed(p: Result<Instruction, Error>) {
    p.Success? && p.value.memoryLocation.Some? ==> p.value.mnemonic.name == StartInstruction.name
  }

  predicate AllParsed(ps: seq<Result<Instruction, Error>>) {
    forall i :: 0 <= i < |ps| ==> AsParsed(ps[i])
  }

  /** The loop keeps `Consistent`. */
  lemma {:induction false} RunConsistent(ps: seq<Result<Instruction, Error>>, n: nat)
    requires AllParsed(ps) && n <= |ps|
    ensures RunTo(ps, n).Success? ==> Consistent(RunTo(ps, n).value)
  {
    if n > 0 {
      RunConsistent(ps, n - 1);
      if RunTo(ps, n - 1).Success? {
        StepKeepsConsistent(RunTo(ps, n - 1).value, ps[n - 1]);
      }
    }
  }

  /** What the loop keeps true between iterations: a known base is a valid
      32-bit hexadecimal numeral; after the first line a base is known; and
      when the last line got an address, the base and buffers are that
      address and that line's size. */
  predicate Consistent(st: PassState) {
    && (st.baseMemory.Some? ==> IsHex32(st.baseMemory.value))
    && (|st.instructions| > 0 ==> st.baseMemory.Some?)
    && (|st.instructions| > 0 && Last(st).memoryLocation.Some? ==>
          var a := Last(st).memoryLocation.value;
          && st.baseMemory == Some(a)
          && ParseHex(a) == Success(st.memoryBuffer)
          && ParseHex(CalculateLocationOffset(Last(st))) == Success(st.locationBuffer))
  }

  function Last(st: PassState): Instruction
    requires |st.instructions| > 0
  {
    st.instructions[|st.instructions| - 1]
  }

  lemma StepKeepsConsistent(st: PassState, p: Result<Instruction, Error>)
    requires Consistent(st) && AsParsed(p)
    ensures Step(st, p).Success? ==> Consistent(Step(st, p).value)
  {
    ZeroIsCanonical();
    var r := Step(st, p);
    if r.Success? {
      var inst := p.value;
      var last := Last(r.value);
      assert last.mnemonic == inst.mnemonic && last.parameter == inst.parameter;
      assert CalculateLocationOffset(last) == CalculateLocationOffset(inst) by {
        OffsetIgnoresPlacement(inst, last);
      }
    }
  }

  /** A line's size depends on its mnemonic and operand only. */
  lemma OffsetIgnoresPlacement(a: Instruction, b: Instruction)
    requires a.mnemonic == b.mnemonic && a.parameter == b.parameter
    ensures CalculateLocationOffset(a) == CalculateLocationOffset(b)
  {
  }

  /** `ReadLineAsync` until it returns an empty line (or the input ends). */
  function LinesRead(lines: seq<string>): (r: seq<string>)
    ensures |r| <= |lines| && r == lines[..|r|]
    ensures forall i :: 0 <= i < |r| ==> r[i] != ""
    ensures |r| < |lines| ==> lines[|r|] == ""
    decreases |lines|
  {
    if |lines| == 0 || lines[0] == "" then []
    else [lines[0]] + LinesRead(lines[1..])
  }

  /** Each line's parse result, in order. */
  function ParseEach(lines: seq<string>): (r: seq<Result<Instruction, Error>>)
    ensures |r| == |lines|
    decreases |lines|
  {
    if |lines| == 0 then [] else [ParseInstruction(lines[0])] + ParseEach(lines[1..])
  }

  lemma {:induction false} ParseEachAt(lines: seq<string>, i: nat)
    requires i < |lines|
    ensures ParseEach(lines)[i] == ParseInstruction(lines[i])
    decreases |lines|
  {
    if i > 0 {
      ParseEachAt(lines[1..], i - 1);
      assert lines[1..][i - 1] == lines[i];
      ParseEachTail(lines, i);
    }
  }

  lemma ParseEachTail(lines: seq<string>, i: nat)
    requires 0 < i < |lines|
    ensures ParseEach(lines)[i] == ParseEach(lines[1..])[i - 1]
  {
  }

  /** The first pass: the instruction list the second pass starts from. */
  function Pass(lines: seq<string>): (r: Result<seq<Instruction>, Error>)
    ensures r.Success? ==> |r.value| == |LinesRead(lines)|
    ensures r.Success? ==> forall i :: 0 <= i < |r.value| ==> r.value[i].lineCount == i + 1
  {
    var st :- Run(ParseEach(LinesRead(lines)));
    Success(st.instructions)
  }

  // ---------------------------------------------------------------------------
  // Properties

  /** Running fewer lines gives a prefix. */
  lemma {:induction false} RunPrefix(ps: seq<Result<Instruction, Error>>, n: nat, k: nat)
    requires n <= |ps| && RunTo(ps, n).Success? && k <= n
    ensures RunTo(ps, k).Success?
    ensures RunTo(ps, k).value.instructions == RunTo(ps, n).value.instructions[..k]
    decreases n
  {
    if k < n {
      RunPrefix(ps, n - 1, k);
      assert RunTo(ps, n).value.instructions[..n - 1] == RunTo(ps, n - 1).value.instructions;
    }
  }

  /** Instruction `i` is the last one of the state after line `i`. */
  lemma RunAt(ps: seq<Result<Instruction, Error>>, i: nat)
    requires Run(ps).Success? && i < |ps|
    ensures RunTo(ps, i).Success? && RunTo(ps, i + 1).Success?
    ensures Run(ps).value.instructions[i] == Last(Step(RunTo(ps, i).value, ps[i]).value)
  {
    RunPrefix(ps, |ps|, i + 1);
    RunPrefix(ps, |ps|, i);
  }

  /** Every instruction is what its line parsed to, numbered and placed. */
  lemma LineParsed(ps: seq<Result<Instruction, Error>>, i: nat)
    requires Run(ps).Success? && i < |ps|
    ensures ps[i].Success?
    ensures var inst := Run(ps).value.instructions[i];
            inst == ps[i].value.(lineCount := i + 1, memoryLocation := inst.memoryLocation)
  {
    RunAt(ps, i);
  }

  /** A START line's address is its operand. */
  lemma StartAddressIsOperand(ps: seq<Result<Instruction, Error>>, i: nat)
    requires Run(ps).Success? && i < |ps|
    requires Run(ps).value.instructions[i].mnemonic.name == "START"
    ensures ps[i].Success?
    ensures Run(ps).value.instructions[i].memoryLocation == ps[i].value.memoryLocation
  {
    RunAt(ps, i);
  }

  /** Consecutive addresses: a line that is not START sits at the previous
      line's address plus the previous line's size, unless the previous
      address is FFFFFFFF, which reads as the "unset" marker -1. */
  lemma AddressAdvances(ps: seq<Result<Instruction, Error>>, i: nat)
    requires AllParsed(ps)
    requires Run(ps).Success? && 0 < i < |ps|
    requires Run(ps).value.instructions[i].mnemonic.name != "START"
    requires Run(ps).value.instructions[i - 1].memoryLocation.Some?
    ensures var insts := Run(ps).value.instructions;
            var a := insts[i - 1].memoryLocation.value;
            var offset := CalculateLocationOffset(insts[i - 1]);
            && AddHex(a, offset).Success?
            && insts[i].memoryLocation ==
               if ParseHex(a) == Success(-1) then Some(a) else Some(AddHex(a, offset).value)
  {
    RunAt(ps, i);
    RunAt(ps, i - 1);
    var st := RunTo(ps, i).value;
    var a := Last(st).memoryLocation.value;
    assert Tracks(st, a) by {
      RunConsistent(ps, i);
      ConsistentTracks(st);
    }
    StepAddress(st, a, ps[i]);
  }

  /** The base and buffers hold the last line's address and size. */
  predicate Tracks(st: PassState, a: string)
    requires |st.instructions| > 0
  {
    && st.baseMemory == Some(a)
    && ParseHex(a) == Success(st.memoryBuffer)
    && ParseHex(CalculateLocationOffset(Last(st))) == Success(st.locationBuffer)
  }

  lemma ConsistentTracks(st: PassState)
    requires Consistent(st) && |st.instructions| > 0 && Last(st).memoryLocation.Some?
    ensures Tracks(st, Last(st).memoryLocation.value)
  {
  }

  /** One step of `AddressAdvances`. */
  lemma StepAddress(st: PassState, a: string, p: Result<Instruction, Error>)
    requires |st.instructions| > 0 && Tracks(st, a)
    requires Step(st, p).Success? && p.value.mnemonic.name != "START"
    ensures var offset := CalculateLocationOffset(Last(st));
            && AddHex(a, offset).Success?
            && Last(Step(st, p).value).memoryLocation ==
               if ParseHex(a) == Success(-1) then Some(a) else Some(AddHex(a, offset).value)
  {
    NextBaseAdvances(st, a, CalculateLocationOffset(Last(st)));
    PlacedAtNextBase(st, p.value);
  }

  /** The base for the next line is the last address plus the last size,
      unless the last address reads as the "unset" marker. */
  lemma NextBaseAdvances(st: PassState, a: string, offset: string)
    requires st.baseMemory == Some(a)
    requires ParseHex(a) == Success(st.memoryBuffer) && ParseHex(offset) == Success(st.locationBuffer)
    ensures AddHex(a, offset).Success?
    ensures NextBase(st) == if ParseHex(a) == Success(-1) then Some(a) else Some(AddHex(a, offset).value)
  {
    AddHexOfParsed(a, offset, st.memoryBuffer, st.locationBuffer);
  }

  lemma AddHexOfParsed(a: string, b: string, x: Int32, y: Int32)
    requires ParseHex(a) == Success(x) && ParseHex(b) == Success(y)
    ensures AddHex(a, b).Success? && AddHex(a, b).value == FormatHex(Wrap32(x + y))
  {
  }

  /** A line that is not START is placed at `NextBase`. */
  lemma PlacedAtNextBase(st: PassState, inst: Instruction)
    requires Place(st, inst).Success? && inst.mnemonic.name != "START" && NextBase(st).Some?
    ensures Last(Place(st, inst).value).memoryLocation == NextBase(st)
  {
  }

  /** Without a START line first, the first line gets no address and the
      second line starts at 0. */
  lemma DefaultBase(ps: seq<Result<Instruction, Error>>)
    requires AllParsed(ps)
    requires Run(ps).Success? && |ps| >= 1
    requires Run(ps).value.instructions[0].mnemonic.name != "START"
    ensures Run(ps).value.instructions[0].memoryLocation == None
    ensures |ps| >= 2 && Run(ps).value.instructions[1].mnemonic.name != "START" ==>
              Run(ps).value.instructions[1].memoryLocation == Some("0")
  {
    RunAt(ps, 0);
    assert AsParsed(ps[0]);
    if |ps| >= 2 {
      RunAt(ps, 1);
    }
  }

  /** What a parse result must satisfy for the loop to accept it: it is a
      success, and a START line with an operand has a 32-bit hexadecimal
      numeral there. */
  predicate Placeable(p: Result<Instruction, Error>) {
    && p.Success?
    && (p.value.mnemonic.name == "START" && p.value.memoryLocation.Some? ==> IsHex32(p.value.memoryLocation.value))
  }

  /** A state whose base, when known, is a valid numeral steps exactly on the
      placeable parse results. */
  lemma StepSucceeds(st: PassState, p: Result<Instruction, Error>)
    requires BaseValid(st)
    ensures Step(st, p).Success? <==> Placeable(p)
    ensures Step(st, p).Success? ==> BaseValid(Step(st, p).value)
  {
    ZeroIsCanonical();
  }

  /** A known base is a valid 32-bit hexadecimal numeral. */
  predicate BaseValid(st: PassState) {
    st.baseMemory.Some? ==> IsHex32(st.baseMemory.value)
  }

  lemma {:induction false} RunBaseValid(ps: seq<Result<Instruction, Error>>, n: nat)
    requires n <= |ps|
    ensures RunTo(ps, n).Success? ==> BaseValid(RunTo(ps, n).value)
  {
    if n > 0 {
      RunBaseValid(ps, n - 1);
      if RunTo(ps, n - 1).Success? {
        StepSucceeds(RunTo(ps, n - 1).value, ps[n - 1]);
      }
    }
  }

  /** The first `n` parse results are all placeable. */
  predicate AllPlaceable(ps: seq<Result<Instruction, Error>>, n: nat)
    requires n <= |ps|
  {
    n == 0 || (AllPlaceable(ps, n - 1) && Placeable(ps[n - 1]))
  }

  lemma {:induction false} AllPlaceableEach(ps: seq<Result<Instruction, Error>>, n: nat)
    requires n <= |ps|
    ensures AllPlaceable(ps, n) <==> forall i :: 0 <= i < n ==> Placeable(ps[i])
  {
    if n > 0 {
      AllPlaceableEach(ps, n - 1);
    }
  }

  /** The loop over `n` lines succeeds exactly when each of them is
      placeable. */
  lemma {:induction false} RunSucceeds(ps: seq<Result<Instruction, Error>>, n: nat)
    requires n <= |ps|
    ensures RunTo(ps, n).Success? <==> forall i :: 0 <= i < n ==> Placeable(ps[i])
  {
    RunSucceedsStep(ps, n);
    AllPlaceableEach(ps, n);
  }

  lemma {:induction false} RunSucceedsStep(ps: seq<Result<Instruction, Error>>, n: nat)
    requires n <= |ps|
    ensures RunTo(ps, n).Success? <==> AllPlaceable(ps, n)
  {
    if n > 0 {
      RunSucceedsStep(ps, n - 1);
      var prev := RunTo(ps, n - 1);
      if prev.Success? {
        RunBaseValid(ps, n - 1);
        StepSucceeds(prev.value, ps[n - 1]);
      }
    }
  }

  /** Every parse result satisfies `AsParsed`. */
  lemma ParseEachParsed(lines: seq<string>)
    ensures AllParsed(ParseEach(lines))
  {
    var ps := ParseEach(lines);
    forall i | 0 <= i < |ps| ensures AsParsed(ps[i]) {
      ParseEachAt(lines, i);
    }
  }

  /** What a line must satisfy for the pass to accept it: it parses, and a
      START line's operand, if any, is a 32-bit hexadecimal numeral. */
  predicate Accepted(line: string) {
    Placeable(ParseInstruction(line))
  }

  predicate AllAccepted(lines: seq<string>) {
    forall i :: 0 <= i < |lines| ==> Accepted(lines[i])
  }

  /** The pass fails exactly when some line it reads is not accepted. */
  lemma PassSucceeds(lines: seq<string>)
    ensures Pass(lines).Success? <==> AllAccepted(LinesRead(lines))
  {
    var read := LinesRead(lines);
    assert Pass(lines).Success? == Run(ParseEach(read)).Success?;
    assert Run(ParseEach(read)).Success? <==> AllAccepted(read) by {
      AcceptedEach(read);
      RunAccepts(read, ParseEach(read));
    }
  }

  lemma RunAccepts(read: seq<string>, ps: seq<Result<Instruction, Error>>)
    requires |ps| == |read|
    requires forall i :: 0 <= i < |read| ==> Accepted(read[i]) == Placeable(ps[i])
    ensures Run(ps).Success? <==> forall i :: 0 <= i < |read| ==> Accepted(read[i])
  {
    RunSucceeds(ps, |ps|);
  }

  lemma AcceptedEach(lines: seq<string>)
    ensures forall i :: 0 <= i < |lines| ==> Accepted(lines[i]) == Placeable(ParseEach(lines)[i])
  {
    forall i | 0 <= i < |lines| ensures Accepted(lines[i]) == Placeable(ParseEach(lines)[i]) {
      ParseEachAt(lines, i);
    }
  }

  /** Instruction `i` of the pass is line `i` as parsed, numbered `i + 1`;
      only its address is set by the pass. */
  lemma PassLineParsed(lines: seq<string>, i: nat)
    requires Pass(lines).Success? && i < |Pass(lines).value|
    ensures ParseInstruction(LinesRead(lines)[i]).Success?
    ensures var inst := Pass(lines).value[i];
            inst == ParseInstruction(LinesRead(lines)[i]).value.(lineCount := i + 1, memoryLocation := inst.memoryLocation)
  {
    var read := LinesRead(lines);
    var ps := ParseEach(read);
    assert Pass(lines).value == Run(ps).value.instructions;
    LineParsed(ps, i);
    ParseEachAt(read, i);
  }

  /** Every address the pass writes is a 32-bit hexadecimal numeral: a
      START operand or an advanced base is kept only once `int.Parse` has
      read it. */
  lemma PassAddressesHex(lines: seq<string>, i: nat)
    requires Pass(lines).Success? && i < |Pass(lines).value|
    ensures Pass(lines).value[i].memoryLocation.Some? ==> IsHex32(Pass(lines).value[i].memoryLocation.value)
  {
    var ps := ParseEach(LinesRead(lines));
    assert Pass(lines).value == Run(ps).value.instructions;
    ParseEachParsed(LinesRead(lines));
    RunAt(ps, i);
    PlacedAddressHex(RunTo(ps, i).value, ps[i]);
  }

  lemma PlacedAddressHex(st: PassState, p: Result<Instruction, Error>)
    requires AsParsed(p) && Step(st, p).Success?
    ensures var a := Last(Step(st, p).value).memoryLocation;
            a.Some? ==> IsHex32(a.value)
  {
  }
}

=== FILE: Listing.dfy ===
/** The assembly listing written after the second pass
    (SICCSharp/Extensions/CompileHelper.cs:150-172): one row per line, five
    tab-separated columns, each row ended by a new line. */
module Listing {
  import opened Wrappers
  import opened Entities
  import opened MnemonicList
  import opened Text

  const Tab: char := '\t'

  /** What `StringBuilder.Append` shows of an optional string: nothing for
      null or empty. */
  function Shown(s: Option<string>): (r: string)
    ensures s.Some? ==> r == s.value
    ensures s.None? ==> r == ""
  {
    if IsNullOrEmpty(s) then "" else s.value
  }

  /** The address column: empty for START and END lines. */
  function AddressColumn(x: Instruction): (r: string)
    ensures IsBeginEnd(x.mnemonic.name) ==> r == ""
    ensures !IsBeginEnd(x.mnemonic.name) ==> r == Shown(x.memoryLocation)
  {
    if IsBeginEnd(x.mnemonic.name) then "" else Shown(x.memoryLocation)
  }

  /** The five columns of a row: address, label, mnemonic name, operand and
      object code. The mnemonic is printed through its `ToString`, which is
      its name. */
  function Columns(x: Instruction): (r: seq<string>)
    ensures |r| == 5
  {
    [AddressColumn(x), Shown(x.labelText), x.mnemonic.name, Shown(x.parameter), Shown(x.opCode)]
  }

  /** One row without its line break: the columns with a tab between each
      two, four tabs in all. */
  function RowText(x: Instruction): string {
    Join(Columns(x), Tab)
  }

  /** No column holds a tab or a line break, as is the case for every token
      the parser produces and every hexadecimal field the passes write. */
  predicate Printable(x: Instruction) {
    forall i :: 0 <= i < 5 ==> NoneOf(Columns(x)[i], [Tab, '\n'])
  }

  /** The listing: each line's row followed by a line break. */
  function ListingText(insts: seq<Instruction>): (r: string)
    ensures |insts| == 0 <==> r == ""
    decreases |insts|
  {
    if |insts| == 0 then "" else RowText(insts[0]) + "\n" + ListingText(insts[1..])
  }

  /** Read back, a row splits on tabs into exactly its five columns. */
  lemma RowColumns(x: Instruction)
    requires Printable(x)
    ensures Split(RowText(x), [Tab]) == Columns(x)
  {
    var cols := Columns(x);
    forall i | 0 <= i < |cols| ensures NoneOf(cols[i], [Tab]) {
      assert NoneOf(cols[i], [Tab, '\n']);
    }
    SplitJoin(cols, Tab, [Tab]);
  }

  /** A row holds exactly four tabs. */
  lemma RowHasFourTabs(x: Instruction)
    requires Printable(x)
    ensures Occurrences(RowText(x), Tab) == 4
  {
    var cols := Columns(x);
    forall i | 0 <= i < |cols| ensures NoneOf(cols[i], [Tab]) {
      assert NoneOf(cols[i], [Tab, '\n']);
    }
    OccurrencesJoin(cols, Tab);
  }

  /** A row has no line break of its own. */
  lemma RowIsOneLine(x: Instruction)
    requires Printable(x)
    ensures NoneOf(RowText(x), ['\n'])
  {
    var cols := Columns(x);
    forall i | 0 <= i < |cols| ensures NoneOf(cols[i], ['\n']) {
      assert NoneOf(cols[i], [Tab, '\n']);
    }
    JoinNoneOf(cols, Tab, ['\n']);
  }

  /** The rows of the listing, one per line, in order. */
  function Rows(insts: seq<Instruction>): (r: seq<string>)
    ensures |r| == |insts|
  {
    seq(|insts|, i requires 0 <= i < |insts| => RowText(insts[i]))
  }

  lemma RowsCons(insts: seq<Instruction>)
    requires |insts| > 0
    ensures Rows(insts) == [RowText(insts[0])] + Rows(insts[1..])
  {
  }

  /** Splitting the listing peels off the first row. */
  lemma ListingSplitCons(insts: seq<Instruction>)
    requires |insts| > 0 && Printable(insts[0])
    ensures Split(ListingText(insts), ['\n']) == [RowText(insts[0])] + Split(ListingText(insts[1..]), ['\n'])
  {
    var row := RowText(insts[0]);
    RowIsOneLine(insts[0]);
    assert ListingText(insts) == row + ['\n'] + ListingText(insts[1..]);
    SplitCons(row, '\n', ListingText(insts[1..]), ['\n']);
  }

  /** A line whose address, label, mnemonic name, operand and object code
      each fit in a cell prints as a row. */
  lemma PrintableFields(x: Instruction)
    requires x.memoryLocation.Some? ==> IsCell(x.memoryLocation.value)
    requires x.labelText.Some? ==> IsCell(x.labelText.value)
    requires IsCell(x.mnemonic.name)
    requires x.parameter.Some? ==> IsCell(x.parameter.value)
    requires x.opCode.Some? ==> IsCell(x.opCode.value)
    ensures Printable(x)
  {
    forall i | 0 <= i < 5 ensures NoneOf(Columns(x)[i], [Tab, '\n']) {
      assert IsCell(Columns(x)[i]);
    }
  }

  predicate AllPrintable(insts: seq<Instruction>) {
    forall i :: 0 <= i < |insts| ==> Printable(insts[i])
  }

  lemma AllPrintableTail(insts: seq<Instruction>)
    requires |insts| > 0 && AllPrintable(insts)
    ensures Printable(insts[0]) && AllPrintable(insts[1..])
  {
    assert Printable(insts[0 + 0]);
    forall i | 0 <= i < |insts| - 1 ensures Printable(insts[1..][i]) {
      assert insts[1..][i] == insts[i + 1];
    }
  }

  lemma ConsAppend(x: string, a: seq<string>, b: seq<string>)
    ensures [x] + (a + b) == ([x] + a) + b
  {
  }

  /** Read back, the listing splits on line breaks into the rows, in line
      order, and an empty tail after the last break. */
  lemma {:induction false} ListingLines(insts: seq<Instruction>)
    requires AllPrintable(insts)
    ensures Split(ListingText(insts), ['\n']) == Rows(insts) + [""]
    decreases |insts|
  {
    if |insts| == 0 {
      SplitNone("", ['\n']);
    } else {
      var rest := insts[1..];
      var row := RowText(insts[0]);
      AllPrintableTail(insts);
      ListingLines(rest);
      ListingSplitCons(insts);
      RowsCons(insts);
      ConsAppend(row, Rows(rest), [""]);
    }
  }
}

=== FILE: MathHelper.dfy ===
/** Hexadecimal arithmetic and the per-line size rule
    (SICCSharp/Extensions/MathHelper.cs). The older SICCSharp/MathHelper.cs
    repeats `AddHex`, `SubHex` and `CalculateOpCodeBitArray` character for
    character, so those are defined once here; only its location-offset rule
    differs and is modelled as `LegacyCalculateLocationOffset`. */
module MathHelper {
  import opened Wrappers
  import opened Errors
  import opened Numerals
  import opened NumberFormat
  import opened Entities
  import opened MnemonicList

  // ---------------------------------------------------------------------------
  // Modular arithmetic helpers

  lemma ModSum(x: int, y: int, a: int, b: int)
    requires x % TwoTo32 == a % TwoTo32 && y % TwoTo32 == b % TwoTo32
    ensures (x + y) % TwoTo32 == (a + b) % TwoTo32
  {
    var m := TwoTo32;
    assert x == (x / m) * m + a % m;
    assert a == (a / m) * m + a % m;
    assert y == (y / m) * m + b % m;
    assert b == (b / m) * m + b % m;
    var k := x / m + y / m - a / m - b / m;
    assert x + y == (a + b) + k * m;
    ModShift(a + b, k);
  }

  lemma ModDifference(x: int, y: int, a: int, b: int)
    requires x % TwoTo32 == a % TwoTo32 && y % TwoTo32 == b % TwoTo32
    ensures (x - y) % TwoTo32 == (a - b) % TwoTo32
  {
    ModSum(x, -y, a, -b) by {
      ModNegate(y, b);
    }
  }

  lemma ModNegate(y: int, b: int)
    requires y % TwoTo32 == b % TwoTo32
    ensures (-y) % TwoTo32 == (-b) % TwoTo32
  {
    var m := TwoTo32;
    assert y == (y / m) * m + b % m;
    assert b == (b / m) * m + b % m;
    var k := b / m - y / m;
    assert -y == -b + k * m;
    ModShift(-b, k);
  }

  lemma ModShift(v: int, k: int)
    ensures (v + k * TwoTo32) % TwoTo32 == v % TwoTo32
  {
  }

  lemma ModSmall(v: int)
    requires 0 <= v < TwoTo32
    ensures v % TwoTo32 == v
  {
  }

  /** The sum of two parsed operands, wrapped, has the bits of their numbers' sum. */
  lemma WrappedSum(x: int, y: int, a: int, b: int)
    requires 0 <= a < TwoTo32 && 0 <= b < TwoTo32
    requires x % TwoTo32 == a && y % TwoTo32 == b
    ensures Wrap32(x + y) % TwoTo32 == (a + b) % TwoTo32
  {
    ModSmall(a);
    ModSmall(b);
    ModSum(x, y, a, b);
  }

  /** Likewise for the difference. */
  lemma WrappedDifference(x: int, y: int, a: int, b: int)
    requires 0 <= a < TwoTo32 && 0 <= b < TwoTo32
    requires x % TwoTo32 == a && y % TwoTo32 == b
    ensures Wrap32(x - y) % TwoTo32 == (a - b) % TwoTo32
  {
    ModSmall(a);
    ModSmall(b);
    ModDifference(x, y, a, b);
  }

  // ---------------------------------------------------------------------------
  // AddHex / SubHex

  /** `AddHex(a, b)`: both operands read as `int`, added with 32-bit
      wrap-around, written back in uppercase hexadecimal without padding. */
  function AddHex(a: string, b: string): (r: Result<string, Error>)
    ensures r.Success? <==> IsHex32(a) && IsHex32(b)
    ensures r.Success? ==> && IsCanonical(r.value, 16) && IsHex32(r.value)
                           && ValueIn(r.value, 16) == (ValueIn(a, 16) + ValueIn(b, 16)) % TwoTo32
  {
    var x :- ParseHex(a);
    var y :- ParseHex(b);
    WrappedSum(x, y, ValueIn(a, 16), ValueIn(b, 16));
    Success(FormatHex(Wrap32(x + y)))
  }

  /** `SubHex(a, b)`: like `AddHex` for the difference; a negative difference
      comes out as its eight-digit two's complement. */
  function SubHex(a: string, b: string): (r: Result<string, Error>)
    ensures r.Success? <==> IsHex32(a) && IsHex32(b)
    ensures r.Success? ==> && IsCanonical(r.value, 16) && IsHex32(r.value)
                           && ValueIn(r.value, 16) == (ValueIn(a, 16) - ValueIn(b, 16)) % TwoTo32
  {
    var x :- ParseHex(a);
    var y :- ParseHex(b);
    WrappedDifference(x, y, ValueIn(a, 16), ValueIn(b, 16));
    Success(FormatHex(Wrap32(x - y)))
  }

  /** Subtracting what was added gives the first operand's number back. */
  lemma SubHexUndoesAddHex(a: string, b: string)
    requires IsHex32(a) && IsHex32(b)
    ensures var s := AddHex(a, b);
            && s.Success?
            && var d := SubHex(s.value, b);
               d.Success? && IsHex32(d.value) && ValueIn(d.value, 16) == ValueIn(a, 16)
  {
    var s := AddHexOf(a, b);
    var d := SubHexOf(s, b);
    AddThenSubtract(ValueIn(s, 16), ValueIn(a, 16), ValueIn(b, 16), ValueIn(d, 16));
  }

  /** The number `AddHex` writes, for operands it accepts. */
  lemma AddHexOf(a: string, b: string) returns (s: string)
    requires IsHex32(a) && IsHex32(b)
    ensures AddHex(a, b) == Success(s)
    ensures IsHex32(s) && ValueIn(s, 16) == (ValueIn(a, 16) + ValueIn(b, 16)) % TwoTo32
  {
    var r := AddHex(a, b);
    assert r.Success?;
    s := r.value;
  }

  /** The number `SubHex` writes, for operands it accepts. */
  lemma SubHexOf(a: string, b: string) returns (d: string)
    requires IsHex32(a) && IsHex32(b)
    ensures SubHex(a, b) == Success(d)
    ensures IsHex32(d) && ValueIn(d, 16) == (ValueIn(a, 16) - ValueIn(b, 16)) % TwoTo32
  {
    var r := SubHex(a, b);
    assert r.Success?;
    d := r.value;
  }

  /** For a canonically written first operand the round trip is exact. */
  lemma SubHexUndoesAddHexExactly(a: string, b: string)
    requires IsHex32(a) && IsHex32(b) && IsCanonical(a, 16)
    ensures AddHex(a, b).Success? && SubHex(AddHex(a, b).value, b) == Success(a)
  {
    SubHexUndoesAddHex(a, b);
    var d := SubHex(AddHex(a, b).value, b).value;
    CanonicalUnique(d, a, 16);
  }

  lemma AddThenSubtract(s: int, a: int, b: int, d: int)
    requires 0 <= a < TwoTo32 && s == (a + b) % TwoTo32 && d == (s - b) % TwoTo32
    ensures d == a
  {
    ModSum(s, -b, a + b, -b);
    assert a + b + -b == a;
    ModSmall(a);
  }

  /** The tests' sample sum. */
  lemma AddHexSample()
    ensures AddHex("0008AB", "000B78") == Success("1423")
  {
    assert IsHex32("0008AB") && ValueIn("0008AB", 16) == 0x8AB by {
      HexLiteral("8AB", 0x8AB);
      ZeroPadded("0008AB", "8AB");
    }
    assert IsHex32("000B78") && ValueIn("000B78", 16) == 0xB78 by {
      HexLiteral("B78", 0xB78);
      ZeroPadded("000B78", "B78");
    }
    var r := AddHex("0008AB", "000B78").value;
    assert ValueIn(r, 16) == 0x1423 by {
      ModSmall(0x1423);
    }
    HexLiteral("1423", 0x1423);
    CanonicalUnique(r, "1423", 16);
  }

  /** The tests' sample difference. */
  lemma SubHexSample()
    ensures SubHex("000250", "000128") == Success("128")
  {
    assert IsHex32("000250") && ValueIn("000250", 16) == 0x250 by {
      HexLiteral("250", 0x250);
      ZeroPadded("000250", "250");
    }
    assert IsHex32("000128") && ValueIn("000128", 16) == 0x128 by {
      HexLiteral("128", 0x128);
      ZeroPadded("000128", "128");
    }
    var r := SubHex("000250", "000128").value;
    assert ValueIn(r, 16) == 0x128 by {
      ModSmall(0x250 - 0x128);
    }
    HexLiteral("128", 0x128);
    CanonicalUnique(r, "128", 16);
  }

  /** A literal that `ToBase` produces is canonical and reads back as its value. */
  lemma HexLiteral(s: string, v: nat)
    requires ToBase(v, 16) == s
    ensures IsCanonical(s, 16) && AllDigits(s, 16) && ValueIn(s, 16) == v
  {
    ToBaseValue(v, 16);
  }

  /** Three leading zeros do not change a hexadecimal numeral's value. */
  lemma ZeroPadded(s: string, t: string)
    requires s == "000" + t && AllDigits(t, 16) && ValueIn(t, 16) < TwoTo32
    ensures IsHex32(s) && ValueIn(s, 16) == ValueIn(t, 16)
  {
    assert Repeat('0', 3) == "000";
    LeadingZeros(3, t, 16);
  }

  // ---------------------------------------------------------------------------
  // CalculateOpCodeBitArray

  /** One binary digit. */
  function Bit(b: nat): char {
    if b == 0 then '0' else '1'
  }

  /** One hexadecimal digit as four binary digits, most significant first:
      the string `Convert.ToString(d, 2).PadLeft(4, '0')` builds
      (`NibbleBitsIsPaddedBinary`). */
  function NibbleBits(d: nat): (r: string)
    requires d < 16
    ensures |r| == 4
  {
    [Bit(d / 8), Bit(d / 4 % 2), Bit(d / 2 % 2), Bit(d % 2)]
  }

  lemma NibbleBitsValue(d: nat)
    requires d < 16
    ensures AllDigits(NibbleBits(d), 2) && ValueIn(NibbleBits(d), 2) == d
  {
    var r := NibbleBits(d);
    var b0, b1, b2, b3 := d / 8, d / 4 % 2, d / 2 % 2, d % 2;
    BitValue(b0);
    BitValue(b1);
    BitValue(b2);
    BitValue(b3);
    assert AllDigits(r, 2);
    ValueOfFour(r);
    NibbleSum(d);
  }

  /** The four bits are `Convert.ToString(d, 2).PadLeft(4, '0')`: the digit
      written in base 2 without leading zeros, padded with zeros to four. */
  lemma NibbleBitsIsPaddedBinary(d: nat)
    requires d < 16
    ensures NibbleBits(d) == PadLeft(ToBase(d, 2), 4, '0')
  {
    if d < 2 {
      BinaryLow(d);
      PadBits(NibbleBits(d), ToBase(d, 2), 3);
    } else if d < 4 {
      NibbleTwoBits(d);
    } else if d < 8 {
      NibbleThreeBits(d);
    } else {
      NibbleFourBits(d);
    }
  }

  lemma NibbleTwoBits(d: nat)
    requires 2 <= d < 4
    ensures NibbleBits(d) == PadLeft(ToBase(d, 2), 4, '0')
  {
    BinaryStep(d);
    BinaryLow(d / 2);
    var bits := [Bit(d / 2), Bit(d % 2)];
    assert ToBase(d, 2) == bits;
    assert NibbleBits(d) == ['0', '0'] + bits;
    PadBits(NibbleBits(d), bits, 2);
  }

  lemma NibbleThreeBits(d: nat)
    requires 4 <= d < 8
    ensures NibbleBits(d) == PadLeft(ToBase(d, 2), 4, '0')
  {
    var h := d / 2;
    assert h / 2 == d / 4 && h % 2 == d / 2 % 2;
    BinaryStep(d);
    BinaryStep(h);
    BinaryLow(h / 2);
    var bits := [Bit(d / 4), Bit(d / 2 % 2), Bit(d % 2)];
    assert ToBase(d, 2) == bits;
    assert NibbleBits(d) == ['0'] + bits;
    PadBits(NibbleBits(d), bits, 1);
  }

  lemma NibbleFourBits(d: nat)
    requires 8 <= d < 16
    ensures NibbleBits(d) == PadLeft(ToBase(d, 2), 4, '0')
  {
    var h := d / 2;
    var q := h / 2;
    assert q == d / 4 && q / 2 == d / 8 && h % 2 == d / 2 % 2 && q % 2 == d / 4 % 2;
    BinaryStep(d);
    BinaryStep(h);
    BinaryStep(q);
    BinaryLow(q / 2);
    var bits := [Bit(d / 8), Bit(d / 4 % 2), Bit(d / 2 % 2), Bit(d % 2)];
    assert ToBase(d, 2) == bits;
    PadBits(NibbleBits(d), bits, 0);
  }

  lemma BinaryLow(n: nat)
    requires n < 2
    ensures ToBase(n, 2) == [Bit(n)]
  {
  }

  lemma BinaryStep(n: nat)
    requires n >= 2
    ensures ToBase(n, 2) == ToBase(n / 2, 2) + [Bit(n % 2)]
  {
  }

  /** Four bits whose first `zeros` are '0' and whose rest is `bits`. */
  lemma PadBits(nibble: string, bits: string, zeros: nat)
    requires |nibble| == 4 && zeros <= 4 && |bits| == 4 - zeros
    requires forall i :: 0 <= i < zeros ==> nibble[i] == '0'
    requires nibble[zeros..] == bits
    ensures nibble == PadLeft(bits, 4, '0')
  {
    var r := PadLeft(bits, 4, '0');
    assert r[zeros..] == bits;
    assert forall i :: 0 <= i < 4 ==> r[i] == nibble[i] by {
      forall i | 0 <= i < 4 ensures r[i] == nibble[i] {
        if i >= zeros {
          assert r[i] == r[zeros..][i - zeros];
          assert nibble[i] == nibble[zeros..][i - zeros];
        }
      }
    }
  }

  lemma BitValue(b: nat)
    requires b < 2
    ensures IsDigitIn(Bit(b), 2) && DigitValue(Bit(b)) == b
  {
  }

  lemma NibbleSum(d: nat)
    requires d < 16
    ensures d == ((d / 8 * 2 + d / 4 % 2) * 2 + d / 2 % 2) * 2 + d % 2
  {
  }

  /** A four-digit binary numeral, digit by digit. */
  lemma ValueOfFour(r: string)
    requires |r| == 4 && AllDigits(r, 2)
    ensures ValueIn(r, 2) == ((DigitValue(r[0]) * 2 + DigitValue(r[1])) * 2 + DigitValue(r[2])) * 2 + DigitValue(r[3])
  {
    assert r[..3][..2] == r[..2] && r[..2][..1] == r[..1] && r[..1][..0] == [];
    assert ValueIn(r[..1], 2) == DigitValue(r[0]);
    assert ValueIn(r[..2], 2) == ValueIn(r[..1], 2) * 2 + DigitValue(r[1]);
    assert ValueIn(r[..3], 2) == ValueIn(r[..2], 2) * 2 + DigitValue(r[2]);
  }

  /** The digits' nibbles in order. */
  function BitsOf(s: string): (r: string)
    requires AllDigits(s, 16)
    ensures |r| == 4 * |s|
    decreases |s|
  {
    if |s| == 0 then ""
    else BitsOf(s[..|s| - 1]) + NibbleBits(DigitValue(s[|s| - 1]))
  }

  lemma BitsOfSnoc(s: string, c: char)
    requires AllDigits(s, 16) && IsDigitIn(c, 16)
    ensures AllDigits(s + [c], 16)
    ensures BitsOf(s + [c]) == BitsOf(s) + NibbleBits(DigitValue(c))
  {
    assert (s + [c])[..|s|] == s;
  }

  /** The bits spell the numeral's value in binary. */
  lemma {:induction false} BitsOfValue(s: string)
    requires AllDigits(s, 16)
    ensures AllDigits(BitsOf(s), 2) && ValueIn(BitsOf(s), 2) == ValueIn(s, 16)
    decreases |s|
  {
    if |s| > 0 {
      var front := s[..|s| - 1];
      var d := DigitValue(s[|s| - 1]);
      var init := BitsOf(front);
      var nibble := NibbleBits(d);
      assert BitsOf(s) == init + nibble;
      BitsOfValue(front);
      NibbleBitsValue(d);
      ValueInConcat(init, nibble, 2);
      PowTwoFour(1);
      assert ValueIn(s, 16) == ValueIn(front, 16) * 16 + d;
    }
  }

  /** `CalculateOpCodeBitArray(s)`: every character must be a hexadecimal
      digit; the result spells the same number in binary, four bits per digit. */
  function CalculateOpCodeBitArray(s: string): (r: Result<string, Error>)
    ensures r.Success? <==> AllDigits(s, 16)
    ensures r.Success? ==> && |r.value| == 4 * |s| && AllDigits(r.value, 2)
                           && ValueIn(r.value, 2) == ValueIn(s, 16)
  {
    if !AllDigits(s, 16) then Failure(HexFormat(s))
    else
      BitsOfValue(s);
      Success(BitsOf(s))
  }

  /** The tests' sample expansion. */
  lemma BitArraySample(s: string)
    requires s == "123D"
    ensures CalculateOpCodeBitArray(s) == Success("0001001000111101")
  {
    assert AllDigits(s, 16) by {
      assert IsDigitIn('1', 16) && IsDigitIn('2', 16) && IsDigitIn('3', 16) && IsDigitIn('D', 16);
    }
    assert DigitValue(s[0]) == 1 && DigitValue(s[1]) == 2 && DigitValue(s[2]) == 3 && DigitValue(s[3]) == 13;
    var p0, p1, p2, p3 := s[..0], s[..1], s[..2], s[..3];
    assert p1 == p0 + [s[0]] && p2 == p1 + [s[1]] && p3 == p2 + [s[2]] && s == p3 + [s[3]];
    assert NibbleBits(1) == "0001" && NibbleBits(2) == "0010" && NibbleBits(3) == "0011" && NibbleBits(13) == "1101";
    BitsOfSnoc(p0, s[0]);
    assert BitsOf(p1) == "0001";
    BitsOfSnoc(p1, s[1]);
    assert BitsOf(p2) == "00010010";
    BitsOfSnoc(p2, s[2]);
    assert BitsOf(p3) == "000100100011";
    BitsOfSnoc(p3, s[3]);
    assert BitsOf(s) == "0001001000111101";
  }

  // ---------------------------------------------------------------------------
  // Location offsets

  /** `CalculateLocationOffset(instruction)`: the hexadecimal size of a line.
      Without a decimal operand every line is 3 bytes; with operand n, START
      and END take 0, RESW takes 3n (32-bit product), RESB takes n, anything
      else 3. */
  function CalculateLocationOffset(inst: Instruction): (r: string)
    ensures IsCanonical(r, 16) && IsHex32(r)
    ensures inst.parameter.None? || ParseDecimal(inst.parameter.value).None? ==> r == "3"
    ensures inst.parameter.Some? && ParseDecimal(inst.parameter.value).Some? ==>
              var n := ParseDecimal(inst.parameter.value).value;
              var name := inst.mnemonic.name;
              ValueIn(r, 16) == (if IsBeginEnd(name) then 0
                                 else if name == "RESW" then (3 * n) % TwoTo32
                                 else if name == "RESB" then n % TwoTo32
                                 else 3)
  {
    ThreeIsCanonical();
    if inst.parameter.None? then "3"
    else match ParseDecimal(inst.parameter.value)
      case None => "3"
      case Some(n) =>
        var name := inst.mnemonic.name;
        if IsBeginEnd(name) then ZeroIsCanonical(); "0"
        else if name == "RESW" then
          ModSmall((Wrap32(3 * n) as int) % TwoTo32);
          FormatHex(Wrap32(3 * n))
        else if name == "RESB" then FormatHex(n)
        else "3"
  }

  lemma ThreeIsCanonical()
    ensures IsCanonical("3", 16) && IsHex32("3") && ValueIn("3", 16) == 3
  {
    assert "3"[..0] == "";
  }

  lemma ZeroIsCanonical()
    ensures IsCanonical("0", 16) && IsHex32("0") && ValueIn("0", 16) == 0
  {
    assert "0"[..0] == "";
  }

  /** `CalculateLocationOffset(name, parameter)` of SICCSharp/MathHelper.cs:
      START and END take 0 whatever the operand; RESW and RESB take 3n and n,
      or 0 without an operand; every other name takes 3. */
  function LegacyCalculateLocationOffset(name: string, parameter: Option<Int32>): (r: string)
    ensures IsCanonical(r, 16) && IsHex32(r)
    ensures ValueIn(r, 16) == (if IsBeginEnd(name) then 0
                               else if name == "RESW" then (if parameter.Some? then (3 * parameter.value) % TwoTo32 else 0)
                               else if name == "RESB" then (if parameter.Some? then parameter.value % TwoTo32 else 0)
                               else 3)
  {
    ThreeIsCanonical();
    ZeroIsCanonical();
    if name == "START" || name == "END" then "0"
    else if name == "RESW" then (if parameter.Some? then FormatHex(Wrap32(3 * parameter.value)) else "0")
    else if name == "RESB" then (if parameter.Some? then FormatHex(parameter.value) else "0")
    else "3"
  }

  /** With a decimal operand the two offset rules agree on every name. */
  lemma OffsetsAgreeOnDecimalOperands(inst: Instruction)
    requires inst.parameter.Some? && ParseDecimal(inst.parameter.value).Some?
    ensures CalculateLocationOffset(inst)
            == LegacyCalculateLocationOffset(inst.mnemonic.name, ParseDecimal(inst.parameter.value))
  {
    var a := CalculateLocationOffset(inst);
    var b := LegacyCalculateLocationOffset(inst.mnemonic.name, ParseDecimal(inst.parameter.value));
    CanonicalUnique(a, b, 16);
  }

  /** Without a decimal operand they differ exactly on START, END, RESW and
      RESB, where the legacy rule gives 0 and the current one 3. */
  lemma OffsetsDifferWithoutOperand(inst: Instruction)
    requires inst.parameter.None? || ParseDecimal(inst.parameter.value).None?
    ensures CalculateLocationOffset(inst) == "3"
    ensures var name := inst.mnemonic.name;
            LegacyCalculateLocationOffset(name, None)
            == if IsBeginEnd(name) || name == "RESW" || name == "RESB" then "0" else "3"
  {
    var name := inst.mnemonic.name;
    var b := LegacyCalculateLocationOffset(name, None);
    ZeroIsCanonical();
    ThreeIsCanonical();
    if IsBeginEnd(name) || name == "RESW" || name == "RESB" {
      CanonicalUnique(b, "0", 16);
    } else {
      CanonicalUnique(b, "3", 16);
    }
  }

  /** The legacy unit test: WORD and LDX take 3, RESW 100 takes 0x12C (300),
      RESB 100 takes 0x64 (100). */
  lemma LegacyOffsetSamples()
    ensures LegacyCalculateLocationOffset("WORD", None) == "3"
    ensures LegacyCalculateLocationOffset("LDX", None) == "3"
    ensures LegacyCalculateLocationOffset("RESW", Some(100)) == "12C"
    ensures LegacyCalculateLocationOffset("RESB", Some(100)) == "64"
  {
    LegacyWordSample("WORD");
    LegacyWordSample("LDX");
    LegacyReswSample();
    LegacyResbSample();
  }

  lemma LegacyWordSample(name: string)
    requires name == "WORD" || name == "LDX"
    ensures LegacyCalculateLocationOffset(name, None) == "3"
  {
    ThreeIsCanonical();
    CanonicalUnique(LegacyCalculateLocationOffset(name, None), "3", 16);
  }

  lemma LegacyReswSample()
    ensures LegacyCalculateLocationOffset("RESW", Some(100)) == "12C"
  {
    HexLiteral("12C", 300);
    ModSmall(300);
    CanonicalUnique(LegacyCalculateLocationOffset("RESW", Some(100)), "12C", 16);
  }

  lemma LegacyResbSample()
    ensures LegacyCalculateLocationOffset("RESB", Some(100)) == "64"
  {
    HexLiteral("64", 100);
    CanonicalUnique(LegacyCalculateLocationOffset("RESB", Some(100)), "64", 16);
  }

  /** The same samples through the current rule, with the operand as text. */
  lemma OffsetSamples(name: Option<string>)
    ensures CalculateLocationOffset(Instruction(0, None, name, NameOnly("RESW"), Some("100"), None)) == "12C"
    ensures CalculateLocationOffset(Instruction(0, None, name, NameOnly("RESB"), Some("100"), None)) == "64"
  {
    HundredParses();
    ReswOffsetSample(name);
    ResbOffsetSample(name);
  }

  lemma HundredParses()
    ensures ParseDecimal("100") == Some(100)
  {
    assert ToBase(100, 10) == "100";
    ParseDecimalRoundTrip(100);
  }

  lemma ReswOffsetSample(name: Option<string>)
    requires ParseDecimal("100") == Some(100)
    ensures CalculateLocationOffset(Instruction(0, None, name, NameOnly("RESW"), Some("100"), None)) == "12C"
  {
    var resw := Instruction(0, None, name, NameOnly("RESW"), Some("100"), None);
    HexLiteral("12C", 300);
    ModSmall(300);
    CanonicalUnique(CalculateLocationOffset(resw), "12C", 16);
  }

  lemma ResbOffsetSample(name: Option<string>)
    requires ParseDecimal("100") == Some(100)
    ensures CalculateLocationOffset(Instruction(0, None, name, NameOnly("RESB"), Some("100"), None)) == "64"
  {
    var resb := Instruction(0, None, name, NameOnly("RESB"), Some("100"), None);
    HexLiteral("64", 100);
    ModSmall(100);
    CanonicalUnique(CalculateLocationOffset(resb), "64", 16);
  }

  /** A hexadecimal START operand is not decimal, so the START line takes 3
      bytes instead of 0. */
  lemma HexStartOperandOffset(name: Option<string>)
    ensures CalculateLocationOffset(Instruction(0, Some("1A00"), name, StartInstruction, Some("1A00"), None)) == "3"
  {
    HexLetterNotDecimal("1A00", 1);
  }
}

=== FILE: MnemonicList.dfy ===
/** The static opcode table (SICCSharp/MnemonicList.cs) and the lookup
    `GetMnemonic` (SICCSharp/Extensions/CompileHelper.cs:395-398).

    The table file names its collections `Instructions`, `InstructionWhitelist`
    and `DeclarationInstructions`; the compile helper refers to them as
    `StandardInstructions`, `BeginEndInstructions` and `SymbolInstructions`,
    with `StartInstruction` / `EndInstruction` for the two whitelisted names.
    This module uses the compile helper's names. */
module MnemonicList {
  import opened Wrappers
  import opened Errors
  import opened Numerals
  import opened Entities

  /** Row `i` of the standard table, in source order. */
  function StandardEntry(i: nat): Mnemonic
    requires i < 59
  {
    match i
    case 0 => Mnemonic("ADD", "18")
    case 1 => Mnemonic("ADDF", "58")
    case 2 => Mnemonic("ADDR", "90")
    case 3 => Mnemonic("AND", "40")
    case 4 => Mnemonic("CLEAR", "B4")
    case 5 => Mnemonic("COMP", "28")
    case 6 => Mnemonic("COMPF", "88")
    case 7 => Mnemonic("COMPR", "A0")
    case 8 => Mnemonic("DIV", "24")
    case 9 => Mnemonic("DIVF", "64")
    case 10 => Mnemonic("DIVR", "9C")
    case 11 => Mnemonic("FIX", "C4")
    case 12 => Mnemonic("FLOAT", "C0")
    case 13 => Mnemonic("HIO", "F4")
    case 14 => Mnemonic("J", "3C")
    case 15 => Mnemonic("JEQ", "30")
    case 16 => Mnemonic("JGT", "34")
    case 17 => Mnemonic("JLT", "38")
    case 18 => Mnemonic("JSUB", "48")
    case 19 => Mnemonic("LDA", "00")
    case 20 => Mnemonic("LDB", "68")
    case 21 => Mnemonic("LDCH", "50")
    case 22 => Mnemonic("LDF", "70")
    case 23 => Mnemonic("LDL", "08")
    case 24 => Mnemonic("LDS", "6C")
    case 25 => Mnemonic("LDT", "74")
    case 26 => Mnemonic("LDX", "04")
    case 27 => Mnemonic("LPS", "D0")
    case 28 => Mnemonic("MUL", "20")
    case 29 => Mnemonic("MULF", "60")
    case 30 => Mnemonic("MULR", "98")
    case 31 => Mnemonic("NORM", "C8")
    case 32 => Mnemonic("OR", "44")
    case 33 => Mnemonic("RD", "D8")
    case 34 => Mnemonic("RMO", "AC")
    case 35 => Mnemonic("RSUB", "4C")
    case 36 => Mnemonic("SHIFTL", "A4")
    case 37 => Mnemonic("SHIFTR", "A8")
    case 38 => Mnemonic("SIO", "F0")
    case 39 => Mnemonic("SSK", "EC")
    case 40 => Mnemonic("STA", "0C")
    case 41 => Mnemonic("STB", "78")
    case 42 => Mnemonic("STCH", "54")
    case 43 => Mnemonic("STF", "80")
    case 44 => Mnemonic("STI", "D4")
    case 45 => Mnemonic("STL", "14")
    case 46 => Mnemonic("STS", "7C")
    case 47 => Mnemonic("STSW", "E8")
    case 48 => Mnemonic("STT", "84")
    case 49 => Mnemonic("STX", "10")
    case 50 => Mnemonic("SUB", "1C")
    case 51 => Mnemonic("SUBF", "5C")
    case 52 => Mnemonic("SUBR", "94")
    case 53 => Mnemonic("SVC", "B0")
    case 54 => Mnemonic("TD", "E0")
    case 55 => Mnemonic("TIO", "F8")
    case 56 => Mnemonic("TIX", "2C")
    case 57 => Mnemonic("TIXR", "B8")
    case 58 => Mnemonic("WD", "DC")
  }

  /** The 59 standard SIC/XE instructions with their opcodes. */
  const StandardInstructions: seq<Mnemonic> := TableRows(59)

  /** The first `n` rows of the table. */
  function TableRows(n: nat): (rows: seq<Mnemonic>)
    requires n <= 59
    ensures |rows| == n
  {
    if n == 0 then [] else TableRows(n - 1) + [StandardEntry(n - 1)]
  }

  /** Row `i` of the built table is `StandardEntry(i)`. */
  lemma {:induction false} TableRowsAt(n: nat, i: nat)
    requires i < n <= 59
    ensures TableRows(n)[i] == StandardEntry(i)
  {
    if i < n - 1 {
      TableRowsAt(n - 1, i);
    }
  }

  lemma StandardAt(i: nat)
    requires i < 59
    ensures StandardInstructions[i] == StandardEntry(i)
  {
    TableRowsAt(59, i);
  }

  /** The row a standard name sits on, or -1. */
  function StandardIndex(name: string): int {
    match name
    case "ADD" => 0
    case "ADDF" => 1
    case "ADDR" => 2
    case "AND" => 3
    case "CLEAR" => 4
    case "COMP" => 5
    case "COMPF" => 6
    case "COMPR" => 7
    case "DIV" => 8
    case "DIVF" => 9
    case "DIVR" => 10
    case "FIX" => 11
    case "FLOAT" => 12
    case "HIO" => 13
    case "J" => 14
    case "JEQ" => 15
    case "JGT" => 16
    case "JLT" => 17
    case "JSUB" => 18
    case "LDA" => 19
    case "LDB" => 20
    case "LDCH" => 21
    case "LDF" => 22
    case "LDL" => 23
    case "LDS" => 24
    case "LDT" => 25
    case "LDX" => 26
    case "LPS" => 27
    case "MUL" => 28
    case "MULF" => 29
    case "MULR" => 30
    case "NORM" => 31
    case "OR" => 32
    case "RD" => 33
    case "RMO" => 34
    case "RSUB" => 35
    case "SHIFTL" => 36
    case "SHIFTR" => 37
    case "SIO" => 38
    case "SSK" => 39
    case "STA" => 40
    case "STB" => 41
    case "STCH" => 42
    case "STF" => 43
    case "STI" => 44
    case "STL" => 45
    case "STS" => 46
    case "STSW" => 47
    case "STT" => 48
    case "STX" => 49
    case "SUB" => 50
    case "SUBF" => 51
    case "SUBR" => 52
    case "SVC" => 53
    case "TD" => 54
    case "TIO" => 55
    case "TIX" => 56
    case "TIXR" => 57
    case "WD" => 58
    case _ => -1
  }

  /** The row a standard opcode sits on, or -1. */
  function OpCodeIndex(opCode: string): int {
    match opCode
    case "18" => 0
    case "58" => 1
    case "90" => 2
    case "40" => 3
    case "B4" => 4
    case "28" => 5
    case "88" => 6
    case "A0" => 7
    case "24" => 8
    case "64" => 9
    case "9C" => 10
    case "C4" => 11
    case "C0" => 12
    case "F4" => 13
    case "3C" => 14
    case "30" => 15
    case "34" => 16
    case "38" => 17
    case "48" => 18
    case "00" => 19
    case "68" => 20
    case "50" => 21
    case "70" => 22
    case "08" => 23
    case "6C" => 24
    case "74" => 25
    case "04" => 26
    case "D0" => 27
    case "20" => 28
    case "60" => 29
    case "98" => 30
    case "C8" => 31
    case "44" => 32
    case "D8" => 33
    case "AC" => 34
    case "4C" => 35
    case "A4" => 36
    case "A8" => 37
    case "F0" => 38
    case "EC" => 39
    case "0C" => 40
    case "78" => 41
    case "54" => 42
    case "80" => 43
    case "D4" => 44
    case "14" => 45
    case "7C" => 46
    case "E8" => 47
    case "84" => 48
    case "10" => 49
    case "1C" => 50
    case "5C" => 51
    case "94" => 52
    case "B0" => 53
    case "E0" => 54
    case "F8" => 55
    case "2C" => 56
    case "B8" => 57
    case "DC" => 58
    case _ => -1
  }

  /** The storage declarations; their opcodes are not given, so they carry the default. */
  const SymbolInstructions: seq<Mnemonic> := [NameOnly("RESW"), NameOnly("RESB"), NameOnly("WORD")]

  const StartInstruction: Mnemonic := NameOnly("START")
  const EndInstruction: Mnemonic := NameOnly("END")

  /** The whitelisted control directives that never receive an opcode. */
  const BeginEndInstructions: seq<Mnemonic> := [StartInstruction, EndInstruction]

  predicate IsBeginEnd(name: string) {
    name == StartInstruction.name || name == EndInstruction.name
  }

  predicate IsSymbolName(name: string) {
    exists j :: 0 <= j < |SymbolInstructions| && SymbolInstructions[j].name == name
  }

  /** Whether some standard instruction carries this opcode (CompileHelper.cs:224). */
  predicate IsStandardOpCode(opCode: string) {
    exists i :: 0 <= i < |StandardInstructions| && StandardInstructions[i].opCode == opCode
  }

  // ---------------------------------------------------------------------------
  // Table facts

  lemma EntryNameInverse(i: nat)
    requires i < 59
    ensures StandardIndex(StandardEntry(i).name) == i
  {
  }

  lemma EntryOpCodeInverse(i: nat)
    requires i < 59
    ensures OpCodeIndex(StandardEntry(i).opCode) == i
  {
  }

  /** A name `StandardIndex` places on a row is that row's name. */
  lemma IndexEntryInverse(name: string)
    requires StandardIndex(name) >= 0
    ensures StandardIndex(name) < 59 && StandardEntry(StandardIndex(name)).name == name
  {
  }

  lemma IndexNameInverse(name: string)
    requires StandardIndex(name) >= 0
    ensures StandardIndex(name) < |StandardInstructions|
    ensures StandardInstructions[StandardIndex(name)].name == name
  {
    IndexEntryInverse(name);
    StandardAt(StandardIndex(name));
  }

  /** A name no row carries has no index. */
  lemma NotIndexedNotStandard(name: string)
    requires StandardIndex(name) < 0
    ensures forall i :: 0 <= i < |StandardInstructions| ==> StandardInstructions[i].name != name
  {
    forall i | 0 <= i < |StandardInstructions|
      ensures StandardInstructions[i].name != name
    {
      StandardIndexInverse(i);
    }
  }

  lemma StandardIndexInverse(i: nat)
    requires i < 59
    ensures StandardIndex(StandardInstructions[i].name) == i
  {
    StandardAt(i);
    EntryNameInverse(i);
  }

  lemma OpCodeIndexInverse(i: nat)
    requires i < 59
    ensures OpCodeIndex(StandardInstructions[i].opCode) == i
  {
    StandardAt(i);
    EntryOpCodeInverse(i);
  }

  /** No two standard rows share a name, so `SingleOrDefault` never throws on them. */
  lemma StandardNamesDistinct()
    ensures forall i, j :: 0 <= i < j < |StandardInstructions| ==>
              StandardInstructions[i].name != StandardInstructions[j].name
  {
    forall i, j | 0 <= i < j < |StandardInstructions|
      ensures StandardInstructions[i].name != StandardInstructions[j].name
    {
      StandardIndexInverse(i);
      StandardIndexInverse(j);
    }
  }

  /** No two standard rows share an opcode. */
  lemma StandardOpCodesDistinct()
    ensures forall i, j :: 0 <= i < j < |StandardInstructions| ==>
              StandardInstructions[i].opCode != StandardInstructions[j].opCode
  {
    forall i, j | 0 <= i < j < |StandardInstructions|
      ensures StandardInstructions[i].opCode != StandardInstructions[j].opCode
    {
      OpCodeIndexInverse(i);
      OpCodeIndexInverse(j);
    }
  }

  /** Exactly two uppercase hexadecimal digits. */
  predicate IsOpCodeByte(s: string) {
    |s| == 2 && IsUpperHexDigit(s[0]) && IsUpperHexDigit(s[1])
  }

  lemma EntryOpCodeIsByte(i: nat)
    requires i < 59
    ensures IsOpCodeByte(StandardEntry(i).opCode)
  {
  }

  lemma StandardOpCodeIsByte(i: nat)
    requires i < 59
    ensures IsOpCodeByte(StandardInstructions[i].opCode)
  {
    StandardAt(i);
    EntryOpCodeIsByte(i);
  }

  /** Every standard opcode is two uppercase hexadecimal digits. */
  lemma StandardOpCodesAreBytes()
    ensures forall i :: 0 <= i < |StandardInstructions| ==> IsOpCodeByte(StandardInstructions[i].opCode)
  {
    forall i | 0 <= i < |StandardInstructions|
      ensures IsOpCodeByte(StandardInstructions[i].opCode)
    {
      StandardOpCodeIsByte(i);
    }
  }

  /** The declaration names are exactly RESW, RESB and WORD. */
  lemma SymbolNames(name: string)
    ensures IsSymbolName(name) <==> name == "RESW" || name == "RESB" || name == "WORD"
  {
    if name == "RESW" {
      assert SymbolInstructions[0].name == name;
    } else if name == "RESB" {
      assert SymbolInstructions[1].name == name;
    } else if name == "WORD" {
      assert SymbolInstructions[2].name == name;
    }
  }

  lemma ReservedIndexes()
    ensures StandardIndex("START") == -1 && StandardIndex("END") == -1
    ensures StandardIndex("RESW") == -1 && StandardIndex("RESB") == -1 && StandardIndex("WORD") == -1
  {
  }

  /** The control and declaration names are not standard names. */
  lemma ReservedNamesNotStandard()
    ensures forall i :: 0 <= i < |StandardInstructions| ==>
              && !IsBeginEnd(StandardInstructions[i].name)
              && !IsSymbolName(StandardInstructions[i].name)
  {
    forall i | 0 <= i < |StandardInstructions|
      ensures !IsBeginEnd(StandardInstructions[i].name) && !IsSymbolName(StandardInstructions[i].name)
    {
      var n := StandardInstructions[i].name;
      StandardIndexInverse(i);
      ReservedIndexes();
      SymbolNames(n);
    }
  }

  /** LDA's opcode is the default opcode of a name-only mnemonic. */
  lemma LdaHasDefaultOpCode()
    ensures StandardInstructions[19] == Mnemonic("LDA", DefaultOpCode)
    ensures IsStandardOpCode(DefaultOpCode)
  {
    StandardAt(19);
  }
}

=== FILE: NumberFormat.dfy ===
/** The .NET integer conversions the assembler relies on, with `Int32`
    wrap-around written out: `int.Parse(_, NumberStyles.HexNumber)`,
    `int.TryParse(_)` (decimal), `Int32.ToString("X")`, and
    `FormatHexToLength` (SICCSharp/Extensions/CompileHelper.cs). */
module NumberFormat {
  import opened Wrappers
  import opened Errors
  import opened Numerals

  const TwoTo31: int := 0x8000_0000
  const TwoTo32: int := 0x1_0000_0000

  /** C#'s `int`. */
  type Int32 = x: int | -0x8000_0000 <= x < 0x8000_0000

  /** Unchecked narrowing to `int`: keep the low 32 bits, read as two's complement. */
  function Wrap32(v: int): (r: Int32)
    ensures r % TwoTo32 == v % TwoTo32
  {
    var u := v % TwoTo32;
    if u < TwoTo31 then u else u - TwoTo32
  }

  /** The strings `int.Parse(_, NumberStyles.HexNumber)` accepts: hex digits of
      either case whose value fits in 32 bits (leading zeros allowed). */
  predicate IsHex32(s: string) {
    |s| > 0 && AllDigits(s, 16) && ValueIn(s, 16) < TwoTo32
  }

  /** `int.Parse(s, NumberStyles.HexNumber)`: a value of 0x80000000 or more
      reads as the negative `int` with the same bits. */
  function ParseHex(s: string): (r: Result<Int32, Error>)
    ensures r.Success? <==> IsHex32(s)
    ensures r.Success? ==> r.value % TwoTo32 == ValueIn(s, 16)
  {
    if |s| == 0 || !AllDigits(s, 16) then Failure(HexFormat(s))
    else if ValueIn(s, 16) >= TwoTo32 then Failure(HexOverflow(s))
    else Success(Wrap32(ValueIn(s, 16)))
  }

  /** `v.ToString("X")`: uppercase, no leading zeros, negative values as their
      eight-digit two's complement. */
  function FormatHex(v: Int32): (r: string)
    ensures IsCanonical(r, 16) && IsHex32(r)
    ensures ValueIn(r, 16) == v % TwoTo32
  {
    ToBaseValue(v % TwoTo32, 16);
    ToBase(v % TwoTo32, 16)
  }

  /** Formatting then parsing gives the number back. */
  lemma FormatParseHex(v: Int32)
    ensures ParseHex(FormatHex(v)) == Success(v)
  {
  }

  /** Parsing then formatting gives a canonical numeral back. */
  lemma ParseFormatHex(s: string)
    requires IsCanonical(s, 16) && IsHex32(s)
    ensures ParseHex(s).Success? && FormatHex(ParseHex(s).value) == s
  {
    CanonicalUnique(FormatHex(ParseHex(s).value), s, 16);
  }

  // ---------------------------------------------------------------------------
  // Decimal

  predicate IsDecimalDigit(c: char) {
    '0' <= c <= '9'
  }

  function UnsignedPart(s: string): string {
    if |s| > 0 && (s[0] == '-' || s[0] == '+') then s[1..] else s
  }

  /** An optional sign followed by one or more decimal digits. */
  predicate IsDecimalText(s: string) {
    var digits := UnsignedPart(s);
    |digits| > 0 && forall i :: 0 <= i < |digits| ==> IsDecimalDigit(digits[i])
  }

  lemma DecimalDigits(s: string)
    requires IsDecimalText(s)
    ensures AllDigits(UnsignedPart(s), 10)
  {
    var digits := UnsignedPart(s);
    forall i | 0 <= i < |digits| ensures IsDigitIn(digits[i], 10) {
      assert IsDecimalDigit(digits[i]);
    }
  }

  /** The value of a decimal text, sign applied. */
  function SignedValue(s: string): int
    requires IsDecimalText(s)
  {
    DecimalDigits(s);
    var magnitude: int := ValueIn(UnsignedPart(s), 10);
    if s[0] == '-' then -magnitude else magnitude
  }

  /** `int.TryParse(s, out n)`: `Some(n)` exactly for an optionally signed
      decimal numeral whose value fits in an `int`. */
  function ParseDecimal(s: string): (r: Option<Int32>)
    ensures r.Some? <==> IsDecimalText(s) && -TwoTo31 <= SignedValue(s) < TwoTo31
    ensures r.Some? ==> r.value == SignedValue(s)
  {
    if !IsDecimalText(s) then None
    else
      var v := SignedValue(s);
      if -TwoTo31 <= v < TwoTo31 then Some(v) else None
  }

  /** Writing a non-negative `int` in decimal and parsing it gives it back. */
  lemma ParseDecimalRoundTrip(n: nat)
    requires n < TwoTo31
    ensures ParseDecimal(ToBase(n, 10)) == Some(n)
    ensures ParseDecimal("-" + ToBase(n, 10)) == Some(0 - n)
  {
    var t := ToBase(n, 10);
    ToBaseValue(n, 10);
    var j := CanonicalDigit(t[0], 10);
    assert t[0] != '-' && t[0] != '+';
    assert UnsignedPart(t) == t;
    forall i | 0 <= i < |t| ensures IsDecimalDigit(t[i]) {
      var k := CanonicalDigit(t[i], 10);
    }
    var m := "-" + t;
    assert UnsignedPart(m) == t;
  }

  /** A numeral holding a hexadecimal letter is not decimal. */
  lemma HexLetterNotDecimal(s: string, i: nat)
    requires 0 < i < |s| && !IsDecimalDigit(s[i])
    ensures ParseDecimal(s).None?
  {
  }

  // ---------------------------------------------------------------------------
  // FormatHexToLength

  /** `FormatHexToLength(input, length)`: rejects null and anything `int.TryParse`
      does not read as 32-bit hexadecimal; otherwise left-pads with '0' to `length`
      and never truncates. */
  function FormatHexToLength(input: Option<string>, length: int): (r: Result<string, Error>)
    ensures r.Success? <==> input.Some? && IsHex32(input.value)
    ensures r.Success? ==> && |r.value| == (if |input.value| > length then |input.value| else length)
                           && r.value[|r.value| - |input.value|..] == input.value
                           && (forall i :: 0 <= i < |r.value| - |input.value| ==> r.value[i] == '0')
                           && IsHex32(r.value)
                           && ValueIn(r.value, 16) == ValueIn(input.value, 16)
  {
    match input
    case None => Failure(NullValue)
    case Some(s) =>
      if !IsHex32(s) then Failure(NotHexString(s))
      else
        var r := if |s| > length then s else PadLeft(s, length, '0');
        LeadingZeros(|r| - |s|, s, 16);
        assert r == Repeat('0', |r| - |s|) + s;
        Success(r)
  }

  /** Formatting an already formatted field changes nothing. */
  lemma FormatHexToLengthIdempotent(input: Option<string>, length: int)
    requires FormatHexToLength(input, length).Success?
    ensures FormatHexToLength(Some(FormatHexToLength(input, length).value), length)
            == FormatHexToLength(input, length)
  {
  }
}

=== FILE: Numerals.dfy ===
/** Positional numerals over the hexadecimal digit alphabet: the digit-string
    reading used by .NET's hexadecimal, binary and decimal parsers, and the
    digit-string writing used by `ToString("X")` and `Convert.ToString(_, 2)`. */
module Numerals {

  predicate IsHexDigit(c: char) {
    '0' <= c <= '9' || 'A' <= c <= 'F' || 'a' <= c <= 'f'
  }

  /** The value of one digit; lower- and uppercase letters read alike. */
  function DigitValue(c: char): (v: nat)
    requires IsHexDigit(c)
    ensures v < 16
  {
    if '0' <= c <= '9' then c as int - '0' as int
    else if 'A' <= c <= 'F' then c as int - 'A' as int + 10
    else c as int - 'a' as int + 10
  }

  /** A digit as `ToString("X")` writes it: no lowercase letters. */
  predicate IsUpperHexDigit(c: char) {
    '0' <= c <= '9' || 'A' <= c <= 'F'
  }

  /** The uppercase digit `ToString("X")` writes for a value below sixteen. */
  function DigitChar(d: nat): (c: char)
    requires d < 16
    ensures IsUpperHexDigit(c) && DigitValue(c) == d
  {
    if d < 10 then ('0' as int + d) as char else ('A' as int + d - 10) as char
  }

  /** An uppercase digit of `base`. */
  predicate IsUpperDigitIn(c: char, base: nat) {
    IsUpperHexDigit(c) && DigitValue(c) < base
  }

  predicate IsDigitIn(c: char, base: nat) {
    IsHexDigit(c) && DigitValue(c) < base
  }

  /** Every character of `s` is a digit of `base` (vacuous for the empty string). */
  predicate AllDigits(s: string, base: nat) {
    forall i :: 0 <= i < |s| ==> IsDigitIn(s[i], base)
  }

  /** A non-empty numeral of `base` with no leading zero and no lowercase letter:
      exactly the strings `ToBase` writes. */
  predicate IsCanonical(s: string, base: nat) {
    && 2 <= base <= 16
    && |s| > 0
    && (forall i :: 0 <= i < |s| ==> IsUpperDigitIn(s[i], base))
    && (|s| == 1 || s[0] != '0')
  }

  function Pow(b: nat, k: nat): nat {
    if k == 0 then 1 else b * Pow(b, k - 1)
  }

  lemma {:induction false} PowPositive(b: nat, k: nat)
    requires b >= 1
    ensures Pow(b, k) >= 1
  {
    if k > 0 {
      PowPositive(b, k - 1);
      MulMonotone(1, Pow(b, k - 1), b);
    }
  }

  lemma MulMonotone(a: nat, b: nat, c: nat)
    requires a <= b
    ensures a * c <= b * c
  {
  }

  /** Euclidean division undoes one step of positional reading. */
  lemma DivModStep(q: nat, d: nat, base: nat)
    requires d < base
    ensures (q * base + d) / base == q
    ensures (q * base + d) % base == d
  {
    var n := q * base + d;
    var q', r' := n / base, n % base;
    assert n == q' * base + r';
    if q' < q {
      MulMonotone(q' + 1, q, base);
    } else if q' > q {
      MulMonotone(q + 1, q', base);
    }
  }

  lemma DivModOf(n: nat, q: nat, d: nat, base: nat)
    requires d < base && n == q * base + d
    ensures n / base == q && n % base == d
  {
    DivModStep(q, d, base);
  }

  /** The number a digit string denotes, most significant digit first. */
  function ValueIn(s: string, base: nat): nat
    requires AllDigits(s, base)
    decreases |s|
  {
    if |s| == 0 then 0 else ValueIn(s[..|s| - 1], base) * base + DigitValue(s[|s| - 1])
  }

  /** The shortest uppercase numeral of `n` in `base` (`"0"` for zero). */
  function ToBase(n: nat, base: nat): string
    requires 2 <= base <= 16
    decreases n
  {
    if n < base then [DigitChar(n)] else ToBase(n / base, base) + [DigitChar(n % base)]
  }

  function Repeat(c: char, k: nat): (r: string)
    ensures |r| == k
    ensures forall i :: 0 <= i < k ==> r[i] == c
  {
    if k == 0 then [] else [c] + Repeat(c, k - 1)
  }

  /** `string.PadLeft(width, c)`: never truncates. */
  function PadLeft(s: string, width: int, c: char): (r: string)
    ensures |r| == if |s| >= width then |s| else width
    ensures r[|r| - |s|..] == s
    ensures forall i :: 0 <= i < |r| - |s| ==> r[i] == c
  {
    if |s| >= width then s else Repeat(c, width - |s|) + s
  }

  /** `string.PadRight(width, c)`: never truncates. */
  function PadRight(s: string, width: int, c: char): (r: string)
    ensures |r| == if |s| >= width then |s| else width
    ensures r[..|s|] == s
    ensures forall i :: |s| <= i < |r| ==> r[i] == c
  {
    if |s| >= width then s else s + Repeat(c, width - |s|)
  }

  // ---------------------------------------------------------------------------
  // Digit facts

  /** An uppercase digit is the one `DigitChar` writes for its value. */
  lemma DigitCharOf(c: char)
    requires IsUpperHexDigit(c)
    ensures DigitChar(DigitValue(c)) == c
  {
  }

  lemma CanonicalAllDigits(s: string, base: nat)
    requires IsCanonical(s, base)
    ensures AllDigits(s, base)
  {
  }

  lemma {:induction false} PowAdd(b: nat, j: nat, k: nat)
    ensures Pow(b, j + k) == Pow(b, j) * Pow(b, k)
    decreases j
  {
    if j > 0 {
      PowAdd(b, j - 1, k);
      var x, y := Pow(b, j - 1), Pow(b, k);
      assert Pow(b, j + k) == b * Pow(b, j - 1 + k);
      MulAssoc(b, x, y);
    }
  }

  lemma MulAssoc(a: nat, b: nat, c: nat)
    ensures a * (b * c) == (a * b) * c
  {
  }

  /** Four binary digits make one hexadecimal digit. */
  lemma {:induction false} PowTwoFour(k: nat)
    ensures Pow(2, 4 * k) == Pow(16, k)
  {
    if k > 0 {
      PowTwoFour(k - 1);
      PowAdd(2, 4, 4 * (k - 1));
    }
  }

  lemma {:induction false} PowMonotone(b: nat, j: nat, k: nat)
    requires b >= 1 && j <= k
    ensures Pow(b, j) <= Pow(b, k)
    decreases k
  {
    if j < k {
      PowMonotone(b, j, k - 1);
      var p := Pow(b, k - 1);
      assert Pow(b, k) == b * p;
      MulMonotone(1, b, p);
    }
  }

  // ---------------------------------------------------------------------------
  // Reading digit strings

  lemma AllDigitsConcat(a: string, b: string, base: nat)
    requires AllDigits(a, base) && AllDigits(b, base)
    ensures AllDigits(a + b, base)
  {
  }

  /** A numeral of k digits denotes less than base^k. */
  lemma {:induction false} ValueInBound(s: string, base: nat)
    requires AllDigits(s, base)
    ensures ValueIn(s, base) < Pow(base, |s|)
    decreases |s|
  {
    if |s| > 0 {
      var init := s[..|s| - 1];
      ValueInBound(init, base);
      var v, p, d := ValueIn(init, base), Pow(base, |init|), DigitValue(s[|s| - 1]);
      assert ValueIn(s, base) == v * base + d;
      assert Pow(base, |s|) == base * p;
      StepBound(v, p, d, base);
    }
  }

  lemma StepBound(v: nat, p: nat, d: nat, base: nat)
    requires v < p && d < base
    ensures v * base + d < base * p
  {
    MulMonotone(v + 1, p, base);
    assert (v + 1) * base == v * base + base;
  }

  /** Reading a concatenation: the left part is shifted by the right part's width. */
  lemma {:induction false} ValueInConcat(a: string, b: string, base: nat)
    requires AllDigits(a, base) && AllDigits(b, base)
    ensures AllDigits(a + b, base)
    ensures ValueIn(a + b, base) == ValueIn(a, base) * Pow(base, |b|) + ValueIn(b, base)
    decreases |b|
  {
    AllDigitsConcat(a, b, base);
    if |b| == 0 {
      assert a + b == a;
    } else {
      var b' := b[..|b| - 1];
      ValueInConcat(a, b', base);
      assert (a + b)[..|a + b| - 1] == a + b';
      var x, p, y, d := ValueIn(a, base), Pow(base, |b'|), ValueIn(b', base), DigitValue(b[|b| - 1]);
      assert ValueIn(a + b, base) == ValueIn(a + b', base) * base + d;
      assert ValueIn(b, base) == y * base + d;
      assert Pow(base, |b|) == base * p;
      ShiftStep(x, p, y, d, base);
    }
  }

  lemma ShiftStep(x: nat, p: nat, y: nat, d: nat, base: nat)
    ensures (x * p + y) * base + d == x * (base * p) + (y * base + d)
  {
  }

  /** Leading zeros do not change the value. */
  lemma LeadingZeros(k: nat, s: string, base: nat)
    requires base >= 1 && AllDigits(s, base)
    ensures AllDigits(Repeat('0', k) + s, base)
    ensures ValueIn(Repeat('0', k) + s, base) == ValueIn(s, base)
  {
    var z := Repeat('0', k);
    assert AllDigits(z, base);
    ZerosValue(k, base);
    ValueInConcat(z, s, base);
  }

  lemma {:induction false} ZerosValue(k: nat, base: nat)
    requires base >= 1
    ensures AllDigits(Repeat('0', k), base)
    ensures ValueIn(Repeat('0', k), base) == 0
  {
    var z := Repeat('0', k);
    if k > 0 {
      ZerosValue(k - 1, base);
      assert z[..k - 1] == Repeat('0', k - 1);
    }
  }

  // ---------------------------------------------------------------------------
  // Writing numbers

  /** Euclidean division by a base of at least two. */
  lemma DivSplit(n: nat, base: nat)
    requires base >= 2
    ensures n == (n / base) * base + n % base && n % base < base
    ensures n >= base ==> 1 <= n / base < n
  {
    var q, r := n / base, n % base;
    assert n == q * base + r;
    if n >= base {
      MulMonotone(2, base, q);
      assert q * base >= 2 * q;
    }
  }

  /** `ToBase` writes a canonical numeral that reads back as `n`. */
  lemma {:induction false} ToBaseValue(n: nat, base: nat)
    requires 2 <= base <= 16
    ensures IsCanonical(ToBase(n, base), base)
    ensures AllDigits(ToBase(n, base), base)
    ensures ValueIn(ToBase(n, base), base) == n
    decreases n
  {
    var r := ToBase(n, base);
    if n < base {
    } else {
      DivSplit(n, base);
      var q, m := n / base, n % base;
      var qs := ToBase(q, base);
      ToBaseValue(q, base);
      assert r == qs + [DigitChar(m)];
      assert r[..|r| - 1] == qs;
      assert r[0] == qs[0];
      if |qs| == 1 {
        assert q < base by {
          if q >= base {
            ToBaseLengthStep(q, base);
          }
        }
        assert qs == [DigitChar(q)];
      }
      forall i | 0 <= i < |r| ensures IsUpperDigitIn(r[i], base) {
        if i < |qs| {
          assert r[i] == qs[i];
        }
      }
      CanonicalAllDigits(r, base);
      assert ValueIn(r, base) == q * base + m;
    }
    CanonicalAllDigits(r, base);
  }

  /** A number of at least `base` is written with at least two digits. */
  lemma ToBaseLengthStep(n: nat, base: nat)
    requires 2 <= base <= 16 && n >= base
    ensures |ToBase(n, base)| >= 2
  {
  }

  /** The width of `ToBase(n)`: base^(w-1) <= n < base^w, or w == 1 for zero. */
  lemma {:induction false} ToBaseLength(n: nat, base: nat)
    requires 2 <= base <= 16
    ensures |ToBase(n, base)| >= 1
    ensures n < Pow(base, |ToBase(n, base)|)
    ensures n > 0 ==> Pow(base, |ToBase(n, base)| - 1) <= n
    decreases n
  {
    if n < base {
      assert Pow(base, 1) == base;
    } else {
      DivSplit(n, base);
      var q, m := n / base, n % base;
      ToBaseLength(q, base);
      var w' := |ToBase(q, base)|;
      assert |ToBase(n, base)| == w' + 1;
      var p := Pow(base, w');
      assert Pow(base, w' + 1) == base * p;
      StepBound(q, p, m, base);
      assert q >= 1;
      var p' := Pow(base, w' - 1);
      assert p == base * p';
      MulMonotone(p', q, base);
      assert p <= q * base;
      assert Pow(base, |ToBase(n, base)| - 1) == p;
    }
  }

  /** A number of width at most k is written with at most k digits. */
  lemma ToBaseShort(n: nat, base: nat, k: nat)
    requires 2 <= base <= 16 && k >= 1 && n < Pow(base, k)
    ensures |ToBase(n, base)| <= k
  {
    ToBaseLength(n, base);
    var w := |ToBase(n, base)|;
    if w > k {
      PowMonotone(base, k, w - 1);
    }
  }

  /** A number with its top bit at position k·4-1 is written with exactly k hex digits. */
  lemma ToBaseExact(n: nat, base: nat, k: nat)
    requires 2 <= base <= 16 && k >= 1 && Pow(base, k - 1) <= n < Pow(base, k)
    ensures |ToBase(n, base)| == k
  {
    ToBaseLength(n, base);
    ToBaseShort(n, base, k);
    var w := |ToBase(n, base)|;
    if w < k {
      PowMonotone(base, w, k - 1);
    }
  }

  /** Reading the first digit separately. */
  lemma {:induction false} ValueInFront(s: string, base: nat)
    requires |s| > 0 && AllDigits(s, base)
    ensures AllDigits(s[1..], base)
    ensures ValueIn(s, base) == DigitValue(s[0]) * Pow(base, |s| - 1) + ValueIn(s[1..], base)
  {
    assert s == [s[0]] + s[1..];
    ValueInConcat([s[0]], s[1..], base);
    assert [s[0]][..0] == [];
  }

  /** The first digit of a canonical numeral is not zero, so it is as wide as the number. */
  lemma CanonicalLower(s: string, base: nat)
    requires IsCanonical(s, base) && |s| > 1
    ensures AllDigits(s, base)
    ensures Pow(base, |s| - 1) <= ValueIn(s, base)
  {
    CanonicalAllDigits(s, base);
    ValueInFront(s, base);
    MulMonotone(1, DigitValue(s[0]), Pow(base, |s| - 1));
  }

  /** Dropping the last digit of a canonical numeral of two or more digits keeps it canonical. */
  lemma CanonicalInit(s: string, base: nat)
    requires IsCanonical(s, base) && |s| > 1
    ensures IsCanonical(s[..|s| - 1], base)
  {
    var init := s[..|s| - 1];
    forall i | 0 <= i < |init| ensures IsUpperDigitIn(init[i], base) {
      assert init[i] == s[i];
    }
  }

  /** Every character of a canonical numeral is the digit of its own value. */
  lemma CanonicalDigit(c: char, base: nat) returns (j: nat)
    requires 2 <= base <= 16 && IsUpperDigitIn(c, base)
    ensures j < base && DigitChar(j) == c && IsHexDigit(c) && DigitValue(c) == j
  {
    j := DigitValue(c);
    DigitCharOf(c);
  }

  /** A canonical numeral is the only way `ToBase` writes its value. */
  lemma {:induction false} CanonicalRoundTrip(s: string, base: nat)
    requires IsCanonical(s, base)
    ensures AllDigits(s, base)
    ensures ToBase(ValueIn(s, base), base) == s
    decreases |s|
  {
    CanonicalAllDigits(s, base);
    var v := ValueIn(s, base);
    var last := s[|s| - 1];
    var j := CanonicalDigit(last, base);
    var init := s[..|s| - 1];
    assert v == ValueIn(init, base) * base + j;
    if |s| == 1 {
      assert ValueIn(init, base) == 0 by {
        assert init == [];
      }
      assert v == j;
      assert ToBase(v, base) == [last];
      assert s == [last];
    } else {
      var q := ValueIn(init, base);
      CanonicalInit(s, base);
      CanonicalRoundTrip(init, base);
      CanonicalWide(s, base);
      DivModOf(v, q, j, base);
      ToBaseStep(v, base);
      assert ToBase(q, base) == init;
      assert DigitChar(j) == last;
      calc {
        ToBase(v, base);
        ToBase(q, base) + [DigitChar(j)];
        init + [last];
        { LastSplit(s); }
        s;
      }
    }
  }

  lemma LastSplit(s: string)
    requires |s| > 0
    ensures s[..|s| - 1] + [s[|s| - 1]] == s
  {
  }

  /** A canonical numeral of two or more digits denotes at least its base. */
  lemma CanonicalWide(s: string, base: nat)
    requires IsCanonical(s, base) && |s| > 1
    ensures AllDigits(s, base)
    ensures ValueIn(s, base) >= base
  {
    CanonicalLower(s, base);
    PowMonotone(base, 1, |s| - 1);
    assert Pow(base, 1) == base * Pow(base, 0);
  }

  lemma ToBaseStep(n: nat, base: nat)
    requires 2 <= base <= 16 && n >= base
    ensures ToBase(n, base) == ToBase(n / base, base) + [DigitChar(n % base)]
  {
  }

  /** Two numerals of one base that read alike and are both canonical are equal. */
  lemma CanonicalUnique(s: string, t: string, base: nat)
    requires IsCanonical(s, base) && IsCanonical(t, base)
    requires AllDigits(s, base) && AllDigits(t, base)
    requires ValueIn(s, base) == ValueIn(t, base)
    ensures s == t
  {
    CanonicalRoundTrip(s, base);
    CanonicalRoundTrip(t, base);
  }
}

=== FILE: ObjectProgram.dfy ===
/** The object program writer (SICCSharp/Extensions/CompileHelper.cs:195-312):
    a header record, text records for the command lines and then for the
    declaration lines, and an end record, each field separated by '^'.
    `Environment.NewLine` is written "\n". */
module ObjectProgram {
  import opened Wrappers
  import opened Errors
  import opened Numerals
  import opened NumberFormat
  import opened Entities
  import opened MnemonicList
  import opened MathHelper
  import opened Text
  import opened Chunking

  // ---------------------------------------------------------------------------
  // Filtering and searching in line order

  /** `Where(p)`: the lines satisfying `p`, in order. */
  function Keep(s: seq<Instruction>, p: Instruction -> bool): (r: seq<Instruction>)
    ensures |r| <= |s|
    ensures forall x :: x in r <==> x in s && p(x)
    decreases |s|
  {
    if |s| == 0 then []
    else
      assert forall x :: x in s <==> x == s[0] || x in s[1..];
      (if p(s[0]) then [s[0]] else []) + Keep(s[1..], p)
  }

  /** Filtering distributes over concatenation, so filtering chunk by chunk
      keeps the same lines in the same order as filtering the whole. */
  lemma {:induction false} KeepAppend(a: seq<Instruction>, b: seq<Instruction>, p: Instruction -> bool)
    ensures Keep(a + b, p) == Keep(a, p) + Keep(b, p)
    decreases |a|
  {
    if |a| > 0 {
      assert (a + b)[1..] == a[1..] + b;
      KeepAppend(a[1..], b, p);
    } else {
      assert a + b == b;
    }
  }

  /** `FirstOrDefault(p)` as a position. */
  function FirstWhere(s: seq<Instruction>, p: Instruction -> bool): (r: Option<nat>)
    ensures r.Some? ==> r.value < |s| && p(s[r.value]) && forall j :: 0 <= j < r.value ==> !p(s[j])
    ensures r.None? <==> forall j :: 0 <= j < |s| ==> !p(s[j])
    decreases |s|
  {
    if |s| == 0 then None
    else if p(s[0]) then Some(0)
    else
      match FirstWhere(s[1..], p)
      case None => None
      case Some(k) => Some(k + 1)
  }

  /** `LastOrDefault(p)` as a position. */
  function LastWhere(s: seq<Instruction>, p: Instruction -> bool): (r: Option<nat>)
    ensures r.Some? ==> r.value < |s| && p(s[r.value]) && forall j :: r.value < j < |s| ==> !p(s[j])
    ensures r.None? <==> forall j :: 0 <= j < |s| ==> !p(s[j])
    decreases |s|
  {
    if |s| == 0 then None
    else if p(s[|s| - 1]) then Some(|s| - 1)
    else LastWhere(s[..|s| - 1], p)
  }

  /** The first position where `p` holds is the one before which it never does. */
  lemma FirstWhereAt(s: seq<Instruction>, p: Instruction -> bool, k: nat)
    requires k < |s| && p(s[k]) && forall j :: 0 <= j < k ==> !p(s[j])
    ensures FirstWhere(s, p) == Some(k)
  {
  }

  // ---------------------------------------------------------------------------
  // Line order

  /** Each line's number is at least the one before it. */
  predicate SortedByLine(s: seq<Instruction>) {
    forall i :: 0 < i < |s| ==> s[i - 1].lineCount <= s[i].lineCount
  }

  /** Places `x` before the first line with a line number not below its own. */
  function InsertByLine(x: Instruction, s: seq<Instruction>): (r: seq<Instruction>)
    requires SortedByLine(s)
    ensures SortedByLine(r) && multiset(r) == multiset(s) + multiset{x}
    ensures |r| == |s| + 1 && (r[0] == x || (|s| > 0 && r[0] == s[0]))
    decreases |s|
  {
    if |s| == 0 || x.lineCount <= s[0].lineCount then
      [x] + s
    else
      var rest := InsertByLine(x, s[1..]);
      assert s == [s[0]] + s[1..];
      var r := [s[0]] + rest;
      assert r[1..] == rest;
      r
  }

  /** `OrderBy(x => x.LineCount)`: a stable sort by line number. */
  function OrderByLine(s: seq<Instruction>): (r: seq<Instruction>)
    ensures SortedByLine(r) && multiset(r) == multiset(s) && |r| == |s|
    decreases |s|
  {
    if |s| == 0 then []
    else
      assert s == [s[0]] + s[1..];
      InsertByLine(s[0], OrderByLine(s[1..]))
  }

  /** Lines already in line order stay as they are. */
  lemma {:induction false} OrderByLineSorted(s: seq<Instruction>)
    requires SortedByLine(s)
    ensures OrderByLine(s) == s
    decreases |s|
  {
    if |s| > 0 {
      OrderByLineSorted(s[1..]);
      assert s == [s[0]] + s[1..];
    }
  }

  // ---------------------------------------------------------------------------
  // Header record

  /** A reference that must not be null. */
  function Present(s: Option<string>): (r: Result<string, Error>)
    ensures r.Success? <==> s.Some?
    ensures r.Success? ==> r.value == s.value
    ensures r.Failure? ==> r.error == NullValue
  {
    if s.None? then Failure(NullValue) else Success(s.value)
  }

  /** The program name: the START line's label, or "PROG" without one. */
  function ProgramName(start: Instruction): (r: string)
    ensures r != ""
  {
    if IsNullOrEmpty(start.labelText) then "PROG" else start.labelText.value
  }

  /** `BuildHeaderRecord(start, end)`: the two lines must be START and END;
      the record is "H", the name, the start address and the program size
      (end address minus start address), the last two as hexadecimal fields
      of at least six digits, joined by '^'. */
  function BuildHeaderRecord(start: Instruction, end: Instruction): (r: Result<string, Error>)
    ensures start.mnemonic.name != "START" ==> r == Failure(InvalidStartInstruction)
    ensures start.mnemonic.name == "START" && end.mnemonic.name != "END" ==> r == Failure(InvalidEndInstruction)
    ensures r.Success? <==> && start.mnemonic.name == "START" && end.mnemonic.name == "END"
                            && start.memoryLocation.Some? && IsHex32(start.memoryLocation.value)
                            && end.memoryLocation.Some? && IsHex32(end.memoryLocation.value)
    ensures r.Success? ==> |r.value| >= 2 && r.value[..2] == "H^"
  {
    if start.mnemonic.name != StartInstruction.name then Failure(InvalidStartInstruction)
    else if end.mnemonic.name != EndInstruction.name then Failure(InvalidEndInstruction)
    else
      var address :- FormatHexToLength(start.memoryLocation, 6);
      var endAddress :- Present(end.memoryLocation);
      var size :- SubHex(endAddress, start.memoryLocation.value);
      var sizeField := FormatHexToLength(Some(size), 6).value;
      HeaderPrefix(ProgramName(start), address, sizeField);
      Success(Join(["H", ProgramName(start), address, sizeField], '^'))
  }

  lemma HeaderPrefix(name: string, address: string, size: string)
    ensures var h := Join(["H", name, address, size], '^');
            |h| >= 2 && h[..2] == "H^"
  {
    JoinHead(["H", name, address, size], '^');
  }

  /** The difference of two hexadecimal strings, modulo 2^32. */
  lemma SubHexValue(a: string, b: string)
    requires IsHex32(a) && IsHex32(b)
    ensures IsHex32(SubHex(a, b).value)
    ensures ValueIn(SubHex(a, b).value, 16) == (ValueIn(a, 16) - ValueIn(b, 16)) % TwoTo32
  {
  }

  /** A joined list of two or more pieces starts with the first piece and
      the separator. */
  lemma JoinHead(parts: seq<string>, sep: char)
    requires |parts| >= 2
    ensures |Join(parts, sep)| > |parts[0]|
    ensures Join(parts, sep)[..|parts[0]| + 1] == parts[0] + [sep]
  {
    var rest := Join(parts[1..], sep);
    assert Join(parts, sep) == parts[0] + [sep] + rest;
    assert (parts[0] + [sep] + rest)[..|parts[0]| + 1] == parts[0] + [sep];
  }

  /** Read back, a header record splits on '^' into "H", the name, the start
      address and the program size (modulo 2^32), each at least six digits. */
  lemma HeaderRecordFields(start: Instruction, end: Instruction)
    requires BuildHeaderRecord(start, end).Success? && NoneOf(ProgramName(start), ['^'])
    ensures IsHex32(start.memoryLocation.value) && IsHex32(end.memoryLocation.value)
    ensures var f := Split(BuildHeaderRecord(start, end).value, ['^']);
            && |f| == 4 && f[0] == "H" && f[1] == ProgramName(start)
            && f[2] == FormatHexToLength(start.memoryLocation, 6).value
            && f[3] == SizeField(start, end)
  {
    var a := FormatHexToLength(start.memoryLocation, 6).value;
    var b := SizeField(start, end);
    assert BuildHeaderRecord(start, end).value == Join(["H", ProgramName(start), a, b], '^');
    SplitHeader(ProgramName(start), a, b);
  }

  /** The size field: the end address minus the start address, modulo 2^32,
      in at least six hexadecimal digits. */
  function SizeField(start: Instruction, end: Instruction): (r: string)
    requires start.memoryLocation.Some? && IsHex32(start.memoryLocation.value)
    requires end.memoryLocation.Some? && IsHex32(end.memoryLocation.value)
    ensures |r| >= 6 && IsHex32(r)
    ensures ValueIn(r, 16) == (ValueIn(end.memoryLocation.value, 16) - ValueIn(start.memoryLocation.value, 16)) % TwoTo32
  {
    var e := end.memoryLocation.value;
    var s := start.memoryLocation.value;
    var size := SubHex(e, s).value;
    var r := FormatHexToLength(Some(size), 6).value;
    SizeValue(e, s, size, r);
    r
  }

  lemma SizeValue(e: string, s: string, size: string, field: string)
    requires IsHex32(e) && IsHex32(s)
    requires size == SubHex(e, s).value && field == FormatHexToLength(Some(size), 6).value
    ensures |field| >= 6 && IsHex32(field)
    ensures ValueIn(field, 16) == (ValueIn(e, 16) - ValueIn(s, 16)) % TwoTo32
  {
    SubHexValue(e, s);
    PadValue(size, 6, field);
  }

  /** Padding keeps the value. */
  lemma PadValue(x: string, width: nat, field: string)
    requires IsHex32(x) && field == FormatHexToLength(Some(x), width).value
    ensures |field| >= width && IsHex32(field) && ValueIn(field, 16) == ValueIn(x, 16)
  {
  }

  /** Four caret-free header fields joined by '^' split back into themselves. */
  lemma SplitHeader(name: string, address: string, size: string)
    requires NoneOf(name, ['^']) && AllDigits(address, 16) && AllDigits(size, 16)
    ensures Split(Join(["H", name, address, size], '^'), ['^']) == ["H", name, address, size]
  {
    var fields := ["H", name, address, size];
    HexFieldHasNoCaret(address);
    HexFieldHasNoCaret(size);
    assert NoneOf("H", ['^']);
    SplitJoin(fields, '^', ['^']);
  }

  /** Hexadecimal digits are never the field separator. */
  lemma HexFieldHasNoCaret(s: string)
    requires AllDigits(s, 16)
    ensures NoneOf(s, ['^'])
  {
    forall i | 0 <= i < |s| ensures s[i] !in ['^'] {
      assert IsDigitIn(s[i], 16);
    }
  }

  // ---------------------------------------------------------------------------
  // Text records

  /** `!string.IsNullOrWhiteSpace(OpCode)`: the line has object code. */
  predicate HasCode(x: Instruction) {
    !IsNullOrBlank(x.opCode)
  }

  /** The raw object codes laid end to end (`string.Join("", ...)`). */
  function CodeText(kept: seq<Instruction>): string
    decreases |kept|
  {
    if |kept| == 0 then "" else kept[0].opCode.GetOr("") + CodeText(kept[1..])
  }

  /** Each line's object code as a field of at least six hexadecimal digits. */
  function CodeFields(kept: seq<Instruction>): (r: Result<seq<string>, Error>)
    ensures r.Success? <==> forall i :: 0 <= i < |kept| ==> kept[i].opCode.Some? && IsHex32(kept[i].opCode.value)
    ensures r.Success? ==> |r.value| == |kept|
    ensures r.Success? ==> forall i :: 0 <= i < |kept| ==> r.value[i] == FormatHexToLength(kept[i].opCode, 6).value
    decreases |kept|
  {
    if |kept| == 0 then Success([])
    else
      var field :- FormatHexToLength(kept[0].opCode, 6);
      var rest :- CodeFields(kept[1..]);
      Success([field] + rest)
  }

  /** One chunk's text record: nothing when no line of the chunk has object
      code; otherwise a new line, then "T", the first such line's address,
      the length in bytes of their raw object codes (half the characters)
      and their codes, each field followed by '^'. */
  function TextRecord(chunk: seq<Instruction>): (r: Result<string, Error>)
    ensures Keep(chunk, HasCode) == [] ==> r == Success("")
    ensures r.Success? && Keep(chunk, HasCode) != [] ==> IsTextLine(r.value)
  {
    var kept := Keep(chunk, HasCode);
    if |kept| == 0 then Success("")
    else
      var bytes := |CodeText(kept)| / 2;
      var address :- FormatHexToLength(kept[0].memoryLocation, 6);
      var length := ByteCountField(bytes);
      var codes :- CodeFields(kept);
      Success(TextLine(["T", address, length] + codes + [""]))
  }

  /** A text record on its own line: "T" first, every field followed by '^'. */
  predicate IsTextLine(s: string) {
    |s| >= 3 && s[..3] == "\nT^"
  }

  function TextLine(fields: seq<string>): (r: string)
    requires |fields| >= 2 && fields[0] == "T"
    ensures IsTextLine(r)
  {
    var joined := Join(fields, '^');
    JoinHead(fields, '^');
    assert joined[..2] == "T^";
    assert ("\n" + joined)[..3] == "\n" + joined[..2];
    "\n" + joined
  }

  /** The records of a sequence of chunks, in order; the first failure stops them. */
  function TextRecords(chunks: seq<seq<Instruction>>): (r: Result<string, Error>)
    decreases |chunks|
  {
    if |chunks| == 0 then Success("")
    else
      var first :- TextRecord(chunks[0]);
      var rest :- TextRecords(chunks[1..]);
      Success(first + rest)
  }

  /** `BuildTextRecord(lines)`: the lines cut into chunks of eight, one record
      per chunk; lines without object code are dropped after the cut. */
  function BuildTextRecord(lines: seq<Instruction>): (r: Result<string, Error>)
    ensures Keep(lines, HasCode) == [] ==> r == Success("")
  {
    var chunks := Chunk(lines, 8).value;
    NoCodeNoRecords(chunks);
    TextRecords(chunks)
  }

  lemma {:induction false} NoCodeNoRecords(chunks: seq<seq<Instruction>>)
    ensures Keep(Flatten(chunks), HasCode) == [] ==> TextRecords(chunks) == Success("")
    decreases |chunks|
  {
    if |chunks| > 0 {
      KeepAppend(chunks[0], Flatten(chunks[1..]), HasCode);
      NoCodeNoRecords(chunks[1..]);
    }
  }

  /** The lines each record carries: the lines with object code of one chunk. */
  function RecordGroups(lines: seq<Instruction>): (r: seq<seq<Instruction>>)
  {
    var chunks := Chunks(lines, 8);
    seq(|chunks|, i requires 0 <= i < |chunks| => Keep(chunks[i], HasCode))
  }

  /** Chunking before dropping: each record carries at most eight lines, and
      the records together carry exactly the lines with object code, in order.
      A record can hold fewer than eight lines while later lines remain. */
  lemma RecordGroupsPartition(lines: seq<Instruction>)
    ensures forall i :: 0 <= i < |RecordGroups(lines)| ==> |RecordGroups(lines)[i]| <= 8
    ensures Flatten(RecordGroups(lines)) == Keep(lines, HasCode)
  {
    var chunks := Chunks(lines, 8);
    ChunkSizes(lines, 8);
    KeptChunks(chunks);
  }

  lemma {:induction false} KeptChunks(chunks: seq<seq<Instruction>>)
    ensures var g := seq(|chunks|, i requires 0 <= i < |chunks| => Keep(chunks[i], HasCode));
            Flatten(g) == Keep(Flatten(chunks), HasCode)
    decreases |chunks|
  {
    var g := seq(|chunks|, i requires 0 <= i < |chunks| => Keep(chunks[i], HasCode));
    if |chunks| > 0 {
      var tail := chunks[1..];
      KeptChunks(tail);
      var gt := seq(|tail|, i requires 0 <= i < |tail| => Keep(tail[i], HasCode));
      assert g[1..] == gt;
      KeepAppend(chunks[0], Flatten(tail), HasCode);
    }
  }

  /** The text part is one record per group: each chunk's record depends only
      on the chunk's lines with object code. */
  lemma BuildTextRecordByGroups(lines: seq<Instruction>)
    ensures BuildTextRecord(lines) == TextRecords(RecordGroups(lines))
  {
    TextRecordsOfKept(Chunks(lines, 8));
  }

  lemma {:induction false} TextRecordsOfKept(chunks: seq<seq<Instruction>>)
    ensures var g := seq(|chunks|, i requires 0 <= i < |chunks| => Keep(chunks[i], HasCode));
            TextRecords(g) == TextRecords(chunks)
    decreases |chunks|
  {
    var g := seq(|chunks|, i requires 0 <= i < |chunks| => Keep(chunks[i], HasCode));
    if |chunks| > 0 {
      var tail := chunks[1..];
      TextRecordsOfKept(tail);
      var gt := seq(|tail|, i requires 0 <= i < |tail| => Keep(tail[i], HasCode));
      assert g[1..] == gt;
      TextRecordOfKept(chunks[0]);
      TextRecordsStep(g, chunks);
    }
  }

  /** A chunk's record is that of its lines with object code. */
  lemma TextRecordOfKept(chunk: seq<Instruction>)
    ensures TextRecord(Keep(chunk, HasCode)) == TextRecord(chunk)
  {
    KeepIdempotent(chunk, HasCode);
  }

  /** Two chunk sequences with the same first record and the same later
      records have the same records. */
  lemma TextRecordsStep(a: seq<seq<Instruction>>, b: seq<seq<Instruction>>)
    requires |a| > 0 && |b| > 0
    requires TextRecord(a[0]) == TextRecord(b[0]) && TextRecords(a[1..]) == TextRecords(b[1..])
    ensures TextRecords(a) == TextRecords(b)
  {
  }

  /** Filtering twice by the same predicate is filtering once. */
  lemma {:induction false} KeepIdempotent(s: seq<Instruction>, p: Instruction -> bool)
    ensures Keep(Keep(s, p), p) == Keep(s, p)
    decreases |s|
  {
    if |s| > 0 {
      var head := if p(s[0]) then [s[0]] else [];
      KeepIdempotent(s[1..], p);
      KeepAppend(head, Keep(s[1..], p), p);
      assert Keep(head, p) == head by {
        if p(s[0]) {
          assert head[1..] == [];
        }
      }
    }
  }

  /** The record length: a byte count as `ToString("X")` of an `Int32`,
      padded to at least two digits. */
  function ByteCountField(bytes: nat): (r: string)
    ensures |r| >= 2 && IsHex32(r) && ValueIn(r, 16) == bytes % TwoTo32
  {
    var digits := FormatHex(Wrap32(bytes));
    PadValue(digits, 2, FormatHexToLength(Some(digits), 2).value);
    FormatHexToLength(Some(digits), 2).value
  }

  /** Read back, a non-empty text record is a new line followed by fields
      split on '^': "T", the first line's address padded to six digits, the
      byte count of the raw object codes, the object code fields, and an
      empty tail after the last '^'. */
  lemma TextRecordFields(chunk: seq<Instruction>)
    requires TextRecord(chunk).Success? && Keep(chunk, HasCode) != []
    ensures var kept := Keep(chunk, HasCode);
            var r := TextRecord(chunk).value;
            && r[0] == '\n'
            && kept[0].memoryLocation.Some? && IsHex32(kept[0].memoryLocation.value)
            && CodeFields(kept).Success?
            && Split(r[1..], ['^'])
               == ["T", FormatHexToLength(kept[0].memoryLocation, 6).value, ByteCountField(|CodeText(kept)| / 2)]
                  + CodeFields(kept).value + [""]
  {
    var kept := Keep(chunk, HasCode);
    var r := TextRecord(chunk).value;
    var a := FormatHexToLength(kept[0].memoryLocation, 6).value;
    var l := ByteCountField(|CodeText(kept)| / 2);
    var codes := CodeFields(kept).value;
    var parts := ["T", a, l] + codes + [""];
    assert r[1..] == Join(parts, '^') by {
      assert r == "\n" + Join(parts, '^');
    }
    SplitText(a, l, codes);
  }

  /** Caret-free text record fields joined by '^', with a final '^', split
      back into themselves and an empty tail. */
  lemma SplitText(address: string, length: string, codes: seq<string>)
    requires AllDigits(address, 16) && AllDigits(length, 16)
    requires forall i :: 0 <= i < |codes| ==> AllDigits(codes[i], 16)
    ensures var parts := ["T", address, length] + codes + [""];
            Split(Join(parts, '^'), ['^']) == parts
  {
    var parts := ["T", address, length] + codes + [""];
    forall i | 0 <= i < |parts| ensures NoneOf(parts[i], ['^']) {
      if i == 0 {
        assert NoneOf("T", ['^']);
      } else if i == 1 {
        HexFieldHasNoCaret(address);
      } else if i == 2 {
        HexFieldHasNoCaret(length);
      } else if i < |parts| - 1 {
        assert parts[i] == codes[i - 3];
        HexFieldHasNoCaret(codes[i - 3]);
      }
    }
    SplitJoin(parts, '^', ['^']);
  }

  // ---------------------------------------------------------------------------
  // End record

  /** A line that can be the entry point: anything but START. */
  predicate IsEntryLine(x: Instruction) {
    x.mnemonic.name != StartInstruction.name
  }

  /** `BuildEndRecord(lines)`: "E^" and the six-digit address of the first
      line that is not START; a program of nothing but START lines throws. */
  function BuildEndRecord(ordered: seq<Instruction>): (r: Result<string, Error>)
    ensures (forall j :: 0 <= j < |ordered| ==> ordered[j].mnemonic.name == "START") ==> r == Failure(NoEntryInstruction)
  {
    match FirstWhere(ordered, IsEntryLine)
    case None => Failure(NoEntryInstruction)
    case Some(k) =>
      var address :- FormatHexToLength(ordered[k].memoryLocation, 6);
      Success(Join(["E", address], '^'))
  }

  /** Read back, the end record splits into "E" and the address of the first
      line that is not START, padded to six digits. */
  lemma EndRecordFields(ordered: seq<Instruction>, k: nat)
    requires k < |ordered| && ordered[k].mnemonic.name != "START"
    requires forall j :: 0 <= j < k ==> ordered[j].mnemonic.name == "START"
    ensures BuildEndRecord(ordered).Success? <==> ordered[k].memoryLocation.Some? && IsHex32(ordered[k].memoryLocation.value)
    ensures BuildEndRecord(ordered).Success? ==>
              var f := Split(BuildEndRecord(ordered).value, ['^']);
              && |f| == 2 && f[0] == "E" && |f[1]| >= 6 && IsHex32(f[1])
              && ValueIn(f[1], 16) == ValueIn(ordered[k].memoryLocation.value, 16)
  {
    FirstWhereAt(ordered, IsEntryLine, k);
    if BuildEndRecord(ordered).Success? {
      var a := FormatHexToLength(ordered[k].memoryLocation, 6).value;
      HexFieldHasNoCaret(a);
      assert NoneOf("E", ['^']);
      SplitJoin(["E", a], '^', ['^']);
    }
  }

  // ---------------------------------------------------------------------------
  // The whole object program

  /** A line of the command group: its opcode is a standard one and it is not START or END. */
  predicate InCommandGroup(x: Instruction) {
    IsStandardOpCode(x.mnemonic.opCode) && !IsBeginEnd(x.mnemonic.name)
  }

  /** A line of the declaration group: not a command line, and RESW, RESB or WORD. */
  predicate InSymbolGroup(x: Instruction) {
    !InCommandGroup(x) && IsSymbolName(x.mnemonic.name)
  }

  predicate IsStartLine(x: Instruction) {
    x.mnemonic.name == StartInstruction.name
  }

  predicate IsEndLine(x: Instruction) {
    x.mnemonic.name == EndInstruction.name
  }

  /** Neither START nor END. */
  predicate IsProgramLine(x: Instruction) {
    !IsBeginEnd(x.mnemonic.name)
  }

  /** Some line has an address. */
  predicate AnyAddressed(s: seq<Instruction>) {
    exists x :: x in s && !IsNullOrEmpty(x.memoryLocation)
  }

  /** Some line is START. */
  predicate AnyStart(s: seq<Instruction>) {
    exists x :: x in s && IsStartLine(x)
  }

  /** Some line is END. */
  predicate AnyEnd(s: seq<Instruction>) {
    exists x :: x in s && IsEndLine(x)
  }

  /** Sorting keeps exactly the same lines. */
  lemma OrderByLineMembers(s: seq<Instruction>)
    ensures forall x :: x in OrderByLine(s) <==> x in s
  {
    var r := OrderByLine(s);
    forall x ensures x in r <==> x in s {
      assert x in r <==> x in multiset(r);
      assert x in s <==> x in multiset(s);
    }
  }

  /** The header's first line: the first START, or else the first line. */
  function HeaderStart(ordered: seq<Instruction>): (r: Instruction)
    requires |ordered| > 0
    ensures r in ordered
    ensures IsStartLine(r) <==> AnyStart(ordered)
    ensures AnyStart(ordered) ==> exists k :: 0 <= k < |ordered| && r == ordered[k] && IsStartLine(ordered[k])
                                    && forall j :: 0 <= j < k ==> !IsStartLine(ordered[j])
    ensures !AnyStart(ordered) ==> r == ordered[0]
  {
    match FirstWhere(ordered, IsStartLine)
    case Some(k) => ordered[k]
    case None => ordered[0]
  }

  /** The header's last line: the last END, or else the last line. */
  function HeaderEnd(ordered: seq<Instruction>): (r: Instruction)
    requires |ordered| > 0
    ensures r in ordered
    ensures IsEndLine(r) <==> AnyEnd(ordered)
    ensures AnyEnd(ordered) ==> exists k :: 0 <= k < |ordered| && r == ordered[k] && IsEndLine(ordered[k])
                                  && forall j :: k < j < |ordered| ==> !IsEndLine(ordered[j])
    ensures !AnyEnd(ordered) ==> r == ordered[|ordered| - 1]
  {
    match LastWhere(ordered, IsEndLine)
    case Some(k) => ordered[k]
    case None => ordered[|ordered| - 1]
  }

  /** `CompileObjectProgram(lines)`: the lines in line order; an empty
      program, one without any address, one without START and one without
      END are rejected in that order. The header is built from the first
      START and the last END, then come the text records of the command
      lines, then those of the declaration lines, a blank line and the end
      record. */
  function CompileObjectProgram(lines: seq<Instruction>): (r: Result<string, Error>)
    ensures |lines| == 0 ==> r == Failure(EmptyProgram)
    ensures |lines| > 0 && !AnyAddressed(lines) ==> r == Failure(NoMemoryAddress)
    ensures AnyAddressed(lines) && !AnyStart(lines) ==> r == Failure(InvalidStartInstruction)
    ensures AnyAddressed(lines) && AnyStart(lines) && !AnyEnd(lines) ==> r == Failure(InvalidEndInstruction)
    ensures r.Success? ==> AnyAddressed(lines) && AnyStart(lines) && AnyEnd(lines)
    ensures r.Success? ==> Framed(r.value)
    ensures r.Success? ==>
              var o := OrderByLine(lines);
              && |o| > 0
              && BuildHeaderRecord(HeaderStart(o), HeaderEnd(o)).Success?
              && BuildTextRecord(Keep(o, InCommandGroup)).Success?
              && BuildTextRecord(Keep(o, InSymbolGroup)).Success?
              && BuildEndRecord(o).Success?
              && r.value == BuildHeaderRecord(HeaderStart(o), HeaderEnd(o)).value
                            + BuildTextRecord(Keep(o, InCommandGroup)).value
                            + BuildTextRecord(Keep(o, InSymbolGroup)).value
                            + "\n" + BuildEndRecord(o).value + "\n"
  {
    var ordered := OrderByLine(lines);
    OrderByLineMembers(lines);
    assert AnyAddressed(ordered) == AnyAddressed(lines);
    assert AnyStart(ordered) == AnyStart(lines);
    assert AnyEnd(ordered) == AnyEnd(lines);
    if |ordered| == 0 then Failure(EmptyProgram)
    else if !AnyAddressed(ordered) then Failure(NoMemoryAddress)
    else
      ProgramRecords(ordered)
  }

  /** The records of a sorted, addressed program: the header from the first
      START and the last END, the text records of the command lines, then
      those of the declaration lines, a blank line and the end record. */
  function ProgramRecords(ordered: seq<Instruction>): (r: Result<string, Error>)
    requires |ordered| > 0
    ensures !AnyStart(ordered) ==> r == Failure(InvalidStartInstruction)
    ensures AnyStart(ordered) && !AnyEnd(ordered) ==> r == Failure(InvalidEndInstruction)
    ensures r.Success? ==> Framed(r.value)
    ensures r.Success? ==>
              && BuildHeaderRecord(HeaderStart(ordered), HeaderEnd(ordered)).Success?
              && BuildTextRecord(Keep(ordered, InCommandGroup)).Success?
              && BuildTextRecord(Keep(ordered, InSymbolGroup)).Success?
              && BuildEndRecord(ordered).Success?
              && r.value == BuildHeaderRecord(HeaderStart(ordered), HeaderEnd(ordered)).value
                            + BuildTextRecord(Keep(ordered, InCommandGroup)).value
                            + BuildTextRecord(Keep(ordered, InSymbolGroup)).value
                            + "\n" + BuildEndRecord(ordered).value + "\n"
  {
    CombineRecords(BuildHeaderRecord(HeaderStart(ordered), HeaderEnd(ordered)),
                   BuildTextRecord(Keep(ordered, InCommandGroup)),
                   BuildTextRecord(Keep(ordered, InSymbolGroup)),
                   BuildEndRecord(ordered))
  }

  /** The four parts in order; the first that failed decides the error, as
      the source builds them one after the other. */
  function CombineRecords(header: Result<string, Error>, commands: Result<string, Error>,
                          symbols: Result<string, Error>, end: Result<string, Error>): (r: Result<string, Error>)
    requires header.Success? ==> |header.value| >= 2 && header.value[..2] == "H^"
    ensures r.Success? <==> header.Success? && commands.Success? && symbols.Success? && end.Success?
    ensures header.Failure? ==> r == Failure(header.error)
    ensures header.Success? && commands.Failure? ==> r == Failure(commands.error)
    ensures header.Success? && commands.Success? && symbols.Failure? ==> r == Failure(symbols.error)
    ensures header.Success? && commands.Success? && symbols.Success? && end.Failure? ==> r == Failure(end.error)
    ensures r.Success? ==> r.value == header.value + commands.value + symbols.value + "\n" + end.value + "\n"
  {
    if header.Failure? then Failure(header.error)
    else if commands.Failure? then Failure(commands.error)
    else if symbols.Failure? then Failure(symbols.error)
    else if end.Failure? then Failure(end.error)
    else Success(ProgramText(header.value, commands.value, symbols.value, end.value))
  }

  /** An object program's outline: it opens with the header's "H^" and ends with a new line. */
  predicate Framed(text: string) {
    |text| >= 2 && text[..2] == "H^" && text[|text| - 1] == '\n'
  }

  /** The records one after the other, with a blank line before the end record. */
  function ProgramText(header: string, commands: string, symbols: string, end: string): (r: string)
    requires |header| >= 2 && header[..2] == "H^"
    ensures Framed(r)
  {
    var text := header + commands + symbols + "\n" + end + "\n";
    assert text[..2] == header[..2];
    text
  }

  /** START and END lines are in neither group, so they never reach a text record. */
  lemma ControlLinesNotEmitted(x: Instruction)
    requires IsBeginEnd(x.mnemonic.name)
    ensures !InCommandGroup(x) && !InSymbolGroup(x)
  {
    SymbolNames(x.mnemonic.name);
  }

  /** With the table's opcodes, every line other than START and END is a
      command line and the declaration group is empty. */
  lemma TableOpCodesAreCommands(ordered: seq<Instruction>)
    requires forall x :: x in ordered ==> IsStandardOpCode(x.mnemonic.opCode)
    ensures Keep(ordered, InSymbolGroup) == []
    ensures Keep(ordered, InCommandGroup) == Keep(ordered, IsProgramLine)
  {
    forall x | x in ordered
      ensures !InSymbolGroup(x) && InCommandGroup(x) == IsProgramLine(x)
    {
      StandardLineGroups(x);
    }
    KeepSame(ordered, InCommandGroup, IsProgramLine);
    KeepNone(ordered, InSymbolGroup);
  }

  lemma StandardLineGroups(x: Instruction)
    requires IsStandardOpCode(x.mnemonic.opCode)
    ensures !InSymbolGroup(x) && InCommandGroup(x) == IsProgramLine(x)
  {
    if IsBeginEnd(x.mnemonic.name) {
      ControlLinesNotEmitted(x);
    }
  }

  /** Lines already in line order with the table's opcodes: the object
      program is the header, the text records of every line other than
      START and END, a blank line and the end record. */
  lemma CompileInOrder(lines: seq<Instruction>)
    requires SortedByLine(lines)
    requires forall x :: x in lines ==> IsStandardOpCode(x.mnemonic.opCode)
    requires CompileObjectProgram(lines).Success?
    ensures |lines| > 0
    ensures BuildHeaderRecord(HeaderStart(lines), HeaderEnd(lines)).Success?
    ensures BuildTextRecord(Keep(lines, IsProgramLine)).Success?
    ensures BuildEndRecord(lines).Success?
    ensures CompileObjectProgram(lines).value
            == BuildHeaderRecord(HeaderStart(lines), HeaderEnd(lines)).value
               + BuildTextRecord(Keep(lines, IsProgramLine)).value
               + "\n" + BuildEndRecord(lines).value + "\n"
  {
    CompileSorted(lines);
    TableOpCodesAreCommands(lines);
    RecordsWithoutDeclarations(lines);
  }

  /** Lines already in line order are compiled as they stand. */
  lemma CompileSorted(lines: seq<Instruction>)
    requires SortedByLine(lines) && CompileObjectProgram(lines).Success?
    ensures |lines| > 0 && CompileObjectProgram(lines) == ProgramRecords(lines)
  {
    OrderByLineSorted(lines);
  }

  /** An empty declaration group adds nothing between the command records
      and the blank line. */
  lemma RecordsWithoutDeclarations(ordered: seq<Instruction>)
    requires |ordered| > 0 && ProgramRecords(ordered).Success?
    requires Keep(ordered, InSymbolGroup) == []
    requires Keep(ordered, InCommandGroup) == Keep(ordered, IsProgramLine)
    ensures BuildHeaderRecord(HeaderStart(ordered), HeaderEnd(ordered)).Success?
    ensures BuildTextRecord(Keep(ordered, IsProgramLine)).Success?
    ensures BuildEndRecord(ordered).Success?
    ensures ProgramRecords(ordered).value
            == BuildHeaderRecord(HeaderStart(ordered), HeaderEnd(ordered)).value
               + BuildTextRecord(Keep(ordered, IsProgramLine)).value
               + "\n" + BuildEndRecord(ordered).value + "\n"
  {
    NoDeclarationRecords(ordered);
    WithoutDeclarationText(ProgramRecords(ordered).value,
                           BuildHeaderRecord(HeaderStart(ordered), HeaderEnd(ordered)).value,
                           BuildTextRecord(Keep(ordered, InCommandGroup)).value,
                           BuildTextRecord(Keep(ordered, InSymbolGroup)).value,
                           BuildEndRecord(ordered).value);
  }

  lemma WithoutDeclarationText(text: string, header: string, commands: string, symbols: string, end: string)
    requires symbols == "" && text == header + commands + symbols + "\n" + end + "\n"
    ensures text == header + commands + "\n" + end + "\n"
  {
    assert header + commands + symbols == header + commands;
  }

  /** An empty declaration group yields no text records. */
  lemma NoDeclarationRecords(ordered: seq<Instruction>)
    requires Keep(ordered, InSymbolGroup) == []
    ensures BuildTextRecord(Keep(ordered, InSymbolGroup)) == Success("")
  {
    assert Keep(Keep(ordered, InSymbolGroup), HasCode) == [];
  }

  lemma {:induction false} KeepNone(s: seq<Instruction>, p: Instruction -> bool)
    requires forall x :: x in s ==> !p(x)
    ensures Keep(s, p) == []
    decreases |s|
  {
    if |s| > 0 {
      assert s[0] in s;
      assert forall x :: x in s[1..] ==> x in s;
      KeepNone(s[1..], p);
    }
  }

  lemma {:induction false} KeepSame(s: seq<Instruction>, p: Instruction -> bool, q: Instruction -> bool)
    requires forall x :: x in s ==> p(x) == q(x)
    ensures Keep(s, p) == Keep(s, q)
    decreases |s|
  {
    if |s| > 0 {
      assert s[0] in s;
      assert forall x :: x in s[1..] ==> x in s;
      KeepSame(s[1..], p, q);
    }
  }
}

=== FILE: Parser.dfy ===
/** Reading one source line: `ParseInstructions` and `GetMnemonic`
    (SICCSharp/Extensions/CompileHelper.cs:343-398). */
module Parser {
  import opened Wrappers
  import opened Errors
  import opened Entities
  import opened MnemonicList
  import opened Text

  /** The characters a line is split on: tab and space. */
  const Delimiters: seq<char> := ['\t', ' ']

  // ---------------------------------------------------------------------------
  // Mnemonic lookup

  /** `table.Where(x => x.Name == name)`, in table order. */
  function Named(table: seq<Mnemonic>, name: string): (r: seq<Mnemonic>)
    ensures forall m :: m in r <==> m in table && m.name == name
    decreases |table|
  {
    if |table| == 0 then []
    else (if table[0].name == name then [table[0]] else []) + Named(table[1..], name)
  }

  /** `table.SingleOrDefault(x => x.Name == name)`: the one row with the name,
      null when there is none, an exception when there are several. */
  function SingleOrDefault(table: seq<Mnemonic>, name: string): (r: Result<Option<Mnemonic>, Error>)
    ensures r == Success(None) <==> forall i :: 0 <= i < |table| ==> table[i].name != name
    ensures r.Success? && r.value.Some? ==> r.value.value in table && r.value.value.name == name
  {
    var matches := Named(table, name);
    if |matches| == 0 then
      assert forall i :: 0 <= i < |table| ==> table[i] !in matches;
      Success(None)
    else
      assert matches[0] in matches;
      if |matches| == 1 then Success(Some(matches[0])) else Failure(MoreThanOneMatch(name))
  }

  predicate DistinctNames(table: seq<Mnemonic>) {
    forall i, j :: 0 <= i < j < |table| ==> table[i].name != table[j].name
  }

  /** In a table without repeated names, the row with the name is the only match. */
  lemma {:induction false} NamedUnique(table: seq<Mnemonic>, name: string, i: nat)
    requires DistinctNames(table) && i < |table| && table[i].name == name
    ensures Named(table, name) == [table[i]]
    decreases |table|
  {
    var tail := table[1..];
    if i == 0 {
      assert forall j :: 0 <= j < |tail| ==> tail[j].name != name by {
        forall j | 0 <= j < |tail| ensures tail[j].name != name {
          assert tail[j] == table[j + 1];
        }
      }
      NamedAbsent(tail, name);
    } else {
      assert table[0].name != name by {
        assert table[0].name != table[i].name;
      }
      assert DistinctNames(tail) by {
        forall a, b | 0 <= a < b < |tail| ensures tail[a].name != tail[b].name {
          assert tail[a] == table[a + 1] && tail[b] == table[b + 1];
        }
      }
      NamedUnique(tail, name, i - 1);
    }
  }

  lemma {:induction false} NamedAbsent(table: seq<Mnemonic>, name: string)
    requires forall j :: 0 <= j < |table| ==> table[j].name != name
    ensures Named(table, name) == []
    decreases |table|
  {
    if |table| > 0 {
      NamedAbsent(table[1..], name);
    }
  }

  /** A table without repeated names never makes `SingleOrDefault` throw, and
      finds the row that carries the name. */
  lemma SingleOrDefaultUnique(table: seq<Mnemonic>, name: string, i: nat)
    requires DistinctNames(table) && i < |table| && table[i].name == name
    ensures SingleOrDefault(table, name) == Success(Some(table[i]))
  {
    NamedUnique(table, name, i);
  }

  lemma SymbolNamesDistinct()
    ensures DistinctNames(SymbolInstructions)
  {
  }

  /** `GetMnemonic(name)`: the standard row with the name, else the declaration
      row, else a name-only mnemonic carrying the default opcode. Neither table
      repeats a name, so the lookup never throws. */
  function GetMnemonic(name: string): (r: Result<Mnemonic, Error>)
    ensures r.Success? && r.value.name == name
  {
    LookupNeverThrows(name);
    match SingleOrDefault(StandardInstructions, name)
    case Failure(e) => Failure(e)
    case Success(Some(m)) => Success(m)
    case Success(None) =>
      match SingleOrDefault(SymbolInstructions, name)
      case Failure(e) => Failure(e)
      case Success(Some(m)) => Success(m)
      case Success(None) => Success(NameOnly(name))
  }

  lemma LookupNeverThrows(name: string)
    ensures SingleOrDefault(StandardInstructions, name).Success?
    ensures SingleOrDefault(SymbolInstructions, name).Success?
  {
    StandardLookupNeverThrows(name);
    SymbolLookupNeverThrows(name);
  }

  lemma StandardLookupNeverThrows(name: string)
    ensures SingleOrDefault(StandardInstructions, name).Success?
  {
    StandardNamesDistinct();
    if StandardIndex(name) >= 0 {
      IndexNameInverse(name);
      SingleOrDefaultUnique(StandardInstructions, name, StandardIndex(name));
    } else {
      NotIndexedNotStandard(name);
    }
  }

  lemma SymbolLookupNeverThrows(name: string)
    ensures SingleOrDefault(SymbolInstructions, name).Success?
  {
    SymbolNames(name);
    if name == "RESW" {
      SingleOrDefaultUnique(SymbolInstructions, name, 0);
    } else if name == "RESB" {
      SingleOrDefaultUnique(SymbolInstructions, name, 1);
    } else if name == "WORD" {
      SingleOrDefaultUnique(SymbolInstructions, name, 2);
    }
  }


  /** A standard name looks up its own table row. */
  lemma GetMnemonicStandard(i: nat)
    requires i < |StandardInstructions|
    ensures GetMnemonic(StandardInstructions[i].name) == Success(StandardInstructions[i])
  {
    StandardNamesDistinct();
    SingleOrDefaultUnique(StandardInstructions, StandardInstructions[i].name, i);
  }

  /** Any other name, declarations included, gets the default opcode. */
  lemma GetMnemonicOther(name: string)
    requires forall i :: 0 <= i < |StandardInstructions| ==> StandardInstructions[i].name != name
    ensures GetMnemonic(name) == Success(NameOnly(name))
  {
    LookupNeverThrows(name);
  }

  /** Every looked-up mnemonic carries an opcode of the standard table: the
      default opcode "00" is LDA's. */
  lemma GetMnemonicOpCodeIsStandard(name: string)
    ensures IsStandardOpCode(GetMnemonic(name).value.opCode)
  {
    LdaHasDefaultOpCode();
    if StandardIndex(name) >= 0 {
      IndexNameInverse(name);
      GetMnemonicStandard(StandardIndex(name));
    } else {
      NotIndexedNotStandard(name);
      GetMnemonicOther(name);
    }
  }

  /** RSUB looks up its table opcode. */
  lemma GetMnemonicRsub(name: string)
    requires name == "RSUB"
    ensures GetMnemonic(name) == Success(Mnemonic("RSUB", "4C"))
  {
    StandardAt(35);
    assert StandardInstructions[35] == Mnemonic("RSUB", "4C");
    GetMnemonicStandard(35);
  }

  /** LDX looks up its table opcode. */
  lemma GetMnemonicLdx(name: string)
    requires name == "LDX"
    ensures GetMnemonic(name) == Success(Mnemonic("LDX", "04"))
  {
    StandardAt(26);
    assert StandardInstructions[26] == Mnemonic("LDX", "04");
    GetMnemonicStandard(26);
  }

  /** STCH looks up its table opcode. */
  lemma GetMnemonicStch(name: string)
    requires name == "STCH"
    ensures GetMnemonic(name) == Success(Mnemonic("STCH", "54"))
  {
    StandardAt(42);
    assert StandardInstructions[42] == Mnemonic("STCH", "54");
    GetMnemonicStandard(42);
  }

  /** J looks up its table opcode. */
  lemma GetMnemonicJ(name: string)
    requires name == "J"
    ensures GetMnemonic(name) == Success(Mnemonic("J", "3C"))
  {
    StandardAt(14);
    assert StandardInstructions[14] == Mnemonic("J", "3C");
    GetMnemonicStandard(14);
  }

  /** A declaration gets the default opcode. */
  lemma GetMnemonicResw(name: string)
    requires name == "RESW"
    ensures GetMnemonic(name) == Success(Mnemonic("RESW", "00"))
  {
    ReservedIndexes();
    NotIndexedNotStandard(name);
    GetMnemonicOther(name);
  }

  // ---------------------------------------------------------------------------
  // Tokens

  /** The non-blank pieces, in order. */
  function NonBlank(parts: seq<string>): (r: seq<string>)
    ensures forall i :: 0 <= i < |r| ==> !IsBlank(r[i]) && r[i] in parts
    decreases |parts|
  {
    if |parts| == 0 then []
    else (if IsBlank(parts[0]) then [] else [parts[0]]) + NonBlank(parts[1..])
  }

  function TrimAll(parts: seq<string>): (r: seq<string>)
    ensures |r| == |parts| && forall i :: 0 <= i < |r| ==> r[i] == Trim(parts[i])
  {
    seq(|parts|, i requires 0 <= i < |parts| => Trim(parts[i]))
  }

  /** The entries of a line: split on tab and space, blank pieces dropped,
      each remaining piece trimmed. */
  function Tokens(line: string): (r: seq<string>)
    ensures forall i :: 0 <= i < |r| ==> IsToken(r[i])
  {
    var pieces := NonBlank(Split(line, Delimiters));
    forall i | 0 <= i < |pieces| ensures IsToken(Trim(pieces[i])) {
      TrimmedPieceIsToken(pieces[i]);
    }
    TrimAll(pieces)
  }

  /** What a token looks like: non-empty, free of the delimiters, and with no
      white space at either end. */
  predicate IsToken(t: string) {
    && |t| > 0
    && NoneOf(t, Delimiters)
    && !IsWhiteSpace(t[0]) && !IsWhiteSpace(t[|t| - 1])
  }

  lemma TrimmedPieceIsToken(p: string)
    requires !IsBlank(p) && NoneOf(p, Delimiters)
    ensures IsToken(Trim(p))
  {
    BlankIffTrimsEmpty(p);
    var a, b := TrimIsSlice(p);
    assert forall i :: 0 <= i < b - a ==> Trim(p)[i] == p[a + i];
  }

  lemma {:induction false} NonBlankKeepsTokens(parts: seq<string>)
    requires forall i :: 0 <= i < |parts| ==> IsToken(parts[i])
    ensures NonBlank(parts) == parts
    decreases |parts|
  {
    if |parts| > 0 {
      var head, tail := parts[0], parts[1..];
      assert IsToken(head);
      TokenNotBlank(head);
      assert forall i :: 0 <= i < |tail| ==> IsToken(tail[i]) by {
        forall i | 0 <= i < |tail| ensures IsToken(tail[i]) {
          assert tail[i] == parts[i + 1];
        }
      }
      NonBlankKeepsTokens(tail);
      assert NonBlank(parts) == [head] + NonBlank(tail);
      assert parts == [head] + tail;
    }
  }

  lemma TokenNotBlank(t: string)
    requires IsToken(t)
    ensures !IsBlank(t)
  {
    assert !IsWhiteSpace(t[0]);
  }

  /** The tokens of a line written as its tokens separated by single spaces
      are those tokens. */
  lemma TokenTrimsToItself(t: string)
    requires IsToken(t)
    ensures Trim(t) == t
  {
    TrimUntrimmed(t);
  }

  lemma TokensOfJoin(ts: seq<string>)
    requires |ts| >= 1 && forall i :: 0 <= i < |ts| ==> IsToken(ts[i])
    ensures Tokens(Join(ts, ' ')) == ts
  {
    PiecesOfJoin(ts);
    TrimAllTokens(ts);
  }

  lemma PiecesOfJoin(ts: seq<string>)
    requires |ts| >= 1 && forall i :: 0 <= i < |ts| ==> IsToken(ts[i])
    ensures NonBlank(Split(Join(ts, ' '), Delimiters)) == ts
  {
    SplitJoin(ts, ' ', Delimiters);
    NonBlankKeepsTokens(ts);
  }

  lemma TrimAllTokens(ts: seq<string>)
    requires forall i :: 0 <= i < |ts| ==> IsToken(ts[i])
    ensures TrimAll(ts) == ts
  {
    forall i | 0 <= i < |ts| ensures Trim(ts[i]) == ts[i] {
      TokenTrimsToItself(ts[i]);
    }
  }

  /** The tokens of a line written as its tokens separated by single tabs
      are those tokens. */
  lemma TokensOfTabJoin(ts: seq<string>)
    requires |ts| >= 1 && forall i :: 0 <= i < |ts| ==> IsToken(ts[i])
    ensures Tokens(Join(ts, '\t')) == ts
  {
    SplitJoin(ts, '\t', Delimiters);
    NonBlankKeepsTokens(ts);
    TrimAllTokens(ts);
  }

  /** Dropping blank pieces works piece by piece. */
  lemma {:induction false} NonBlankAppend(a: seq<string>, b: seq<string>)
    ensures NonBlank(a + b) == NonBlank(a) + NonBlank(b)
    decreases |a|
  {
    if |a| == 0 {
      assert a + b == b;
    } else {
      assert (a + b)[0] == a[0];
      assert (a + b)[1..] == a[1..] + b;
      NonBlankAppend(a[1..], b);
    }
  }

  /** A run of tabs and spaces, possibly empty. */
  predicate IsSpacing(g: string) {
    forall i :: 0 <= i < |g| ==> g[i] in Delimiters
  }

  /** Each token followed by its own run of tabs and spaces: the runs
      between two tokens are non-empty, the one after the last may be empty. */
  predicate IsLayout(ts: seq<string>, gaps: seq<string>) {
    && |gaps| == |ts|
    && (forall i :: 0 <= i < |ts| ==> IsToken(ts[i]))
    && (forall i :: 0 <= i < |gaps| ==> IsSpacing(gaps[i]))
    && (forall i :: 0 <= i < |gaps| - 1 ==> |gaps[i]| > 0)
  }

  /** The text of a layout: each token, then its run. */
  function Spaced(ts: seq<string>, gaps: seq<string>): (r: string)
    requires |gaps| == |ts|
    ensures |ts| == 0 ==> r == ""
    ensures |ts| > 0 ==> r == ts[0] + gaps[0] + Spaced(ts[1..], gaps[1..])
    decreases |ts|
  {
    if |ts| == 0 then "" else ts[0] + gaps[0] + Spaced(ts[1..], gaps[1..])
  }

  /** A line made of any run of tabs and spaces, then tokens each followed by
      such a run, non-empty between tokens, holds exactly those tokens. */
  lemma TokensOfSpaced(lead: string, ts: seq<string>, gaps: seq<string>)
    requires IsSpacing(lead) && IsLayout(ts, gaps)
    ensures Tokens(lead + Spaced(ts, gaps)) == ts
  {
    SpacingSplitsBlank(lead, Spaced(ts, gaps));
    PiecesOfSpaced(ts, gaps);
    TrimAllTokens(ts);
  }

  /** A run of tabs and spaces in front adds only blank pieces. */
  lemma {:induction false} SpacingSplitsBlank(g: string, rest: string)
    requires IsSpacing(g)
    ensures NonBlank(Split(g + rest, Delimiters)) == NonBlank(Split(rest, Delimiters))
    decreases |g|
  {
    if |g| == 0 {
      assert g + rest == rest;
    } else {
      var tail := g[1..];
      assert g + rest == "" + [g[0]] + (tail + rest);
      SplitCons("", g[0], tail + rest, Delimiters);
      assert NonBlank([""] + Split(tail + rest, Delimiters)) == NonBlank(Split(tail + rest, Delimiters)) by {
        NonBlankAppend([""], Split(tail + rest, Delimiters));
        assert NonBlank([""]) == [];
      }
      SpacingSplitsBlank(tail, rest);
    }
  }

  lemma {:induction false} PiecesOfSpaced(ts: seq<string>, gaps: seq<string>)
    requires IsLayout(ts, gaps)
    ensures NonBlank(Split(Spaced(ts, gaps), Delimiters)) == ts
    decreases |ts|
  {
    if |ts| == 0 {
      assert Split("", Delimiters) == [""];
    } else {
      LayoutTail(ts, gaps);
      if |gaps[0]| == 0 {
        PiecesOfLast(ts, gaps);
      } else {
        PiecesOfSpaced(ts[1..], gaps[1..]);
        PiecesOfNext(ts, gaps);
      }
    }
  }

  lemma PiecesOfLast(ts: seq<string>, gaps: seq<string>)
    requires |ts| == 1 && |gaps| == 1 && IsToken(ts[0]) && gaps[0] == ""
    ensures NonBlank(Split(Spaced(ts, gaps), Delimiters)) == ts
  {
    assert Spaced(ts, gaps) == ts[0] by {
      assert ts[0] + gaps[0] + "" == ts[0];
    }
    PiecesOfToken(ts[0]);
    assert ts == [ts[0]];
  }

  lemma PiecesOfNext(ts: seq<string>, gaps: seq<string>)
    requires |ts| == |gaps| > 0 && IsToken(ts[0]) && IsSpacing(gaps[0]) && |gaps[0]| > 0
    requires NonBlank(Split(Spaced(ts[1..], gaps[1..]), Delimiters)) == ts[1..]
    ensures NonBlank(Split(Spaced(ts, gaps), Delimiters)) == ts
  {
    PiecesAfterToken(ts[0], gaps[0], Spaced(ts[1..], gaps[1..]));
    PiecesCons(NonBlank(Split(Spaced(ts, gaps), Delimiters)), ts);
  }

  lemma PiecesCons(pieces: seq<string>, ts: seq<string>)
    requires |ts| > 0 && pieces == [ts[0]] + ts[1..]
    ensures pieces == ts
  {
  }

  lemma LayoutTail(ts: seq<string>, gaps: seq<string>)
    requires IsLayout(ts, gaps) && |ts| > 0
    ensures IsLayout(ts[1..], gaps[1..])
    ensures IsToken(ts[0]) && IsSpacing(gaps[0])
    ensures |gaps[0]| == 0 ==> |ts| == 1
  {
    assert forall i :: 0 <= i < |ts| - 1 ==> ts[1..][i] == ts[i + 1] && gaps[1..][i] == gaps[i + 1];
  }

  /** A token alone is one piece. */
  lemma PiecesOfToken(t: string)
    requires IsToken(t)
    ensures NonBlank(Split(t, Delimiters)) == [t]
  {
    SplitNone(t, Delimiters);
    TokenNotBlank(t);
    assert NonBlank([t]) == [t] + NonBlank([]);
  }

  /** A token, then a non-empty run of tabs and spaces: the token is the
      first piece and the run adds nothing. */
  lemma PiecesAfterToken(t: string, g: string, rest: string)
    requires IsToken(t) && IsSpacing(g) && |g| > 0
    ensures NonBlank(Split(t + g + rest, Delimiters)) == [t] + NonBlank(Split(rest, Delimiters))
  {
    assert t + g + rest == t + [g[0]] + (g[1..] + rest);
    SplitCons(t, g[0], g[1..] + rest, Delimiters);
    NonBlankAppend([t], Split(g[1..] + rest, Delimiters));
    PiecesOfToken(t);
    SplitNone(t, Delimiters);
    SpacingSplitsBlank(g[1..], rest);
  }

  /** Tokens hold only characters of their line. */
  lemma TokensNoneOf(line: string, cs: seq<char>)
    requires NoneOf(line, cs)
    ensures forall i :: 0 <= i < |Tokens(line)| ==> NoneOf(Tokens(line)[i], cs)
  {
    var parts := Split(line, Delimiters);
    SplitNoneOf(line, Delimiters, cs);
    var pieces := NonBlank(parts);
    forall i | 0 <= i < |pieces| ensures NoneOf(Trim(pieces[i]), cs) {
      var j :| 0 <= j < |parts| && parts[j] == pieces[i];
      TrimNoneOf(pieces[i], cs);
    }
  }

  /** On a line without line breaks every token fits in a listing cell. */
  lemma TokensAreCells(line: string)
    requires NoneOf(line, ['\n'])
    ensures forall i :: 0 <= i < |Tokens(line)| ==> IsCell(Tokens(line)[i])
  {
    var ts := Tokens(line);
    TokensNoneOf(line, ['\n']);
    forall i | 0 <= i < |ts| ensures IsCell(ts[i]) {
      assert IsToken(ts[i]) && NoneOf(ts[i], ['\n']);
    }
  }

  // ---------------------------------------------------------------------------
  // Instructions

  /** The instruction a line's entries describe, before the passes fill in its
      line number, address and object code. A START line's address is its
      operand. */
  function MakeInstruction(labelText: Option<string>, name: string, parameter: Option<string>): (r: Instruction)
    ensures r.lineCount == 0 && r.opCode == None
    ensures r.labelText == labelText && r.parameter == parameter
    ensures r.mnemonic == GetMnemonic(name).value && r.mnemonic.name == name
    ensures r.memoryLocation == if name == "START" then parameter else None
  {
    var m := GetMnemonic(name).value;
    var inst := Instruction(0, None, labelText, m, parameter, None);
    if m.name == StartInstruction.name then inst.(memoryLocation := parameter) else inst
  }

  /** `ParseInstructions(line)`: one entry is a bare mnemonic, two are a
      mnemonic and its operand, three are label, mnemonic and operand; any
      other count is rejected. */
  function ParseInstruction(line: string): (r: Result<Instruction, Error>)
    ensures r.Failure? <==> |Tokens(line)| !in {1, 2, 3}
    ensures r.Failure? ==> r.error == InstructionCountMismatch(line)
    ensures r.Success? ==> var ts := Tokens(line);
                           && r.value.lineCount == 0 && r.value.opCode == None
                           && r.value.mnemonic == GetMnemonic(ts[if |ts| == 3 then 1 else 0]).value
                           && r.value.labelText == (if |ts| == 3 then Some(ts[0]) else None)
                           && r.value.parameter == (if |ts| == 1 then None else Some(ts[|ts| - 1]))
                           && r.value.memoryLocation ==
                              (if r.value.mnemonic.name == "START" then r.value.parameter else None)
                           && r.value.mnemonic.name == ts[if |ts| == 3 then 1 else 0]
  {
    var ts := Tokens(line);
    if |ts| !in {1, 2, 3} then Failure(InstructionCountMismatch(line))
    else
      var labelText := if |ts| == 3 then Some(ts[0]) else None;
      var name := ts[if |ts| == 3 then 1 else 0];
      var parameter := if |ts| == 1 then None else Some(ts[|ts| - 1]);
      Success(MakeInstruction(labelText, name, parameter))
  }

  /** A line without line breaks parses into a line whose label, mnemonic
      name and operand fit in listing cells and whose opcode is a table
      opcode. */
  lemma ParsedCells(line: string)
    requires NoneOf(line, ['\n']) && ParseInstruction(line).Success?
    ensures var x := ParseInstruction(line).value;
            && (x.labelText.Some? ==> IsCell(x.labelText.value))
            && IsCell(x.mnemonic.name)
            && (x.parameter.Some? ==> IsCell(x.parameter.value))
            && IsStandardOpCode(x.mnemonic.opCode)
            && x.opCode == None
  {
    var ts := Tokens(line);
    TokensAreCells(line);
    GetMnemonicOpCodeIsStandard(ts[if |ts| == 3 then 1 else 0]);
  }

  /** A line written as `label mnemonic operand` parses back into those parts. */
  lemma ParseWrittenLine(labelText: string, name: string, parameter: string)
    requires IsToken(labelText) && IsToken(name) && IsToken(parameter)
    ensures var r := ParseInstruction(Join([labelText, name, parameter], ' '));
            && r.Success?
            && r.value.labelText == Some(labelText)
            && r.value.mnemonic.name == name
            && r.value.parameter == Some(parameter)
  {
    TokensOfJoin([labelText, name, parameter]);
  }

  /** A line written as `mnemonic operand` parses back into those parts. */
  lemma ParseWrittenUnlabelledLine(name: string, parameter: string)
    requires IsToken(name) && IsToken(parameter)
    ensures var r := ParseInstruction(Join([name, parameter], ' '));
            && r.Success?
            && r.value.labelText == None
            && r.value.mnemonic.name == name
            && r.value.parameter == Some(parameter)
  {
    TokensOfJoin([name, parameter]);
  }

  /** A blank line has no entries and is rejected. */
  lemma BlankLineRejected(line: string)
    requires IsBlank(line)
    ensures ParseInstruction(line) == Failure(InstructionCountMismatch(line))
  {
    var pieces := Split(line, Delimiters);
    if |NonBlank(pieces)| > 0 {
      var p := NonBlank(pieces)[0];
      assert p in pieces;
      var k :| 0 <= k < |pieces| && pieces[k] == p;
      SplitPiecesBlank(line, k);
    }
  }

  /** Every piece of a blank line is blank. */
  lemma {:induction false} SplitPiecesBlank(line: string, k: nat)
    requires IsBlank(line) && k < |Split(line, Delimiters)|
    ensures IsBlank(Split(line, Delimiters)[k])
    decreases |line|
  {
    var i := IndexOfAny(line, Delimiters);
    if i < |line| && k > 0 {
      var tail := line[i + 1..];
      assert Split(line, Delimiters)[k] == Split(tail, Delimiters)[k - 1];
      SplitPiecesBlank(tail, k - 1);
    }
  }
}

=== FILE: SecondPass.dfy ===
/** The symbol table and the second pass of the assembler
    (SICCSharp/Extensions/CompileHelper.cs:87-147 and 317-319). Every line
    that is not START or END gets its object code from its operand: an
    indexed operand (`X,...`) is looked up among the declaration lines and
    its address gets the index bit, a WORD operand is its own constant, and
    any other operand is looked up among all labels. Only `OpCode` is ever
    written, so resolving against the list as it is being updated is the same
    as resolving against the first pass's output, which is how it is modelled. */
module SecondPass {
  import opened Wrappers
  import opened Errors
  import opened Numerals
  import opened NumberFormat
  import opened Entities
  import opened MnemonicList
  import opened MathHelper
  import opened Text

  // ---------------------------------------------------------------------------
  // Symbol table and label lookup

  /** `GetSymbolInstructions`: the RESW, RESB and WORD lines, in their order. */
  function SymbolTable(insts: seq<Instruction>): (r: seq<Instruction>)
    ensures |r| <= |insts|
    ensures forall x :: x in r <==> x in insts && IsSymbolName(x.mnemonic.name)
    decreases |insts|
  {
    if |insts| == 0 then []
    else
      var rest := SymbolTable(insts[1..]);
      assert forall x :: x in insts <==> x == insts[0] || x in insts[1..];
      if IsSymbolName(insts[0].mnemonic.name) then [insts[0]] + rest else rest
  }

  /** `FirstOrDefault(x => x.Label == name)`: the position of the first line
      whose label is `name`. A line without a label matches no name. */
  function FindLabel(insts: seq<Instruction>, name: string): (r: Option<nat>)
    ensures r.Some? ==> r.value < |insts| && insts[r.value].labelText == Some(name)
    ensures r.Some? ==> forall j :: 0 <= j < r.value ==> insts[j].labelText != Some(name)
    ensures r.None? <==> forall j :: 0 <= j < |insts| ==> insts[j].labelText != Some(name)
    decreases |insts|
  {
    if |insts| == 0 then None
    else if insts[0].labelText == Some(name) then Some(0)
    else
      match FindLabel(insts[1..], name)
      case None => None
      case Some(k) => Some(k + 1)
  }

  /** The first labelled line is unique, so any position with that property is
      the one `FindLabel` returns. */
  lemma FindLabelFirst(insts: seq<Instruction>, name: string, k: nat)
    requires k < |insts| && insts[k].labelText == Some(name)
    requires forall j :: 0 <= j < k ==> insts[j].labelText != Some(name)
    ensures FindLabel(insts, name) == Some(k)
  {
  }

  /** Looking a label up in the symbol table finds the first declaration line
      of the whole list that carries it. */
  lemma {:induction false} FindSymbol(insts: seq<Instruction>, name: string, k: nat)
    requires k < |insts| && IsSymbolName(insts[k].mnemonic.name) && insts[k].labelText == Some(name)
    requires forall j :: 0 <= j < k ==> !(IsSymbolName(insts[j].mnemonic.name) && insts[j].labelText == Some(name))
    ensures FindLabel(SymbolTable(insts), name).Some?
    ensures SymbolTable(insts)[FindLabel(SymbolTable(insts), name).value] == insts[k]
    decreases |insts|
  {
    var table := SymbolTable(insts);
    if k == 0 {
      assert table == [insts[0]] + SymbolTable(insts[1..]);
      FindLabelFirst(table, name, 0);
    } else {
      var tail := insts[1..];
      FindSymbol(tail, name, k - 1);
      var rest := SymbolTable(tail);
      if IsSymbolName(insts[0].mnemonic.name) {
        assert table == [insts[0]] + rest;
        FindLabelCons(insts[0], rest, name);
      } else {
        assert table == rest;
      }
    }
  }

  /** A line without the label in front of a list shifts the lookup by one. */
  lemma FindLabelCons(x: Instruction, rest: seq<Instruction>, name: string)
    requires x.labelText != Some(name)
    ensures FindLabel([x] + rest, name) == match FindLabel(rest, name)
                                           case None => None
                                           case Some(k) => Some(k + 1)
  {
    assert ([x] + rest)[1..] == rest;
  }

  /** When no declaration line carries the label, the symbol table lookup misses. */
  lemma FindSymbolMiss(insts: seq<Instruction>, name: string)
    requires forall j :: 0 <= j < |insts| ==> !(IsSymbolName(insts[j].mnemonic.name) && insts[j].labelText == Some(name))
    ensures FindLabel(SymbolTable(insts), name).None?
  {
    var table := SymbolTable(insts);
    forall i | 0 <= i < |table| ensures table[i].labelText != Some(name) {
      assert table[i] in table;
    }
  }

  // ---------------------------------------------------------------------------
  // Indexed addressing

  /** The value of the index bit for an address of `digits` hexadecimal
      digits: the first of its `4·digits` binary digits. */
  function IndexBit(digits: nat): (r: nat)
    requires digits >= 1
    ensures r >= 1
  {
    PowPositive(2, 4 * digits - 1);
    Pow(2, 4 * digits - 1)
  }

  /** The indexed-mode target (CompileHelper.cs:114-118): the declaration's
      address spelled in binary, its first bit forced to 1, read back with
      `Convert.ToInt32(_, 2)` and written with `ToString("X")`. A missing
      address, a non-hexadecimal one, an empty one and one of more than 32
      bits each throw. The result is the address with its top bit set, as
      wide as the address. */
  function IndexedAddress(location: Option<string>): (r: Result<string, Error>)
    ensures r.Success? <==> location.Some? && AllDigits(location.value, 16) && 1 <= |location.value| <= 8
    ensures location.None? ==> r == Failure(NullValue)
    ensures location.Some? && !AllDigits(location.value, 16) ==> r == Failure(HexFormat(location.value))
    ensures location == Some("") ==> r == Failure(BitIndexOutOfRange)
    ensures location.Some? && AllDigits(location.value, 16) && |location.value| > 8 ==> r.Failure? && r.error.BinaryOverflow?
    ensures r.Success? ==> && IsCanonical(r.value, 16) && IsHex32(r.value)
                           && |r.value| == |location.value|
                           && var top := IndexBit(|location.value|);
                              ValueIn(r.value, 16) == top + ValueIn(location.value, 16) % top
  {
    match location
    case None => Failure(NullValue)
    case Some(s) =>
      var bits :- CalculateOpCodeBitArray(s);
      if |bits| == 0 then Failure(BitIndexOutOfRange)
      else
        var forced := ['1'] + bits[1..];
        ForcedValue(bits);
        var v := ValueIn(forced, 2);
        assert IndexBit(|s|) <= v < Pow(16, |s|) && v == IndexBit(|s|) + ValueIn(s, 16) % IndexBit(|s|) by {
          PowTwoFour(|s|);
        }
        FitsIffEightDigits(s, v);
        if v >= TwoTo32 then Failure(BinaryOverflow(forced))
        else
          ExactWidth(s, v);
          Success(FormatHex(Wrap32(v)))
  }

  /** Forcing the first binary digit to 1 adds the top bit and keeps the rest. */
  lemma ForcedValue(bits: string)
    requires AllDigits(bits, 2) && |bits| >= 1
    ensures AllDigits(['1'] + bits[1..], 2)
    ensures var top := Pow(2, |bits| - 1);
            && top >= 1
            && ValueIn(['1'] + bits[1..], 2) == top + ValueIn(bits, 2) % top
            && ValueIn(['1'] + bits[1..], 2) < Pow(2, |bits|)
  {
    var forced := ['1'] + bits[1..];
    assert forced[1..] == bits[1..];
    ValueInFront(bits, 2);
    ValueInFront(forced, 2);
    ValueInBound(bits[1..], 2);
    PowPositive(2, |bits| - 1);
    FrontDigitSet(ValueIn(bits, 2), ValueIn(forced, 2), DigitValue(bits[0]), Pow(2, |bits| - 1), ValueIn(bits[1..], 2));
  }

  /** The arithmetic of `ForcedValue`: replacing a leading digit by 1. */
  lemma FrontDigitSet(before: nat, after: nat, d: nat, top: nat, low: nat)
    requires top >= 1 && low < top
    requires before == d * top + low && after == 1 * top + low
    ensures after == top + before % top && after < 2 * top
  {
    DivModStep(d, low, top);
  }

  /** A value between the index bit and 16^|s| fits in 32 bits exactly when
      the address has at most eight digits. */
  lemma FitsIffEightDigits(s: string, v: nat)
    requires |s| >= 1 && IndexBit(|s|) <= v < Pow(16, |s|)
    ensures v < TwoTo32 <==> |s| <= 8
  {
    assert Pow(16, 8) == TwoTo32;
    if |s| <= 8 {
      PowMonotone(16, |s|, 8);
    } else {
      PowMonotone(2, 32, 4 * |s| - 1);
      PowTwoFour(8);
    }
  }

  /** Such a value is written with exactly as many digits as the address. */
  lemma ExactWidth(s: string, v: nat)
    requires |s| >= 1 && IndexBit(|s|) <= v < Pow(16, |s|) && v < TwoTo32
    ensures FormatHex(Wrap32(v)) == ToBase(v, 16) && |ToBase(v, 16)| == |s|
    ensures ValueIn(FormatHex(Wrap32(v)), 16) == v
  {
    ModSmall(v);
    PowTwoFour(|s| - 1);
    PowMonotone(2, 4 * (|s| - 1), 4 * |s| - 1);
    ToBaseExact(v, 16, |s|);
  }

  /** The indexed target is determined by the address's value and width. */
  lemma IndexedAddressOfValue(s: string, v: nat, t: string)
    requires AllDigits(s, 16) && 1 <= |s| <= 8 && ValueIn(s, 16) == v
    requires ToBase(IndexBit(|s|) + v % IndexBit(|s|), 16) == t
    ensures IndexedAddress(Some(s)) == Success(t)
  {
    var r := IndexedAddress(Some(s)).value;
    HexLiteral(t, IndexBit(|s|) + v % IndexBit(|s|));
    CanonicalUnique(r, t, 16);
  }

  /** The address of a declaration at 2050 becomes A050 once its index bit is set. */
  lemma IndexedAddressSample(s: string)
    requires s == "2050"
    ensures IndexedAddress(Some(s)) == Success("A050")
  {
    assert AllDigits(s, 16) by {
      assert IsDigitIn(s[0], 16) && IsDigitIn(s[1], 16) && IsDigitIn(s[2], 16) && IsDigitIn(s[3], 16);
    }
    assert ValueIn(s, 16) == 0x2050 by {
      HexLiteral(s, 0x2050);
    }
    assert IndexBit(4) == 0x8000 by {
      assert IndexBit(4) == Pow(2, 15);
      assert Pow(2, 15) == 0x8000;
    }
    assert ToBase(0xA050, 16) == "A050";
    IndexedAddressOfValue(s, 0x2050, "A050");
  }

  // ---------------------------------------------------------------------------
  // Resolving one line

  /** What the second pass writes into a line's `OpCode`, or `None` when it
      leaves the line alone (CompileHelper.cs:96-146). It reads the line's
      mnemonic and operand and the other lines' labels and addresses, never an
      `OpCode`; only indexed operands and WORD constants can throw. */
  function ObjectCode(inst: Instruction, insts: seq<Instruction>): (r: Result<Option<string>, Error>)
    ensures IsBeginEnd(inst.mnemonic.name) ==> r == Success(None)
    ensures r.Failure? ==> && inst.parameter.Some?
                           && (!NoneOf(inst.parameter.value, [',']) || inst.mnemonic.name == "WORD")
  {
    var m := inst.mnemonic;
    if IsBeginEnd(m.name) then Success(None)
    else
      match inst.parameter
      case None => Success(Some(PadRight(m.opCode, 6, '0')))
      case Some(p) =>
        var parts := Split(p, [',']);
        if |parts| > 1 then
          var table := SymbolTable(insts);
          match FindLabel(table, parts[0])
          case None => Success(None)
          case Some(k) =>
            var address :- IndexedAddress(table[k].memoryLocation);
            Success(Some(m.opCode + address))
        else if m.name == "WORD" then
          SplitNone(p, [',']);
          var word :- FormatHexToLength(Some(p), 6);
          Success(Some(word))
        else
          match FindLabel(insts, p)
          case None => Success(None)
          case Some(k) => Success(Some(PadRight(m.opCode + insts[k].memoryLocation.GetOr(""), 6, '0')))
  }

  /** One line after the second pass: its object code written, or the line as it was. */
  function Resolve(inst: Instruction, insts: seq<Instruction>): (r: Result<Instruction, Error>)
    ensures r.Success? ==> SameLine(r.value, inst)
  {
    var code :- ObjectCode(inst, insts);
    Success(if code.Some? then inst.(opCode := code) else inst)
  }

  /** Two versions of a line that differ at most in their object code. */
  predicate SameLine(a: Instruction, b: Instruction) {
    a.(opCode := None) == b.(opCode := None)
  }

  /** Two lists that differ at most in their lines' object codes. */
  predicate SameShape(a: seq<Instruction>, b: seq<Instruction>) {
    |a| == |b| && forall i :: 0 <= i < |a| ==> SameLine(a[i], b[i])
  }

  // ---------------------------------------------------------------------------
  // The cases of the second pass, one lemma each

  /** START and END lines are skipped. */
  lemma SkipsBeginEnd(inst: Instruction, insts: seq<Instruction>)
    requires IsBeginEnd(inst.mnemonic.name)
    ensures Resolve(inst, insts) == Success(inst)
  {
  }

  /** A line without an operand gets its opcode filled with '0' to six characters. */
  lemma NoOperand(inst: Instruction, insts: seq<Instruction>)
    requires !IsBeginEnd(inst.mnemonic.name) && inst.parameter.None?
    ensures Resolve(inst, insts).Success?
    ensures var op, code := inst.mnemonic.opCode, Resolve(inst, insts).value.opCode;
            && code.Some? && |code.value| == (if |op| >= 6 then |op| else 6)
            && code.value[..|op|] == op
            && forall i :: |op| <= i < |code.value| ==> code.value[i] == '0'
  {
  }

  /** A WORD line's object code is its operand as a six-digit hexadecimal
      constant; an operand that is not 32-bit hexadecimal throws. */
  lemma WordConstant(inst: Instruction, insts: seq<Instruction>, p: string)
    requires !IsBeginEnd(inst.mnemonic.name) && inst.mnemonic.name == "WORD"
    requires inst.parameter == Some(p) && NoneOf(p, [','])
    ensures Resolve(inst, insts).Success? <==> IsHex32(p)
    ensures !IsHex32(p) ==> Resolve(inst, insts) == Failure(NotHexString(p))
    ensures IsHex32(p) ==> Resolve(inst, insts).value.opCode == Some(FormatHexToLength(Some(p), 6).value)
  {
    SplitNone(p, [',']);
  }

  /** A direct operand naming a label gets the opcode followed by the address
      of the first line carrying that label, filled with '0' to six characters
      (a line without an address contributes nothing). */
  lemma DirectOperand(inst: Instruction, insts: seq<Instruction>, p: string, k: nat)
    requires !IsBeginEnd(inst.mnemonic.name) && inst.mnemonic.name != "WORD"
    requires inst.parameter == Some(p) && NoneOf(p, [','])
    requires k < |insts| && insts[k].labelText == Some(p)
    requires forall j :: 0 <= j < k ==> insts[j].labelText != Some(p)
    ensures Resolve(inst, insts).Success?
    ensures Resolve(inst, insts).value.opCode
            == Some(PadRight(inst.mnemonic.opCode + insts[k].memoryLocation.GetOr(""), 6, '0'))
  {
    SplitNone(p, [',']);
    FindLabelFirst(insts, p, k);
  }

  /** A direct operand that names no label leaves the line as it was. */
  lemma DirectOperandMissing(inst: Instruction, insts: seq<Instruction>, p: string)
    requires !IsBeginEnd(inst.mnemonic.name) && inst.mnemonic.name != "WORD"
    requires inst.parameter == Some(p) && NoneOf(p, [','])
    requires forall j :: 0 <= j < |insts| ==> insts[j].labelText != Some(p)
    ensures Resolve(inst, insts) == Success(inst)
  {
    SplitNone(p, [',']);
  }

  /** An indexed operand `name,rest` is looked up among the declaration lines
      only: the first one labelled `name` gives its address with the index bit
      set, after the opcode; `rest` is never read. */
  lemma IndexedOperand(inst: Instruction, insts: seq<Instruction>, name: string, rest: string, k: nat)
    requires !IsBeginEnd(inst.mnemonic.name)
    requires inst.parameter == Some(name + [','] + rest) && NoneOf(name, [','])
    requires k < |insts| && IsSymbolName(insts[k].mnemonic.name) && insts[k].labelText == Some(name)
    requires forall j :: 0 <= j < k ==> !(IsSymbolName(insts[j].mnemonic.name) && insts[j].labelText == Some(name))
    ensures Resolve(inst, insts).Success? <==> IndexedAddress(insts[k].memoryLocation).Success?
    ensures Resolve(inst, insts).Failure? ==> Resolve(inst, insts).error == IndexedAddress(insts[k].memoryLocation).error
    ensures Resolve(inst, insts).Success? ==>
              Resolve(inst, insts).value.opCode == Some(inst.mnemonic.opCode + IndexedAddress(insts[k].memoryLocation).value)
  {
    SplitHead(name, ',', rest, [',']);
    FindSymbol(insts, name, k);
  }

  /** An indexed operand whose name no declaration line carries leaves the line
      as it was, even when another kind of line has that label. */
  lemma IndexedOperandMissing(inst: Instruction, insts: seq<Instruction>, name: string, rest: string)
    requires !IsBeginEnd(inst.mnemonic.name)
    requires inst.parameter == Some(name + [','] + rest) && NoneOf(name, [','])
    requires forall j :: 0 <= j < |insts| ==> !(IsSymbolName(insts[j].mnemonic.name) && insts[j].labelText == Some(name))
    ensures Resolve(inst, insts) == Success(inst)
  {
    SplitHead(name, ',', rest, [',']);
    FindSymbolMiss(insts, name);
  }

  // ---------------------------------------------------------------------------
  // Object codes are never read

  lemma {:induction false} FindLabelSameShape(a: seq<Instruction>, b: seq<Instruction>, name: string)
    requires SameShape(a, b)
    ensures FindLabel(a, name) == FindLabel(b, name)
    decreases |a|
  {
    if |a| > 0 {
      SameShapeTail(a, b);
      FindLabelSameShape(a[1..], b[1..], name);
    }
  }

  lemma {:induction false} SymbolTableSameShape(a: seq<Instruction>, b: seq<Instruction>)
    requires SameShape(a, b)
    ensures SameShape(SymbolTable(a), SymbolTable(b))
    decreases |a|
  {
    if |a| > 0 {
      SameShapeTail(a, b);
      SymbolTableSameShape(a[1..], b[1..]);
      SymbolTableCons(a);
      SymbolTableCons(b);
      if IsSymbolName(a[0].mnemonic.name) {
        SameShapeCons(a[0], b[0], SymbolTable(a[1..]), SymbolTable(b[1..]));
      }
    }
  }

  /** The first lines of two lists of the same shape agree but for the object code, and so do the rests. */
  lemma SameShapeTail(a: seq<Instruction>, b: seq<Instruction>)
    requires SameShape(a, b) && |a| > 0
    ensures SameLine(a[0], b[0]) && a[0].labelText == b[0].labelText && a[0].mnemonic == b[0].mnemonic
    ensures SameShape(a[1..], b[1..])
  {
    assert SameLine(a[0], b[0]);
    assert a[0].(opCode := None).mnemonic == b[0].(opCode := None).mnemonic;
    assert a[0].(opCode := None).labelText == b[0].(opCode := None).labelText;
    forall i | 0 <= i < |a| - 1 ensures SameLine(a[1..][i], b[1..][i]) {
      assert SameLine(a[i + 1], b[i + 1]);
    }
  }

  lemma SameShapeCons(x: Instruction, y: Instruction, a: seq<Instruction>, b: seq<Instruction>)
    requires SameLine(x, y) && SameShape(a, b)
    ensures SameShape([x] + a, [y] + b)
  {
    forall i | 0 <= i < |a| + 1 ensures SameLine(([x] + a)[i], ([y] + b)[i]) {
      if i > 0 {
        assert SameLine(a[i - 1], b[i - 1]);
      }
    }
  }

  lemma SymbolTableCons(a: seq<Instruction>)
    requires |a| > 0
    ensures SymbolTable(a) == if IsSymbolName(a[0].mnemonic.name) then [a[0]] + SymbolTable(a[1..]) else SymbolTable(a[1..])
  {
  }

  /** Filtering distributes over concatenation: the symbol table keeps the
      declaration lines in the order they were read. */
  lemma {:induction false} SymbolTableAppend(a: seq<Instruction>, b: seq<Instruction>)
    ensures SymbolTable(a + b) == SymbolTable(a) + SymbolTable(b)
    decreases |a|
  {
    if |a| > 0 {
      assert (a + b)[0] == a[0];
      assert (a + b)[1..] == a[1..] + b;
      SymbolTableAppend(a[1..], b);
      SymbolTableCons(a + b);
      SymbolTableCons(a);
    } else {
      assert a + b == b;
    }
  }

  /** A one-line list is in the symbol table iff it is a declaration. */
  lemma SymbolTableSingle(x: Instruction)
    ensures SymbolTable([x]) == if IsSymbolName(x.mnemonic.name) then [x] else []
  {
    SymbolTableCons([x]);
    assert [x][1..] == [];
  }

  /** A line's object code depends on neither its own object code nor any
      other line's, so the source, which resolves each line against the list
      it is updating, gets what resolving against the first pass's output gets. */
  lemma ObjectCodeReadsNoCodes(x: Instruction, y: Instruction, a: seq<Instruction>, b: seq<Instruction>)
    requires SameLine(x, y) && SameShape(a, b)
    ensures ObjectCode(x, a) == ObjectCode(y, b)
  {
    assert x.mnemonic == y.mnemonic && x.parameter == y.parameter by {
      assert x.(opCode := None).mnemonic == y.(opCode := None).mnemonic;
      assert x.(opCode := None).parameter == y.(opCode := None).parameter;
    }
    var ta, tb := SymbolTable(a), SymbolTable(b);
    SymbolTableSameShape(a, b);
    forall name: string ensures FindLabel(a, name) == FindLabel(b, name) && FindLabel(ta, name) == FindLabel(tb, name) {
      FindLabelSameShape(a, b, name);
      FindLabelSameShape(ta, tb, name);
    }
    forall k | 0 <= k < |a| ensures a[k].memoryLocation == b[k].memoryLocation {
      assert SameLine(a[k], b[k]);
      assert a[k].(opCode := None).memoryLocation == b[k].(opCode := None).memoryLocation;
    }
    forall k | 0 <= k < |ta| ensures ta[k].memoryLocation == tb[k].memoryLocation {
      assert SameLine(ta[k], tb[k]);
      assert ta[k].(opCode := None).memoryLocation == tb[k].(opCode := None).memoryLocation;
    }
  }

  /** Resolving an already resolved line against a list of the same shape
      changes nothing. */
  lemma ResolveIdempotent(inst: Instruction, a: seq<Instruction>, b: seq<Instruction>)
    requires SameShape(a, b) && Resolve(inst, a).Success?
    ensures Resolve(Resolve(inst, a).value, b) == Resolve(inst, a)
  {
    var y := Resolve(inst, a).value;
    ObjectCodeReadsNoCodes(y, inst, b, a);
  }

  // ---------------------------------------------------------------------------
  // The whole pass

  /** The outcomes of the first `n` steps of a loop that stops at the first
      exception: all the values when no step throws, otherwise the first
      exception. */
  function Collect<T>(rs: seq<Result<T, Error>>, n: nat): (r: Result<seq<T>, Error>)
    requires n <= |rs|
    ensures r.Success? <==> forall i :: 0 <= i < n ==> rs[i].Success?
    ensures r.Success? ==> |r.value| == n && forall i :: 0 <= i < n ==> rs[i] == Success(r.value[i])
  {
    if n == 0 then Success([])
    else
      var done :- Collect(rs, n - 1);
      var last :- rs[n - 1];
      Success(done + [last])
  }

  /** The exception a collection stops with is that of the first step that throws. */
  lemma {:induction false} FirstFailure<T>(rs: seq<Result<T, Error>>, n: nat) returns (i: nat)
    requires n <= |rs| && Collect(rs, n).Failure?
    ensures i < n && rs[i] == Failure(Collect(rs, n).error)
    ensures forall j :: 0 <= j < i ==> rs[j].Success?
  {
    if Collect(rs, n - 1).Failure? {
      i := FirstFailure(rs, n - 1);
    } else {
      i := n - 1;
    }
  }

  /** Steps that each give a known value collect to exactly those values. */
  lemma {:induction false} CollectIs<T>(rs: seq<Result<T, Error>>, out: seq<T>, n: nat)
    requires n <= |rs| && n <= |out|
    requires forall i :: 0 <= i < n ==> rs[i] == Success(out[i])
    ensures Collect(rs, n) == Success(out[..n])
  {
    if n > 0 {
      CollectIs(rs, out, n - 1);
      assert out[..n] == out[..n - 1] + [out[n - 1]];
    }
  }

  /** Once a prefix throws, every longer prefix throws the same exception. */
  lemma {:induction false} CollectFails<T>(rs: seq<Result<T, Error>>, k: nat, n: nat)
    requires k <= n <= |rs| && Collect(rs, k).Failure?
    ensures Collect(rs, n) == Collect(rs, k)
    decreases n - k
  {
    if k < n {
      CollectFails(rs, k, n - 1);
    }
  }

  /** Each line resolved against the whole list. */
  function Resolutions(insts: seq<Instruction>): (r: seq<Result<Instruction, Error>>)
    ensures |r| == |insts|
    ensures forall i :: 0 <= i < |insts| ==> r[i] == Resolve(insts[i], insts)
  {
    seq(|insts|, i requires 0 <= i < |insts| => Resolve(insts[i], insts))
  }

  /** The second pass over the first pass's output: every line resolved, or
      the exception of the first line that throws. */
  function ResolveAll(insts: seq<Instruction>): (r: Result<seq<Instruction>, Error>)
    ensures r.Success? <==> forall i :: 0 <= i < |insts| ==> Resolve(insts[i], insts).Success?
    ensures r.Success? ==> SameShape(r.value, insts)
    ensures r.Success? ==> forall i :: 0 <= i < |insts| ==> Resolve(insts[i], insts) == Success(r.value[i])
  {
    Collect(Resolutions(insts), |insts|)
  }

  /** The second-pass loop as the source runs it (CompileHelper.cs:96-147):
      each line in turn is resolved against the list as updated so far and
      written back; the first exception ends the pass. The result is the
      pass over the unmodified list. */
  method ResolveInPlace(insts: seq<Instruction>) returns (r: Result<seq<Instruction>, Error>)
    ensures r == ResolveAll(insts)
  {
    var rs := Resolutions(insts);
    var list := insts;
    var i := 0;
    while i < |list|
      invariant 0 <= i <= |list| == |insts|
      invariant SameShape(list, insts)
      invariant list[i..] == insts[i..]
      invariant Collect(rs, i) == Success(list[..i])
    {
      assert list[i] == insts[i] by {
        assert list[i..][0] == insts[i..][0];
      }
      ObjectCodeReadsNoCodes(list[i], insts[i], list, insts);
      var step := Resolve(list[i], list);
      assert rs[i] == step;
      if step.Failure? {
        CollectFails(rs, i + 1, |insts|);
        return Failure(step.error);
      }
      WriteBack(rs, list, insts, i, step.value);
      list := list[i := step.value];
      i := i + 1;
    }
    assert list[..i] == list;
    return Success(list);
  }

  /** Writing line `i`'s resolution back keeps the loop's invariant for `i + 1`. */
  lemma WriteBack(rs: seq<Result<Instruction, Error>>, list: seq<Instruction>, insts: seq<Instruction>, i: nat, v: Instruction)
    requires i < |rs| && i < |list| == |insts| && SameShape(list, insts) && list[i..] == insts[i..]
    requires Collect(rs, i) == Success(list[..i]) && rs[i] == Success(v) && SameLine(v, insts[i])
    ensures SameShape(list[i := v], insts)
    ensures list[i := v][i + 1..] == insts[i + 1..]
    ensures Collect(rs, i + 1) == Success(list[i := v][..i + 1])
  {
    var l := list[i := v];
    assert l[..i + 1] == list[..i] + [v];
    assert l[i + 1..] == list[i..][1..];
    forall k | 0 <= k < |l| ensures SameLine(l[k], insts[k]) {
      if k != i {
        assert l[k] == list[k];
      }
    }
  }

  /** Running the second pass on its own output changes nothing. */
  lemma SecondPassIdempotent(insts: seq<Instruction>)
    requires ResolveAll(insts).Success?
    ensures ResolveAll(ResolveAll(insts).value) == ResolveAll(insts)
  {
    var out := ResolveAll(insts).value;
    forall i | 0 <= i < |out| ensures Resolutions(out)[i] == Success(out[i]) {
      ResolveIdempotent(insts[i], insts, out);
    }
    CollectIs(Resolutions(out), out, |out|);
    assert out[..|out|] == out;
  }

  // ---------------------------------------------------------------------------
  // Object codes fit in a listing cell

  /** A hexadecimal numeral holds neither a tab nor a line break. */
  lemma HexIsCell(s: string)
    requires AllDigits(s, 16)
    ensures IsCell(s)
  {
    forall i | 0 <= i < |s| ensures s[i] !in ['\t', '\n'] {
      assert IsDigitIn(s[i], 16);
    }
  }

  /** Padding with '0' keeps a string a cell. */
  lemma PadRightIsCell(s: string, width: int)
    requires IsCell(s)
    ensures IsCell(PadRight(s, width, '0'))
  {
    var r := PadRight(s, width, '0');
    forall i | 0 <= i < |r| ensures r[i] !in ['\t', '\n'] {
      if i < |s| {
        assert r[i] == r[..|s|][i];
      }
    }
  }

  /** An object code the second pass writes fits in a listing cell when the
      line's opcode and the addresses of the list do: it is the opcode padded
      with zeros, the opcode and an indexed address, a WORD constant, or the
      opcode and a label's address padded with zeros. */
  lemma ObjectCodeIsCell(inst: Instruction, insts: seq<Instruction>)
    requires IsCell(inst.mnemonic.opCode)
    requires forall k :: 0 <= k < |insts| && insts[k].memoryLocation.Some? ==> IsCell(insts[k].memoryLocation.value)
    requires ObjectCode(inst, insts).Success? && ObjectCode(inst, insts).value.Some?
    ensures IsCell(ObjectCode(inst, insts).value.value)
  {
    var m := inst.mnemonic;
    var code := ObjectCode(inst, insts).value.value;
    if inst.parameter.None? {
      PadRightIsCell(m.opCode, 6);
    } else {
      var p := inst.parameter.value;
      var parts := Split(p, [',']);
      if |parts| > 1 {
        var table := SymbolTable(insts);
        var k := FindLabel(table, parts[0]).value;
        var address := IndexedAddress(table[k].memoryLocation).value;
        HexIsCell(address);
        NoneOfAppend(m.opCode, address, ['\t', '\n']);
      } else if m.name == "WORD" {
        SplitNone(p, [',']);
        HexIsCell(FormatHexToLength(Some(p), 6).value);
      } else {
        var k := FindLabel(insts, p).value;
        var location := insts[k].memoryLocation.GetOr("");
        NoneOfAppend(m.opCode, location, ['\t', '\n']);
        PadRightIsCell(m.opCode + location, 6);
      }
    }
  }
}

=== FILE: Text.dfy ===
/** The .NET string operations the assembler's line handling relies on:
    `char.IsWhiteSpace`, `string.IsNullOrWhiteSpace`, `Trim`, `Split(char[])`
    (empty entries kept) and the matching join. */
module Text {
  import opened Wrappers

  /** `char.IsWhiteSpace`: the Unicode space, line and paragraph separators
      plus the controls U+0009-U+000D and U+0085. */
  predicate IsWhiteSpace(c: char) {
    var u := c as int;
    || 0x09 <= u <= 0x0D || u == 0x20 || u == 0x85 || u == 0xA0
    || u == 0x1680 || 0x2000 <= u <= 0x200A || u == 0x2028 || u == 0x2029
    || u == 0x202F || u == 0x205F || u == 0x3000
  }

  /** `string.IsNullOrWhiteSpace` on a present string: nothing but white space. */
  predicate IsBlank(s: string) {
    forall i :: 0 <= i < |s| ==> IsWhiteSpace(s[i])
  }

  /** `string.IsNullOrWhiteSpace` on a string that may be null. */
  predicate IsNullOrBlank(s: Option<string>) {
    s.None? || IsBlank(s.value)
  }

  /** `string.IsNullOrEmpty`. */
  predicate IsNullOrEmpty(s: Option<string>) {
    s.None? || s.value == ""
  }

  // ---------------------------------------------------------------------------
  // Trim

  /** `TrimStart()`: drops the leading white space and nothing else. */
  function TrimStart(s: string): (r: string)
    ensures |r| <= |s| && r == s[|s| - |r|..]
    ensures forall j :: 0 <= j < |s| - |r| ==> IsWhiteSpace(s[j])
    ensures |r| > 0 ==> !IsWhiteSpace(r[0])
    decreases |s|
  {
    if |s| > 0 && IsWhiteSpace(s[0]) then TrimStart(s[1..]) else s
  }

  /** `TrimEnd()`: drops the trailing white space and nothing else. */
  function TrimEnd(s: string): (r: string)
    ensures |r| <= |s| && r == s[..|r|]
    ensures forall j :: |r| <= j < |s| ==> IsWhiteSpace(s[j])
    ensures |r| > 0 ==> !IsWhiteSpace(r[|r| - 1])
    decreases |s|
  {
    if |s| > 0 && IsWhiteSpace(s[|s| - 1]) then TrimEnd(s[..|s| - 1]) else s
  }

  /** `Trim()`: both ends. */
  function Trim(s: string): (r: string)
    ensures |r| > 0 ==> !IsWhiteSpace(r[0]) && !IsWhiteSpace(r[|r| - 1])
  {
    TrimEnd(TrimStart(s))
  }

  /** What `Trim` keeps is a contiguous run of the input whose surroundings
      are all white space. */
  lemma TrimIsSlice(s: string) returns (a: nat, b: nat)
    ensures a <= b <= |s| && Trim(s) == s[a..b]
    ensures forall j :: 0 <= j < a ==> IsWhiteSpace(s[j])
    ensures forall j :: b <= j < |s| ==> IsWhiteSpace(s[j])
  {
    var t := TrimStart(s);
    a := |s| - |t|;
    b := a + |TrimEnd(t)|;
    assert t[..|TrimEnd(t)|] == s[a..b];
    forall j | b <= j < |s| ensures IsWhiteSpace(s[j]) {
      assert s[j] == t[j - a];
    }
  }

  /** A string with no white space at either end is its own trim. */
  lemma TrimUntrimmed(s: string)
    requires |s| > 0 ==> !IsWhiteSpace(s[0]) && !IsWhiteSpace(s[|s| - 1])
    ensures Trim(s) == s
  {
  }

  /** Trimming twice is trimming once. */
  lemma TrimIdempotent(s: string)
    ensures Trim(Trim(s)) == Trim(s)
  {
    TrimUntrimmed(Trim(s));
  }

  /** A string is blank exactly when it trims to nothing. */
  lemma BlankIffTrimsEmpty(s: string)
    ensures IsBlank(s) <==> Trim(s) == ""
  {
    var a, b := TrimIsSlice(s);
    if Trim(s) == "" {
      forall j | 0 <= j < |s| ensures IsWhiteSpace(s[j]) {
        assert j < a || b <= j;
      }
    }
  }

  // ---------------------------------------------------------------------------
  // Split and join

  predicate NoneOf(s: string, seps: seq<char>) {
    forall i :: 0 <= i < |s| ==> s[i] !in seps
  }

  /** The position of the first separator, or `|s|` when there is none. */
  function IndexOfAny(s: string, seps: seq<char>): (k: nat)
    ensures k <= |s| && NoneOf(s[..k], seps)
    ensures k < |s| ==> s[k] in seps
    decreases |s|
  {
    if |s| == 0 || s[0] in seps then 0 else 1 + IndexOfAny(s[1..], seps)
  }

  /** `s.Split(seps)`: the pieces between separators, empty pieces included,
      so there is always one more piece than there are separators. */
  function Split(s: string, seps: seq<char>): (r: seq<string>)
    ensures |r| >= 1
    ensures forall i :: 0 <= i < |r| ==> NoneOf(r[i], seps)
    decreases |s|
  {
    var k := IndexOfAny(s, seps);
    if k == |s| then [s] else [s[..k]] + Split(s[k + 1..], seps)
  }

  /** `string.Join(sep, parts)`. */
  function Join(parts: seq<string>, sep: char): (r: string)
    decreases |parts|
  {
    if |parts| == 0 then "" else if |parts| == 1 then parts[0]
    else parts[0] + [sep] + Join(parts[1..], sep)
  }

  lemma IndexOfAnyJoined(a: string, sep: char, rest: string, seps: seq<char>)
    requires NoneOf(a, seps) && sep in seps
    ensures IndexOfAny(a + [sep] + rest, seps) == |a|
  {
    var s := a + [sep] + rest;
    assert s[|a|] == sep;
  }

  lemma IndexOfAnyNone(s: string, seps: seq<char>)
    requires NoneOf(s, seps)
    ensures IndexOfAny(s, seps) == |s|
  {
  }

  /** Splitting on a separator undoes joining with it, for pieces free of
      separators. */
  lemma {:induction false} SplitJoin(parts: seq<string>, sep: char, seps: seq<char>)
    requires |parts| >= 1 && sep in seps
    requires forall i :: 0 <= i < |parts| ==> NoneOf(parts[i], seps)
    ensures Split(Join(parts, sep), seps) == parts
    decreases |parts|
  {
    if |parts| == 1 {
      IndexOfAnyNone(parts[0], seps);
    } else {
      var rest := Join(parts[1..], sep);
      var s := parts[0] + [sep] + rest;
      IndexOfAnyJoined(parts[0], sep, rest, seps);
      assert s[..|parts[0]|] == parts[0];
      assert s[|parts[0]| + 1..] == rest;
      SplitJoin(parts[1..], sep, seps);
      assert parts == [parts[0]] + parts[1..];
    }
  }

  /** A string free of separators splits into itself alone. */
  lemma SplitNone(s: string, seps: seq<char>)
    requires NoneOf(s, seps)
    ensures Split(s, seps) == [s]
  {
    IndexOfAnyNone(s, seps);
  }

  /** A separator after a separator-free head splits off that head. */
  lemma SplitHead(a: string, sep: char, rest: string, seps: seq<char>)
    requires NoneOf(a, seps) && sep in seps
    ensures |Split(a + [sep] + rest, seps)| > 1 && Split(a + [sep] + rest, seps)[0] == a
  {
    var s := a + [sep] + rest;
    IndexOfAnyJoined(a, sep, rest, seps);
    assert s[..|a|] == a;
  }

  /** A separator after a separator-free head splits off exactly that head. */
  lemma SplitCons(a: string, sep: char, rest: string, seps: seq<char>)
    requires NoneOf(a, seps) && sep in seps
    ensures Split(a + [sep] + rest, seps) == [a] + Split(rest, seps)
  {
    var s := a + [sep] + rest;
    IndexOfAnyJoined(a, sep, rest, seps);
    assert s[..|a|] == a;
    assert s[|a| + 1..] == rest;
  }

  /** How many times `c` occurs in `s`. */
  function Occurrences(s: string, c: char): (n: nat)
    ensures n <= |s|
    ensures n == 0 <==> NoneOf(s, [c])
    decreases |s|
  {
    if |s| == 0 then 0 else (if s[0] == c then 1 else 0) + Occurrences(s[1..], c)
  }

  lemma {:induction false} OccurrencesConcat(a: string, b: string, c: char)
    ensures Occurrences(a + b, c) == Occurrences(a, c) + Occurrences(b, c)
    decreases |a|
  {
    if |a| > 0 {
      assert (a + b)[1..] == a[1..] + b;
      OccurrencesConcat(a[1..], b, c);
    } else {
      assert a + b == b;
    }
  }

  /** Pieces free of the separator, joined by it, hold one separator fewer
      than there are pieces. */
  lemma {:induction false} OccurrencesJoin(parts: seq<string>, sep: char)
    requires |parts| >= 1
    requires forall i :: 0 <= i < |parts| ==> NoneOf(parts[i], [sep])
    ensures Occurrences(Join(parts, sep), sep) == |parts| - 1
    decreases |parts|
  {
    if |parts| > 1 {
      OccurrencesJoin(parts[1..], sep);
      OccurrencesConcat(parts[0] + [sep], Join(parts[1..], sep), sep);
      OccurrencesConcat(parts[0], [sep], sep);
      assert Occurrences([sep], sep) == 1 by {
        assert [sep][1..] == [];
      }
    }
  }

  /** Joining pieces free of some characters with a separator that is not
      one of them leaves the result free of them. */
  lemma {:induction false} JoinNoneOf(parts: seq<string>, sep: char, cs: seq<char>)
    requires sep !in cs
    requires forall i :: 0 <= i < |parts| ==> NoneOf(parts[i], cs)
    ensures NoneOf(Join(parts, sep), cs)
    decreases |parts|
  {
    if |parts| > 1 {
      JoinNoneOf(parts[1..], sep, cs);
      var s := parts[0] + [sep] + Join(parts[1..], sep);
      forall i | 0 <= i < |s| ensures s[i] !in cs {
        if i < |parts[0]| {
          assert s[i] == parts[0][i];
        } else if i > |parts[0]| {
          assert s[i] == Join(parts[1..], sep)[i - |parts[0]| - 1];
        }
      }
    }
  }

  /** Joining the pieces with the one separator they were split on gives the
      string back. */
  lemma {:induction false} JoinSplit(s: string, sep: char)
    ensures Join(Split(s, [sep]), sep) == s
    decreases |s|
  {
    var k := IndexOfAny(s, [sep]);
    if k < |s| {
      var head, tail := s[..k], s[k + 1..];
      JoinSplit(tail, sep);
      assert s == head + [sep] + tail;
      SplitCons(head, sep, tail, [sep]);
      JoinCons(head, Split(tail, [sep]), sep);
    }
  }

  lemma JoinCons(part: string, rest: seq<string>, sep: char)
    requires |rest| >= 1
    ensures Join([part] + rest, sep) == part + [sep] + Join(rest, sep)
  {
    assert ([part] + rest)[1..] == rest;
  }

  // ---------------------------------------------------------------------------
  // Characters a piece is free of

  /** Fits in one cell of a tab-separated text with one row per line: no tab
      and no line break. */
  predicate IsCell(s: string) {
    NoneOf(s, ['\t', '\n'])
  }

  lemma NoneOfAppend(a: string, b: string, cs: seq<char>)
    ensures NoneOf(a + b, cs) <==> NoneOf(a, cs) && NoneOf(b, cs)
  {
    if NoneOf(a + b, cs) {
      forall i | 0 <= i < |a| ensures a[i] !in cs {
        assert (a + b)[i] == a[i];
      }
      forall i | 0 <= i < |b| ensures b[i] !in cs {
        assert (a + b)[|a| + i] == b[i];
      }
    }
  }

  lemma NoneOfSlice(s: string, i: nat, j: nat, cs: seq<char>)
    requires i <= j <= |s| && NoneOf(s, cs)
    ensures NoneOf(s[i..j], cs)
  {
    assert forall k :: 0 <= k < j - i ==> s[i..j][k] == s[i + k];
  }

  /** The pieces of a split hold only characters of the whole. */
  lemma {:induction false} SplitNoneOf(s: string, seps: seq<char>, cs: seq<char>)
    requires NoneOf(s, cs)
    ensures forall i :: 0 <= i < |Split(s, seps)| ==> NoneOf(Split(s, seps)[i], cs)
    decreases |s|
  {
    var k := IndexOfAny(s, seps);
    if k < |s| {
      NoneOfSlice(s, 0, k, cs);
      NoneOfSlice(s, k + 1, |s|, cs);
      assert s[k + 1..|s|] == s[k + 1..];
      SplitNoneOf(s[k + 1..], seps, cs);
      assert Split(s, seps) == [s[..k]] + Split(s[k + 1..], seps);
    }
  }

  /** Trimming adds no character. */
  lemma TrimNoneOf(s: string, cs: seq<char>)
    requires NoneOf(s, cs)
    ensures NoneOf(Trim(s), cs)
  {
    var a, b := TrimIsSlice(s);
    NoneOfSlice(s, a, b, cs);
  }
}

=== FILE: Wrappers.dfy ===
/** Failure-compatible wrappers used throughout the model: `Option` stands for
    a reference that may be null, `Result` for a computation that may throw. */
module Wrappers {

  /** A value that may be absent (a C# `null`). */
  datatype Option<+T> = None | Some(value: T) {

    /** Returns the wrapped value, or `default` when absent. */
    function GetOr(default: T): T {
      match this
      case Some(v) => v
      case None => default
    }
  }

  /** The outcome of an operation that either returns a value or throws. */
  datatype Result<+T, +E> = Success(value: T) | Failure(error: E) {

    predicate IsFailure() {
      Failure?
    }

    function PropagateFailure<U>(): Result<U, E>
      requires Failure?
    {
      Failure(error)
    }

    function Extract(): T
      requires Success?
    {
      value
    }
  }
}
